=== FILE: README.md ===
# SLURM advance reservations, modelled in Dafny

This project models the advance-reservation engine of the SLURM controller,
`src/slurmctld/reservation.c`. An advance reservation sets a group of
cluster nodes aside for a time window and for some users or bank
accounts. The model covers:

- the reservation record and the registry that owns it (`resv_list`, the
  `top_suffix` id counter and the `last_resv_update` stamp);
- the administrative operations `create_resv`, `update_resv` and
  `delete_resv`;
- the account and user list editing they rely on (`name`, `+name` and
  `-name` expressions, and the in-place cut of a user name from the users
  string);
- the overlap test, node selection and reservation resizing;
- the post-load validation that purges bad records and recomputes the id
  counter;
- the job side: binding a job to a reservation, testing where and when a
  job may run, and the begin/check/finish sweep that purges expired,
  unused reservations;
- the field order of the saved record, as written and as read back.

The model is functional:

- Node bitmaps are `set<nat>` over the node-table indices.
- The registry is a `seq` of immutable records.
- C fields that may be NULL are `Option`s.
- Every operation that mutates state returns the new state together with
  the error code, if any. This makes partial commits visible: an update
  that fails part-way still returns the fields it committed.
- The clock (`time(NULL)`) is a parameter `now`.
- The user database (`uid_from_string`) is a map, consulted for non-empty
  names only.
- The node and partition tables are one `Config` value.

Modules, one per file:

| module | file | contents |
|---|---|---|
| `Base` | base.dfy | `Option`, `Result`, error codes, sentinels, 32-bit arithmetic |
| `Strings` | strings.dfy | `strtok_r`, comma join, `strstr`, `strrchr`, `"%d"` and `atoi` |
| `Bitmap` | bitmap.dfy | bitmaps as sets, `bit_pick_cnt` |
| `NodeConfig` | config.dfy | node and partition tables, node-list conversion, CPU counts |
| `Resv` | resv.dfy | the record, flags, name lookup, `_resv_overlap` |
| `Select` | select.dfy | `_select_nodes`, `_resize_resv` |
| `ListExpr` | listexpr.dfy | the `+`/`-` expression parser and list primitives |
| `Accounts` | accounts.dfy | `_build_account_list`, `_update_account_list` |
| `UserString` | userstring.dfy | the users-string cut of `-name` |
| `Users` | users.dfy | `_build_uid_list`, `_update_uid_list` |
| `Jobs` | jobs.dfy | job access, `job_test_resv`, the job sweep |
| `ResvAdmin` | admin.dfy | create, update, delete, validation, name generation |
| `Persist` | persist.dfy | `_pack_resv` and the unpack loop as field sequences |

Behaviours of the code worth knowing, which the model keeps:

- A `-name` list edit is not atomic. Removals made before a failing
  `-name` stay applied to the account list, the account string and the
  user id list. The users string is a special case, described under
  "Left out" (`Users.UpdateUidList`).
- The retry search of `job_test_resv` tests up to eleven windows before
  it gives up with INVALID_TIME_VALUE.
- A generated name that is already taken is regenerated unchanged, so
  `create_resv` loops forever. The model returns `Spins` for this case.
- `create_resv` advances `top_suffix` before it refuses a duplicate name,
  so that error path changes the registry.
- Setting MAINT, DAILY or WEEKLY masks the flags with that bit (`&=`).
  It does not OR the bit in.
- On `update_resv`, a refused end time keeps the new start time, and no
  overlap check runs after a failed step.
- An unparsable node list in `update_resv` sets both times to the old
  start time.
- `create_resv` runs the overlap check only for an explicit node list.
  Count-driven selection avoids overlaps by construction; this is proved
  as `Select.SelectNodesAvoidsReservations`.

## Model

| member | source | states |
|---|---|---|
| Base.MinutesToSecs | src/slurmctld/reservation.c:767-769 | a duration in minutes becomes seconds in `uint32_t`: exact below 2^32, reduced modulo 2^32 above |
| Strings.TokensOfJoin | src/slurmctld/reservation.c:402-412 | splitting the comma join of a token list with `strtok_r` gives the list back |
| Strings.AtoiOfIntToString | src/slurmctld/reservation.c:1348-1351 | `atoi` cast to `uint32_t` reads back every 32-bit id that `"%d"` printed, including those above 2^31 |
| Strings.LastIndexAfter | src/slurmctld/reservation.c:1348 | `strrchr` finds a `_` that no later `_` follows |
| Bitmap.PickCnt | src/slurmctld/reservation.c:1654-1655 | `bit_pick_cnt` succeeds iff enough bits are set; it returns exactly `n` of them, all below every bit left out |
| NodeConfig.NameToBitmapOfBitmapToName | src/slurmctld/reservation.c:1580 | the node list written for a bitmap parses back to the same bitmap when node names are distinct tokens |
| NodeConfig.CpuCountUnion | src/slurmctld/reservation.c:714-732 | the CPU count of two disjoint bitmaps together is the sum of their CPU counts |
| NodeConfig.CpuCountMono | src/slurmctld/reservation.c:714-732 | dropping nodes from a bitmap never raises its CPU count |
| NodeConfig.CpuCount | src/slurmctld/reservation.c:714-732 | an empty bitmap has no CPUs |
| NodeConfig.CpuCountSingleton | src/slurmctld/reservation.c:714-732 | the CPU count of one node is that node's own CPU count |
| Resv.UpdateFlagsOnlyClears | src/slurmctld/reservation.c:935-948 | a flag update never turns a bit on; a MAINT, DAILY or WEEKLY request leaves at most that one bit |
| Resv.UpdateFlagsNoFlagBits | src/slurmctld/reservation.c:935-948 | an unset request, or one with none of the six flag bits, leaves the flags alone |
| Resv.UpdateFlagsSetMaint | src/slurmctld/reservation.c:936-937 | requesting MAINT keeps only the MAINT bit, and only if it was set; a reservation without MAINT loses every flag |
| Resv.UpdateFlagsSetDaily | src/slurmctld/reservation.c:940-941 | requesting DAILY keeps only the DAILY bit, and only if it was set |
| Resv.UpdateFlagsSetWeekly | src/slurmctld/reservation.c:944-945 | requesting WEEKLY keeps only the WEEKLY bit, and only if it was set |
| Resv.UpdateFlagsClearMaint | src/slurmctld/reservation.c:938-939 | a NO_MAINT request clears exactly the MAINT bit |
| Resv.UpdateFlagsClearDaily | src/slurmctld/reservation.c:942-943 | a NO_DAILY request clears exactly the DAILY bit |
| Resv.UpdateFlagsClearWeekly | src/slurmctld/reservation.c:946-947 | a NO_WEEKLY request clears exactly the WEEKLY bit |
| Resv.FindByName | src/slurmctld/reservation.c:141-151 | name lookup returns the first entry with that name, and fails iff no entry has it |
| Resv.ResvOverlapScan | src/slurmctld/reservation.c:681-710 | the scan returns true iff the bitmap is non-NULL and some other entry, never itself, has a bitmap sharing a node and a window meeting `[start, end)` |
| Resv.ConflictFreeAppend | src/slurmctld/reservation.c:812-818 | appending an entry that overlaps nothing keeps the registry conflict-free |
| Resv.ConflictFreeReplace | src/slurmctld/reservation.c:1040-1046 | replacing an entry with one that overlaps no other entry keeps the registry conflict-free |
| Resv.ConflictFreeRemove | src/slurmctld/reservation.c:1119 | removing an entry keeps the registry conflict-free |
| ListExpr.Classify | src/slurmctld/reservation.c:341-363 | an expression parses iff no plain token follows a `+` or `-` token; each token is read as remove, add or set, with its prefix dropped |
| ListExpr.RemoveFirst | src/slurmctld/reservation.c:385-397 | the first matching entry is removed and later entries shift left; the removal fails iff the name is absent |
| ListExpr.RemoveEachSpec | src/slurmctld/reservation.c:381-401 | all removals succeed iff the names, counted with repeats, are in the list; the survivors are the list minus the names |
| ListExpr.RemoveEachPartial | src/slurmctld/reservation.c:381-401 | after a failed removal the list has lost exactly the names before the failing one, and the failing name is absent |
| ListExpr.AddEach | src/slurmctld/reservation.c:415-434 | adding keeps the old list as a prefix; every added name is present; each appended entry is new and appears once |
| ListExpr.AddEachPresent | src/slurmctld/reservation.c:419-429 | adding names that are all present leaves the list unchanged |
| Accounts.BuildAccountList | src/slurmctld/reservation.c:278-314 | building fails, as an invalid bank account, iff the string is NULL; otherwise it yields non-empty comma-free tokens |
| Accounts.BuildAccountListOfJoin | src/slurmctld/reservation.c:402-412 | a rebuilt accounts string builds back to its list; an emptied list, whose string is NULL, is refused |
| Accounts.UpdateAccountList | src/slurmctld/reservation.c:324-363 | every error is an invalid bank account and keeps the accounts string; a NULL expression or a plain token after `+`/`-` changes nothing |
| Accounts.UpdateAccountListAssign | src/slurmctld/reservation.c:366-375 | an all-plain expression replaces the string and the list exactly |
| Accounts.UpdateAccountListModify | src/slurmctld/reservation.c:377-451 | a `+`/`-` edit fails iff there are removals and the list is empty or lacks a removed name; on success the string is the join of the list, and the list is the survivors followed by new added names |
| Accounts.UpdateAccountListAddPresent | src/slurmctld/reservation.c:415-429 | `+name` for a listed name is a silent no-op |
| Accounts.UpdateAccountListPartialRemoval | src/slurmctld/reservation.c:381-401 | on the list `x,y`, the edit `-x,-z` fails after `x` has left the list, while the string still reads `x,y` |
| Users.BuildUidList | src/slurmctld/reservation.c:469-502 | building succeeds iff the string is non-NULL and every token resolves; it yields one uid per token, in order; every error is a missing user id |
| Users.BuildUidListOfSynced | src/slurmctld/reservation.c:469-502 | a users string that names the list's uids builds back to that list |
| Users.UpdateUidList | src/slurmctld/reservation.c:512-554 | every error is a missing user id; a NULL expression or a plain token after `+`/`-` changes nothing |
| Users.UpdateUidListAssign | src/slurmctld/reservation.c:556-566 | an all-plain expression succeeds iff every name resolves; it then sets the string and a list equal to a fresh build; on failure nothing changes |
| Users.UpdateUidListModify | src/slurmctld/reservation.c:524-631 | a `+`/`-` expression with an unknown name changes nothing; otherwise it succeeds iff the removed uids, counted with multiplicity, are all listed; success leaves the survivors followed by new added uids, with every added uid listed; failure leaves the earlier removals applied |
| Users.MinusUsers | src/slurmctld/reservation.c:569-586 | the user list goes through the same removals as the account list; the loop succeeds iff every uid was removed |
| Users.MinusUsersSpec | src/slurmctld/reservation.c:569-586 | `-name` edits succeed iff the uids, counted with repeats, are listed; the list then loses exactly those uids |
| Users.PlusUsers | src/slurmctld/reservation.c:611-631 | `+name` keeps the old list as a prefix; every added uid is present; appended uids are new and appear once |
| Users.UpdateUidListRemoveSynced | src/slurmctld/reservation.c:569-607 | removing a listed user keeps the string and list paired: the string becomes the join of the other names |
| Users.UpdateUidListAddSynced | src/slurmctld/reservation.c:611-631 | adding an unlisted user keeps the string and list paired, with the user last |
| UserString.RemoveNameJoin | src/slurmctld/reservation.c:587-607 | cutting a name from a comma join of names gives the join of the other names, in order |
| UserString.RemoveNameShorter | src/slurmctld/reservation.c:587-607 | the cut never lengthens the string |
| UserString.RemoveNameAbsent | src/slurmctld/reservation.c:590 | once the name no longer occurs from the search position on, the string is left as it is |
| Select.Unreserved | src/slurmctld/reservation.c:1608-1621 | a node survives the reservation loop iff no reservation with a bitmap and a window meeting the request holds it |
| Select.Eligible | src/slurmctld/reservation.c:1605-1647 | the candidates are the partition nodes that are unreserved in the window, carry the feature and are up |
| Select.SelectNodes | src/slurmctld/reservation.c:1587-1673 | no partition is DEFAULT_PARTITION_NOT_SET; too few candidates is TOO_MANY_REQUESTED_NODES; otherwise exactly `node_cnt` candidates, all idle when enough are idle, else including every idle candidate |
| Select.SelectNodesAvoidsReservations | src/slurmctld/reservation.c:1608-1621 | selected nodes never overlap a reservation in the window |
| Select.Shrink | src/slurmctld/reservation.c:1529-1561 | shrinking keeps a subset of the bitmap with exactly the target count; busy nodes are all kept while enough idle nodes can go, else every idle node goes |
| Select.ResizeResv | src/slurmctld/reservation.c:1519-1584 | an equal count is a no-op; shrinking always succeeds within the old bitmap; growing takes the default partition when none was set and asks `_select_nodes` for the missing nodes in the reservation's own window, features and partition: it fails exactly when that selection fails, with its code, and on success the bitmap is the old one plus the selected nodes; success sets the count and rewrites the node list; only node fields and the partition change |
| Select.ResizeGrowDisjoint | src/slurmctld/reservation.c:1567-1582 | while the window is non-empty and `node_cnt` equals the popcount, growing adds only nodes the reservation did not hold, reaching exactly the target count |
| Select.ResizeResvCount | src/slurmctld/reservation.c:1519-1584 | for an entry whose window is non-empty and whose `node_cnt` equals its popcount, a successful resize leaves exactly the target number of nodes in the bitmap, whether it shrank, grew or did nothing |
| ResvAdmin.NextSuffix | src/slurmctld/reservation.c:832-834 | the next id is one more than the counter, wrapping to 1 above `0xffffff00` |
| ResvAdmin.GeneratedNameSuffix | src/slurmctld/reservation.c:177-200 | the id can be read back from a generated name, after its last `_` |
| ResvAdmin.GenerateName | src/slurmctld/reservation.c:177-200 | a generated name is the key (the accounts string when non-empty, else the users string) cut at its first comma, then `_`, then the id; it holds no comma |
| ResvAdmin.NameSuffix | src/slurmctld/reservation.c:1348-1351 | a name has a numeric suffix iff it contains `_`; the suffix is a 32-bit value |
| ResvAdmin.ParseNodeList | src/slurmctld/reservation.c:801-809 | `ALL` is every node; any parsed list lies within the node table |
| ResvAdmin.PlaceNodes | src/slurmctld/reservation.c:801-827 | an explicit list must parse (else INVALID_NODE_NAME) and not overlap (else INVALID_TIME_VALUE); without a list a count is required, and then placement fails exactly when `_select_nodes` fails, with its error code, and otherwise takes the selected bitmap, its partition, the requested count and `bitmap2node_name` of the bitmap as the list; the placement never overlaps and its count is its popcount |
| ResvAdmin.Commit | src/slurmctld/reservation.c:829-899 | the counter advances; a taken explicit name is RESERVATION_INVALID; the search spins exactly when the name is generated and the generated name is taken; otherwise one record with that fresh name and the new id is appended |
| ResvAdmin.CreateResv | src/slurmctld/reservation.c:735-909 | a time before `now - 60` is refused; an unknown partition is INVALID_PARTITION_NAME; no accounts and no users is INVALID_BANK_ACCOUNT; a request that passes these goes on exactly as `ResvAdmin.CreateChecked` with the request's start (or now) and end (explicit, or start plus duration, or INFINITE); errors leave the registry alone except the counter on a duplicate name; success appends one record named as requested or as generated from the new counter, with the new id, `node_cnt` equal to its popcount, its CPU count and no overlap |
| ResvAdmin.CreateChecked | src/slurmctld/reservation.c:789-899 | a bad account list is INVALID_BANK_ACCOUNT and an unresolvable user is USER_ID_MISSING, a failed placement returns its own error, each with the registry unchanged; once lists and placement succeed, it spins exactly when the name is generated and taken, fails exactly when the requested name is taken, and otherwise appends one record carrying the request's account and user strings, the built lists, its features, the placement's partition, bitmap and node list, the given start and end, the flags (unset read as none) and no jobs |
| ResvAdmin.CreatePlaced | src/slurmctld/reservation.c:829-899 | with lists and placement in hand: spins exactly when a generated name is taken, refuses exactly a taken requested name (advancing the counter), and otherwise appends the record built from the request and placement under the fresh name and new id |
| ResvAdmin.CreateResvKeepsInvariants | src/slurmctld/reservation.c:735-909 | create keeps names unique, the registry conflict-free and every entry's partition and bitmap valid |
| ResvAdmin.UpdatePartition | src/slurmctld/reservation.c:949-967 | the empty name clears the partition; an unknown name is INVALID_PARTITION_NAME with no change; a known name replaces it |
| ResvAdmin.UpdateLists | src/slurmctld/reservation.c:968-987 | accounts, features and users are edited in order, each as its list editor does; an account error leaves features and users as they were; a user error keeps the new accounts and features; an unset users expression leaves the users string and list as they were |
| ResvAdmin.UpdateListsOnlyReadsLists | src/slurmctld/reservation.c:968-987 | the list steps depend only on the record's account, feature and user fields |
| ResvAdmin.UpdateFields | src/slurmctld/reservation.c:934-987 | flags, partition and lists are edited in order; an unknown partition ends the update with only the flags changed; otherwise the lists and the error are those of the list steps |
| ResvAdmin.UpdateTimes | src/slurmctld/reservation.c:989-1011 | the step fails iff a given start or end is before `now - 60`; a start that is too early returns the entry unchanged with INVALID_TIME_VALUE; a refused step never changes the end time; a new start saves the old one as `start_time_prev`; a duration sets the end from the possibly new start |
| ResvAdmin.CheckOverlap | src/slurmctld/reservation.c:1040-1059 | it fails iff the entry overlaps another; failure restores the times, and the saved node list and bitmap but not the count; success with a saved list recounts nodes and CPUs |
| ResvAdmin.UpdateNodes | src/slurmctld/reservation.c:1012-1059 | an unparsable list is INVALID_NODE_NAME with both times set to the old start; a parsed list is put in place (string and bitmap) before a new node count is applied through `ResvAdmin.ResizeThenCheck`; without a count the result is exactly `ResvAdmin.CheckOverlap` of the entry with the parsed list in place, restoring the old list only when one was given: the update fails exactly when the new bitmap overlaps another reservation, and then restores the old times and (when the entry had a list) the old list and bitmap; success keeps the new list and bitmap and recounts nodes and CPUs only when the entry already had a list (with no list, success returns the entry unchanged); success keeps the times and means no overlap; only node, time and partition-reference fields change, the last only when a growing count fills an unset one with the default partition |
| ResvAdmin.ResizeThenCheck | src/slurmctld/reservation.c:1031-1059 | an error from `_resize_resv` is returned as it is; otherwise the result is exactly `ResvAdmin.CheckOverlap` of the resized entry, which fails exactly when the resized bitmap overlaps another reservation, restoring the old times and (when the entry had a list) the old list and bitmap but keeping the new `node_cnt`; success keeps the resized bitmap and the times, and `node_cnt` is the new count (recounted from the bitmap, with the CPU count, when the entry had a list); only node, time and partition-reference fields change; growing fills an unset partition reference with the default partition |
| ResvAdmin.ResizeThenCheckCount | src/slurmctld/reservation.c:1031-1059 | for such an entry, a node count the update accepts is applied: `node_cnt` and the bitmap's popcount both equal the requested count |
| ResvAdmin.UpdateEntry | src/slurmctld/reservation.c:934-1059 | the field steps, then the time steps, then the node steps run in order, each error returned as it stands; on success the requested start and end (or start plus duration) are in force, the access lists and features are those the list edits produce, and no overlap remains; the name and id are kept, the flag edit applied and the entry stays valid |
| ResvAdmin.UpdateResv | src/slurmctld/reservation.c:912-1075 | a missing or unknown name is RESERVATION_INVALID with no change; otherwise the named entry becomes what `ResvAdmin.UpdateEntry` makes of it, with its error, no other entry changes, and the registry is stamped, even on failure |
| ResvAdmin.UpdateResvKeepsInvariants | src/slurmctld/reservation.c:912-1075 | update keeps names unique and entries valid; a successful update keeps the registry conflict-free |
| ResvAdmin.UpdateResvBadNodeList | src/slurmctld/reservation.c:1017-1024 | after INVALID_NODE_NAME the entry's end equals its old start |
| ResvAdmin.UpdateResvKeepsPartition | src/slurmctld/reservation.c:955-967 | a valid new partition stays committed whatever later step fails |
| ResvAdmin.UpdateResvKeepsStart | src/slurmctld/reservation.c:991-1005 | a valid new start stays committed when the new end is then refused |
| ResvAdmin.IsResvUsed | src/slurmctld/reservation.c:1078-1095 | the scan answers true iff an unfinished job carries the reservation's id |
| ResvAdmin.DeleteResv | src/slurmctld/reservation.c:1098-1133 | an unknown name is RESERVATION_INVALID with no change; a used reservation is RESERVATION_BUSY and kept; otherwise that one entry goes and the delete succeeds; both found cases stamp the registry |
| ResvAdmin.DeleteResvRemoves | src/slurmctld/reservation.c:1111-1121 | after a delete the name is free, exactly one entry has gone, and names stay unique and conflict-free |
| ResvAdmin.ValidateOne | src/slurmctld/reservation.c:1265-1326 | a record is refused iff it has no name, an unknown partition, an unresolvable user or an unparsable node list; a kept record has its lists, partition reference and bitmap rebuilt from the fields that are set, and keeps the old list, reference or bitmap for each field that is not |
| ResvAdmin.SuffixMax | src/slurmctld/reservation.c:1348-1352 | the counter becomes the larger of itself and the name's numeric suffix |
| ResvAdmin.ValidateAll | src/slurmctld/reservation.c:1332-1356 | the survivors are the records that validate, in their original order and each once: the `i`-th record is the rebuilt form of the `i`-th position in `ResvAdmin.KeptIndices`; no survivor comes from elsewhere and every validating record is present; the counter is the maximum of the old counter and the survivors' suffixes |
| ResvAdmin.ValidateFrom | src/slurmctld/reservation.c:1332-1356 | the validation loop returns only rebuilt forms of records that validate, and the rebuilt form of each one that does; the counter it returns is at least the starting one and every kept record's suffix (order and multiplicity are `ResvAdmin.ValidateFromInOrder`) |
| ResvAdmin.ValidateFromReachesMax | src/slurmctld/reservation.c:1348-1352 | that counter is the starting one or the suffix of a kept record, so it is exactly their maximum |
| ResvAdmin.KeptFrom | src/slurmctld/reservation.c:1342-1346 | the positions from a starting point whose records pass validation, each inside the sequence, each passing, in strictly increasing order |
| ResvAdmin.KeptIndices | src/slurmctld/reservation.c:1342-1346 | the positions of the whole registry whose records pass validation, each passing, in strictly increasing order |
| ResvAdmin.KeptIndicesComplete | src/slurmctld/reservation.c:1342-1346 | a position is among `KeptIndices` exactly when its record passes validation, so every other record is purged |
| ResvAdmin.ValidateFromInOrder | src/slurmctld/reservation.c:1342-1346 | the loop's `i`-th survivor is the rebuilt form of the record at the `i`-th kept position, and it returns as many survivors as there are kept positions |
| ResvAdmin.ValidateAllNextIdFresh | src/slurmctld/reservation.c:1348-1351 | after validation the next id exceeds the id of every surviving generated name, unless the counter is about to wrap |
| Jobs.ValidJobAccessScan | src/slurmctld/reservation.c:1677-1704 | access is granted iff the job's uid is listed, or the job has an account that is listed |
| Jobs.ValidateJobResv | src/slurmctld/reservation.c:1486-1517 | no name or an empty one unbinds the job; an unknown name is RESERVATION_INVALID; otherwise success iff access, copying the id and flags, else RESERVATION_ACCESS |
| Jobs.JobTestNamed | src/slurmctld/reservation.c:1728-1749 | a named reservation is checked for existence, then access, then window; a missing name is ESLURM_RESERVATION_INVALID with `when` and the job unchanged and no bitmap; too early moves `when` to the start; too late moves it to the end and holds the job; inside, its bitmap is returned |
| Jobs.JobDuration | src/slurmctld/reservation.c:1759-1768 | the assumed run time is the job's limit, else (NO_VAL) the partition's, converted as `MinutesToSecs`; an INFINITE limit in force is one year (365 days) |
| Jobs.JobTestFree | src/slurmctld/reservation.c:1751-1806 | no reservations means every node at `when`; otherwise round i tests the window starting at `Retry(i)`, each retry starting where the first clashing reservation ends; a clash-free `when` succeeds in round one; success is the first clash-free window with its unreserved nodes; give-up is INVALID_TIME_VALUE after eleven clashing windows, with no bitmap |
| Jobs.JobTestResv | src/slurmctld/reservation.c:1717-1807 | a job with a reservation name takes the named path; otherwise the free search, leaving the job unchanged: a clash-free `when` is kept, success is clash-free, and give-up follows eleven clashing windows |
| Jobs.BeginJobResvCheck | src/slurmctld/reservation.c:1810-1833 | every job count is zeroed and nothing else changes; the overrun is minutes in seconds, or a year when INFINITE |
| Jobs.JobResvCheck | src/slurmctld/reservation.c:1838-1861 | an unbound job passes; an unknown reservation fails; otherwise its count rises by one, and the job fails iff the reservation ends before `now + overrun` |
| Jobs.CheckJobsCounts | src/slurmctld/reservation.c:1838-1861 | checking every job adds to each reservation's count the number of jobs naming it, and changes nothing else |
| Jobs.Live | src/slurmctld/reservation.c:1876-1885 | the kept entries are exactly those that are not both unused and ended |
| Jobs.FiniJobResvCheck | src/slurmctld/reservation.c:1864-1888 | vestigial entries are purged in order, and the registry is stamped iff one went |
| Jobs.Sweep | src/slurmctld/reservation.c:1810-1888 | the sweep keeps the id counter, never adds entries, leaves only entries that are used or not yet ended, and stamps the registry iff one went |
| Jobs.SweepPurgesExpiredUnused | src/slurmctld/reservation.c:1810-1888 | the full sweep keeps exactly the reservations some job names or that have not ended, each with its count of naming jobs |
| Persist.PackResv | src/slurmctld/reservation.c:656-674 | a record packs to ten fields, plus the CPU count and id for the internal form |
| Persist.UnpackResv | src/slurmctld/reservation.c:1440-1460 | reading one record takes twelve fields or fails |
| Persist.UnpackPack | src/slurmctld/reservation.c:1443-1460 | reading back a packed record gives its saved fields, with counts modulo 2^32, and leaves the rest of the buffer |
| Persist.UnpackAllPackAll | src/slurmctld/reservation.c:1440-1464 | loading what was dumped recovers every record's saved fields, in order |

## Left out

- Hostlist range syntax in node lists is not parsed. A node list is a
  comma list of node names; `bitmap2node_name` is the comma join of names
  in index order.
- File I/O is not modelled: `dump_all_resv_state`, the file part of
  `load_all_resv_state`, the version header and the `.new`/`.old`
  rotation. Only the field order of the saved record is modelled.
- `show_resv` is not modelled. It patches buffer offsets through pack
  primitives that are not part of this model.
- Locks, logging, `_dump_resv_req` and the `RESV_MAGIC` tags are not
  modelled. They do not change the state.
- The accounting calls `_post_resv_create`, `_post_resv_update` and
  `_post_resv_delete` are treated as no-ops. They call a storage plugin
  that is not part of this model, and their return codes are ignored,
  except that a delete returns it. The model takes that code as success.
- Memory management is not modelled: the `xfree` paths, including the
  second free of `tmp` at reservation.c:457.
- The job record's cached `resv_ptr` is not modelled. Every lookup goes
  by name, which finds the same entry while names are unique.
- Association-based access is not modelled. The branch at
  reservation.c:1683 is disabled in the source.
- A feature request is a single feature name, as the source supports.
- A NULL `resv_list` is an empty registry.
- The clock is the parameter `now`. The whole job sweep uses one `now`;
  the source reads the clock separately in each check.
- UserString.RemoveName: after a cut, the source keeps the widened cut
  length `k` for later matches of the same name, and reads `tok[-1]` at
  the start of the string. The model resets the length for each match
  and treats the start of the string as a boundary. The two agree on
  comma joins of distinct names, which is what
  `UserString.RemoveNameJoin` is about.
- Users.CutName: a `-name` on a NULL users string leaves it NULL; the
  source would pass NULL to `strstr`.
- ResvAdmin.NameKey: when the accounts string is empty and the users
  string is NULL, the source calls `strchr(NULL)`. The model uses the
  empty key.
- ResvAdmin.Commit: a generated name that is taken makes the source loop
  forever. The model returns `Spins` instead of running.
- Select.ResizeResv: the source computes `delta_node_cnt` from two
  `uint32_t` values into an `int`. The model uses the exact integer
  difference, so counts above 2^31 are not wrapped.
- Select.ResizeResv: a NULL bitmap is read as empty. The source would
  dereference it. `bitmap2node_name` of a NULL bitmap is taken as the
  empty list.
- Select.Shrink: the exact target size is guaranteed only when
  `node_cnt` equals the bitmap's popcount. This is how the source is
  written: it trusts `node_cnt`.
- NodeConfig.CpuCount: the `uint32_t` CPU sum of `_set_cpu_cnt` is not
  wrapped. The saved record reduces it modulo 2^32, as `Persist.Saved`
  states.
- Users.Lookup: the empty name never resolves. A bare `-` or `+` token
  would hand an empty name to `uid_from_string`, which is not part of
  this model, and then to the `strstr` cut loop, which does not end for
  an empty name; the model refuses such a token as a missing user id.
- Users.UpdateUidList: when a `-name` fails after an earlier `-name` has
  cut the users string, the error path frees `tmp` (reservation.c:638).
  At that point `tmp` is the live users string or points into it, so the
  source frees or corrupts the stored string. The model keeps the string
  with the earlier cuts applied. It also reads the parsed names as
  intact, although they point into the copy freed at reservation.c:552.
- Accounts.BuildAccountList: the list is the string's tokens. The
  contract states only that they are tokens, and
  `Accounts.BuildAccountListOfJoin` gives the round trip on joins.

=== FILE: accounts.dfy ===
/**
  The account list of a reservation: the `accounts` string as last set or
  rebuilt, and the parsed `account_list` array the access checks use.
 */
module Accounts {
  import opened Base
  import opened Strings
  import opened ListExpr

  /** `accounts` (NULL is `None`) and `account_list`. */
  datatype Accts = Accts(accounts: Option<string>, list: seq<string>)

  /** `_is_account_valid`: a placeholder that accepts every account name. */
  predicate IsAccountValid(name: string) {
    true
  }

  /** `_build_account_list`: a NULL string is an invalid bank account;
      otherwise the list holds the `strtok_r` tokens of the string. */
  function BuildAccountList(accounts: Option<string>): (r: Result<seq<string>>)
    ensures r.Err? <==> accounts.None?
    ensures r.Err? ==> r.code == InvalidBankAccount
    ensures r.Ok? ==> AllTokens(r.value)
  {
    if accounts.None? then Err(InvalidBankAccount)
    else
      var toks := Tokens(accounts.value);
      if exists i :: 0 <= i < |toks| && !IsAccountValid(toks[i]) then Err(InvalidBankAccount)
      else Ok(toks)
  }

  /** The list rebuilt into a string is read back to the same list, and an
      emptied list, whose string is NULL, is rejected. */
  lemma BuildAccountListOfJoin(xs: seq<string>)
    requires AllTokens(xs)
    ensures BuildAccountList(JoinOpt(xs)) == (if xs == [] then Err(InvalidBankAccount) else Ok(xs))
  {
    TokensOfJoin(xs);
  }

  /** The account names the expression removes and adds, in order. */
  function Removals(items: seq<Item>): seq<string> { NamesWith(items, Remove) }
  function Additions(items: seq<Item>): seq<string> { NamesWith(items, Add) }

  /** `_update_account_list`: apply a set, `+name` or `-name` expression.
      Returns the edited accounts and the error, if any. Errors leave the
      `accounts` string alone, but removals done before a failing `-name`
      stay applied to the list. */
  function UpdateAccountList(a: Accts, expr: Option<string>): (r: (Accts, Option<Errno>))
    ensures r.1.Some? ==> r.1.value == InvalidBankAccount && r.0.accounts == a.accounts
    ensures expr.None? ==> r == (a, Some(InvalidBankAccount))
    ensures expr.Some? && PlainAfterMod(Tokens(expr.value)) ==> r == (a, Some(InvalidBankAccount))
  {
    if expr.None? then (a, Some(InvalidBankAccount))
    else
      var toks := Tokens(expr.value);
      match Classify(toks)
      case None => (a, Some(InvalidBankAccount))
      case Some(items) =>
        if exists i :: 0 <= i < |items| && !IsAccountValid(items[i].name) then (a, Some(InvalidBankAccount))
        else if !HasOp(items, Remove) && !HasOp(items, Add) then (Accts(expr, toks), None)
        else
          var minus := RemoveStep(a, Removals(items), HasOp(items, Remove));
          if minus.1.Some? || !HasOp(items, Add) then minus
          else
            var l := AddEach(minus.0.list, Additions(items));
            (Accts(JoinOpt(l), l), None)
  }

  /** The `-name` phase: nothing to do without removals; an empty list
      cannot lose names; otherwise remove each name, rebuilding the string
      only when all are found. */
  function RemoveStep(a: Accts, names: seq<string>, any: bool): (r: (Accts, Option<Errno>))
    ensures r.1.Some? ==> r.1.value == InvalidBankAccount && r.0.accounts == a.accounts
  {
    if !any then (a, None)
    else if a.list == [] then (a, Some(InvalidBankAccount))
    else
      var (rest, n) := RemoveEach(a.list, names);
      if n < |names| then (Accts(a.accounts, rest), Some(InvalidBankAccount))
      else (Accts(JoinOpt(rest), rest), None)
  }

  /** A `+`/`-` expression over plain names: what the update does, stated
      without the parse loop. The update fails exactly when a removal names
      an account not in the list (counting repeats) or the list is empty;
      on success every removed name has gone once, every added name is
      present, and the string is the canonical join of the list. */
  lemma {:induction false} UpdateAccountListModify(a: Accts, expr: string)
    requires !PlainAfterMod(Tokens(expr))
    requires var items := Classify(Tokens(expr)).value; HasOp(items, Remove) || HasOp(items, Add)
    ensures var items := Classify(Tokens(expr)).value;
      var (rm, ad) := (Removals(items), Additions(items));
      var r := UpdateAccountList(a, Some(expr));
      && (r.1.Some? <==> HasOp(items, Remove) && (a.list == [] || !(multiset(rm) <= multiset(a.list))))
      && (r.1.None? ==>
            && r.0.accounts == JoinOpt(r.0.list)
            && (forall n :: n in ad ==> n in r.0.list)
            && exists k :: 0 <= k <= |r.0.list| && multiset(r.0.list[..k]) == multiset(a.list) - multiset(rm)
                 && forall j :: k <= j < |r.0.list| ==> r.0.list[j] in ad)
  {
    hide Tokens, Join, NamesWith, IndexOf, RemoveFirst, AddEach;
    var items := Classify(Tokens(expr)).value;
    var (rm, ad) := (Removals(items), Additions(items));
    RemoveEachSpec(a.list, rm);
    var minus := RemoveStep(a, rm, HasOp(items, Remove));
    var r := UpdateAccountList(a, Some(expr));
    assert !exists i :: 0 <= i < |items| && !IsAccountValid(items[i].name);
    assert r == (if minus.1.Some? || !HasOp(items, Add) then minus
                 else (Accts(JoinOpt(AddEach(minus.0.list, ad)), AddEach(minus.0.list, ad)), None));
    if !HasOp(items, Remove) {
      assert rm == [];
      assert minus.0.list == a.list;
      assert multiset(rm) == multiset{};
    }
    if r.1.None? {
      var base := minus.0.list;
      assert multiset(base) == multiset(a.list) - multiset(rm);
      if HasOp(items, Add) {
        var l := AddEach(base, ad);
        assert l[..|base|] == base;
      } else {
        assert r.0.list == base;
        assert r.0.list[..|base|] == base;
        assert r.0.accounts == JoinOpt(base);
      }
    }
  }

  /** An expression of plain names replaces both the string and the list. */
  lemma UpdateAccountListAssign(a: Accts, expr: string)
    requires forall i :: 0 <= i < |Tokens(expr)| ==> !IsMod(Tokens(expr)[i])
    ensures UpdateAccountList(a, Some(expr)) == (Accts(Some(expr), Tokens(expr)), None)
  {
    var toks := Tokens(expr);
    var items := Classify(toks).value;
    assert !HasOp(items, Remove) && !HasOp(items, Add) by {
      forall i | 0 <= i < |items| ensures items[i].op == Assign {
        assert items[i] == ItemOf(toks[i]);
      }
    }
  }

  /** `+name` for a name already listed changes nothing on a list whose
      string is its canonical join. */
  lemma UpdateAccountListAddPresent(a: Accts, name: string)
    requires a.accounts == JoinOpt(a.list)
    requires IsToken(name) && name in a.list
    ensures UpdateAccountList(a, Some(['+'] + name)) == (a, None)
  {
    var expr := ['+'] + name;
    assert expr == Join([expr]);
    TokensOfJoin([expr]);
    var items := Classify([expr]).value;
    assert items[0] == Item(Add, name) by {
      assert expr[1..] == name;
    }
    assert HasOp(items, Add) && !HasOp(items, Remove);
    assert Additions(items) == [name];
    AddEachPresent(a.list, [name]);
  }

  /** Removal is not atomic: with accounts `x,y`, the expression `-x,-z`
      for an unlisted `z` fails after `x` has already left the list, so
      the list and the unchanged string disagree. */
  lemma UpdateAccountListPartialRemoval(x: string, y: string, z: string)
    requires IsToken(x) && IsToken(y) && IsToken(z) && z != x && z != y
    ensures var a := Accts(Some(Join([x, y])), [x, y]);
      UpdateAccountList(a, Some(Join([['-'] + x, ['-'] + z])))
        == (Accts(a.accounts, [y]), Some(InvalidBankAccount))
  {
    hide Tokens, Join, Classify, NamesWith, RemoveEach, AddEach;
    var items := ParseTwoRemovals(x, z);
    RemoveXThenZ(x, y, z);
  }

  /** Removing `x` then `z` from `[x, y]` stops at `z` with `[y]` left. */
  lemma RemoveXThenZ(x: string, y: string, z: string)
    requires z != x && z != y
    ensures RemoveEach([x, y], [x, z]) == ([y], 1)
  {
    assert IndexOf([x, y], x) == 0;
    assert [x, y][..0] + [x, y][1..] == [y];
    assert RemoveFirst([x, y], x) == Some([y]);
    assert RemoveFirst([y], z) == None;
    assert [x, z][1..] == [z];
  }

  /** The expression `-x,-z` parses to two removals. */
  lemma ParseTwoRemovals(x: string, z: string) returns (items: seq<Item>)
    requires IsToken(x) && IsToken(z)
    ensures Classify(Tokens(Join([['-'] + x, ['-'] + z]))) == Some(items)
    ensures Removals(items) == [x, z] && !HasOp(items, Add) && HasOp(items, Remove)
    ensures forall i :: 0 <= i < |items| ==> IsAccountValid(items[i].name)
  {
    var toks: seq<string> := [['-'] + x, ['-'] + z];
    TokensOfJoin(toks);
    items := [Item(Remove, x), Item(Remove, z)];
    assert IsMod(toks[0]) && IsMod(toks[1]);
    assert !PlainAfterMod(toks);
    assert toks[0][1..] == x && toks[1][1..] == z;
    var r := Classify(toks).value;
    assert r[0] == items[0] && r[1] == items[1];
    assert r == items;
    assert NamesWith(items[1..], Remove) == [z];
  }
}

=== FILE: admin.dfy ===
/**
  The administrative operations on the reservation registry:
  `create_resv`, `update_resv`, `delete_resv` and the post-load
  `_validate_all_reservations`, with the name and id generation they use.
  Each takes the clock reading `now` as a parameter and returns the new
  registry together with the error, if any.
 */
module ResvAdmin {
  import opened Base
  import opened Strings
  import opened Bitmap
  import opened NodeConfig
  import opened Resv
  import opened Accounts
  import opened Users
  import opened Select
  import opened Jobs

  /** `reserve_request_msg_t`. Unset numeric fields hold the sentinels
      `NO_VAL` (times, duration, node count) and `NO_VAL16` (flags). */
  datatype Request = Request(
    name: Option<string>,
    startTime: int,
    endTime: int,
    duration: nat,              // minutes
    flags: bv16,
    partition: Option<string>,
    accounts: Option<string>,
    users: Option<string>,
    features: Option<string>,
    nodeList: Option<string>,
    nodeCnt: nat
  )

  /** An entry's references into the configuration are live: its partition
      exists and its bitmap lies within the node table. */
  predicate EntryOk(c: Config, r: Resv) {
    && (r.part.Some? ==> r.part.value in c.parts)
    && NodesOf(r) <= Universe(c)
  }

  predicate RegistryOk(c: Config, resvs: seq<Resv>) {
    forall i :: 0 <= i < |resvs| ==> EntryOk(c, resvs[i])
  }

  /** A node list as the engine reads it: `ALL` is every node, anything
      else goes through `node_name2bitmap`. */
  function ParseNodeList(c: Config, list: string): (r: Option<NodeSet>)
    ensures r.Some? ==> r.value <= Universe(c)
    ensures list == "ALL" ==> r == Some(Universe(c))
  {
    if list == "ALL" then Some(Universe(c)) else NameToBitmap(c, list)
  }

  // -----------------------------------------------------------------------
  // Names and ids

  /** The id counter step of `create_resv`: wrap to 0 above `0xffffff00`,
      then add one. */
  function NextSuffix(top: nat): (r: nat)
    ensures 1 <= r <= 0xffff_ff01
    ensures top <= 0xffff_ff00 ==> r == top + 1
  {
    (if top > 0xffff_ff00 then 0 else top) + 1
  }

  /** The prefix `_generate_resv_name` uses: the accounts string when it is
      non-empty, else the users string. */
  function NameKey(accounts: Option<string>, users: Option<string>): string {
    if accounts.Some? && accounts.value != [] then accounts.value
    else if users.Some? then users.value
    else []
  }

  /** `_generate_resv_name`: the first name of the key, `_`, and the id
      printed with `%d`. */
  function GenerateName(accounts: Option<string>, users: Option<string>, top: nat): (n: string)
    requires top < TWO_32
    ensures ',' !in n
    ensures var key := NameKey(accounts, users);
      |n| > FieldLen(key) && n[..FieldLen(key)] == key[..FieldLen(key)] && n[FieldLen(key)] == '_'
  {
    var key := NameKey(accounts, users);
    key[..FieldLen(key)] + "_" + IntToString(AsInt32(top))
  }

  /** The number after the last `_` of a name, read with `atoi`, if the name
      has a `_`. */
  function NameSuffix(name: string): (r: Option<nat>)
    ensures r.Some? <==> '_' in name
    ensures r.Some? ==> r.value < TWO_32
  {
    match LastIndex(name, '_')
    case None => None
    case Some(i) => Some(AtoiU32(name[i + 1..]))
  }

  /** A generated name carries its id after its last `_`, so the id can be
      read back from the name alone. */
  lemma GeneratedNameSuffix(accounts: Option<string>, users: Option<string>, top: nat)
    requires top < TWO_32
    ensures NameSuffix(GenerateName(accounts, users, top)) == Some(top)
  {
    var key := NameKey(accounts, users);
    var prefix := key[..FieldLen(key)];
    var digits := IntToString(AsInt32(top));
    var n := GenerateName(accounts, users, top);
    assert n == prefix + ['_'] + digits;
    LastIndexAfter(prefix, '_', digits);
    assert n[|prefix| + 1..] == digits;
    AtoiOfIntToString(top);
  }

  // -----------------------------------------------------------------------
  // create_resv

  /** Where a new reservation's nodes come from: its partition, bitmap,
      node count and node list string. */
  datatype Placement = Placement(part: Option<string>, nodes: NodeSet, nodeCnt: nat, nodeList: string)

  /** The node step of `create_resv`: an explicit list (or `ALL`) must parse
      and must not overlap another reservation in the window; without a list
      a node count is required and `_select_nodes` picks the nodes. */
  function PlaceNodes(c: Config, resvs: seq<Resv>, start: int, end: int, req: Request): (r: Result<Placement>)
    requires Valid(c)
    requires req.partition.Some? ==> req.partition.value in c.parts
    ensures r.Ok? ==> r.value.nodeCnt == |r.value.nodes|
    ensures r.Ok? ==> r.value.nodes <= Universe(c) && (r.value.part.Some? ==> r.value.part.value in c.parts)
    ensures r.Ok? ==> !ResvOverlap(resvs, start, end, Some(r.value.nodes), None)
    ensures req.nodeList.Some? ==>
      match ParseNodeList(c, req.nodeList.value)
      case None => r == Err(InvalidNodeName)
      case Some(b) =>
        if ResvOverlap(resvs, start, end, Some(b), None) then r == Err(InvalidTimeValue)
        else r == Ok(Placement(req.partition, b, |b|, req.nodeList.value))
    ensures req.nodeList.None? && req.nodeCnt == NO_VAL ==> r == Err(InvalidNodeName)
    ensures req.nodeList.None? && req.nodeCnt != NO_VAL ==>
      var (p, sel) := SelectNodes(c, resvs, start, end, req.features, req.nodeCnt, req.partition);
      && (r.Err? <==> sel.Err?)
      && (r.Err? ==> r.code == sel.code)
      && (r.Ok? ==> r.value.part == p && r.value.nodes == sel.value && r.value.nodeCnt == req.nodeCnt
                    && r.value.nodeList == BitmapToName(c, sel.value))
  {
    if req.nodeList.Some? then
      match ParseNodeList(c, req.nodeList.value)
      case None => Err(InvalidNodeName)
      case Some(b) =>
        if ResvOverlap(resvs, start, end, Some(b), None) then Err(InvalidTimeValue)
        else Ok(Placement(req.partition, b, |b|, req.nodeList.value))
    else if req.nodeCnt == NO_VAL then Err(InvalidNodeName)
    else
      var (p, sel) := SelectNodes(c, resvs, start, end, req.features, req.nodeCnt, req.partition);
      SelectNodesAvoidsReservations(c, resvs, start, end, req.features, req.nodeCnt, req.partition);
      match sel
      case Err(code) => Err(code)
      case Ok(b) => Ok(Placement(p, b, req.nodeCnt, BitmapToName(c, b)))
  }

  /** What `create_resv` comes to: it finishes with a registry and an
      optional error, or it spins forever because a generated name is
      already taken (the retry loop regenerates the same name). */
  datatype CreateOutcome = Finished(reg: Registry, err: Option<Errno>) | Spins

  /** The request's start time: unset means now. */
  function StartOf(req: Request, now: int): int {
    if req.startTime != NO_VAL then req.startTime else now
  }

  /** The request's end time: the explicit end, else start plus a non-zero
      duration (an unset duration, `NO_VAL`, counts as non-zero), else
      INFINITE. */
  function EndOf(req: Request, start: int): int {
    if req.endTime != NO_VAL then req.endTime
    else if req.duration != 0 then start + MinutesToSecs(req.duration)
    else INFINITE
  }

  /** `after` is `before` with one record appended: it carries the advanced
      id counter and a name that was free, the request's own or else the
      generated one, and the registry is stamped `now`. */
  predicate Appended(before: Registry, after: Registry, req: Request, now: int) {
    && |after.resvs| == |before.resvs| + 1
    && after.resvs[..|before.resvs|] == before.resvs
    && after.topSuffix == NextSuffix(before.topSuffix)
    && after.lastUpdate == now
    && var nr := after.resvs[|before.resvs|];
       && FindByName(before.resvs, nr.name).None?
       && nr.name == (if req.name.Some? then req.name.value
                      else GenerateName(req.accounts, req.users, NextSuffix(before.topSuffix)))
       && nr.id == after.topSuffix
  }

  /** A new record's nodes are consistent and free: a bitmap whose popcount
      is `node_cnt` and whose CPUs are `cpu_cnt`, live references, and no
      overlap with any reservation of `resvs` in its window. */
  predicate Placed(c: Config, resvs: seq<Resv>, nr: Resv) {
    && nr.nodes.Some? && nr.nodeCnt == |nr.nodes.value|
    && nr.cpuCnt == CpuCount(c, nr.nodes.value)
    && nr.startTime == nr.startTimePrev
    && EntryOk(c, nr)
    && !ResvOverlap(resvs, nr.startTime, nr.endTime, nr.nodes, None)
  }

  /** A new record carries what the request asked for: its access lists as
      given and as built, its features and flags (unset flags read as none),
      the placement's partition, bitmap and node list, the window
      `[start, end)`, and no jobs. */
  predicate Built(req: Request, accountList: seq<string>, userList: seq<Uid>, pl: Placement,
                  start: int, end: int, nr: Resv) {
    && nr.accounts == req.accounts && nr.accountList == accountList
    && nr.users == req.users && nr.userList == userList
    && nr.features == req.features
    && nr.partition == pl.part && nr.part == pl.part
    && nr.nodes == Some(pl.nodes) && nr.nodeList == Some(pl.nodeList)
    && nr.startTime == start && nr.endTime == end
    && nr.flags == (if req.flags == NO_VAL16 then 0 else req.flags)
    && nr.jobCnt == 0
  }

  /** The request passes the checks `create_resv` makes before building
      anything: neither time is more than a minute in the past, a named
      partition exists, and there is an account or user list. */
  predicate Admitted(c: Config, req: Request, now: int) {
    && (req.startTime == NO_VAL || req.startTime >= now - SKEW)
    && (req.endTime == NO_VAL || req.endTime >= now - SKEW)
    && (req.partition.None? || req.partition.value in c.parts)
    && (req.accounts.Some? || req.users.Some?)
  }

  /** `create_resv`. */
  function CreateResv(c: Config, dir: Directory, reg: Registry, req: Request, now: int): (r: CreateOutcome)
    requires Valid(c)
    ensures req.startTime != NO_VAL && req.startTime < now - SKEW ==> r == Finished(reg, Some(InvalidTimeValue))
    ensures req.endTime != NO_VAL && req.endTime < now - SKEW ==> r == Finished(reg, Some(InvalidTimeValue))
    ensures (req.startTime == NO_VAL || req.startTime >= now - SKEW) && (req.endTime == NO_VAL || req.endTime >= now - SKEW)
            && req.partition.Some? && req.partition.value !in c.parts
            ==> r == Finished(reg, Some(InvalidPartitionName))
    ensures (req.startTime == NO_VAL || req.startTime >= now - SKEW) && (req.endTime == NO_VAL || req.endTime >= now - SKEW)
            && (req.partition.None? || req.partition.value in c.parts) && req.accounts.None? && req.users.None?
            ==> r == Finished(reg, Some(InvalidBankAccount))
    ensures Admitted(c, req, now) ==>
      r == CreateChecked(c, dir, reg, req, StartOf(req, now), EndOf(req, StartOf(req, now)), now)
    ensures r.Finished? && r.err.Some? && r.err != Some(ReservationInvalid) ==> r.reg == reg
    ensures r.Finished? && r.err == Some(ReservationInvalid) ==>
      req.name.Some? && FindByName(reg.resvs, req.name.value).Some? && r.reg == reg.(topSuffix := NextSuffix(reg.topSuffix))
    ensures r.Spins? ==>
      req.name.None? && FindByName(reg.resvs, GenerateName(req.accounts, req.users, NextSuffix(reg.topSuffix))).Some?
    ensures r.Finished? && r.err.None? ==>
      && Appended(reg, r.reg, req, now)
      && Placed(c, reg.resvs, r.reg.resvs[|reg.resvs|])
      && r.reg.resvs[|reg.resvs|].startTime >= now - SKEW
  {
    var start := StartOf(req, now);
    if req.startTime != NO_VAL && req.startTime < now - SKEW then Finished(reg, Some(InvalidTimeValue))
    else if req.endTime != NO_VAL && req.endTime < now - SKEW then Finished(reg, Some(InvalidTimeValue))
    else
      var end := EndOf(req, start);
      if req.partition.Some? && FindPart(c, req.partition.value).None? then Finished(reg, Some(InvalidPartitionName))
      else if req.accounts.None? && req.users.None? then Finished(reg, Some(InvalidBankAccount))
      else CreateChecked(c, dir, reg, req, start, end, now)
  }

  /** The steps of `create_resv` after the request's times, partition and
      access lists have been checked: build the account and user lists,
      place the nodes, then name and append the record. */
  function CreateChecked(c: Config, dir: Directory, reg: Registry, req: Request, start: int, end: int, now: int)
    : (r: CreateOutcome)
    requires Valid(c)
    requires req.partition.Some? ==> req.partition.value in c.parts
    ensures AccountsOf(req).Err? ==> r == Finished(reg, Some(InvalidBankAccount))
    ensures AccountsOf(req).Ok? && UsersOf(dir, req).Err? ==> r == Finished(reg, Some(UserIdMissing))
    ensures AccountsOf(req).Ok? && UsersOf(dir, req).Ok? && PlaceNodes(c, reg.resvs, start, end, req).Err? ==>
      r == Finished(reg, Some(PlaceNodes(c, reg.resvs, start, end, req).code))
    ensures AccountsOf(req).Ok? && UsersOf(dir, req).Ok? && PlaceNodes(c, reg.resvs, start, end, req).Ok? ==>
      && (r.Spins? <==>
            req.name.None? && FindByName(reg.resvs, GenerateName(req.accounts, req.users, NextSuffix(reg.topSuffix))).Some?)
      && (r.Finished? && r.err.Some? <==> req.name.Some? && FindByName(reg.resvs, req.name.value).Some?)
    ensures r.Finished? && r.err.Some? && r.err != Some(ReservationInvalid) ==> r.reg == reg
    ensures r.Finished? && r.err == Some(ReservationInvalid) ==>
      req.name.Some? && FindByName(reg.resvs, req.name.value).Some? && r.reg == reg.(topSuffix := NextSuffix(reg.topSuffix))
    ensures r.Spins? ==>
      req.name.None? && FindByName(reg.resvs, GenerateName(req.accounts, req.users, NextSuffix(reg.topSuffix))).Some?
    ensures r.Finished? && r.err.None? ==>
      && AccountsOf(req).Ok? && UsersOf(dir, req).Ok? && PlaceNodes(c, reg.resvs, start, end, req).Ok?
      && Appended(reg, r.reg, req, now)
      && Placed(c, reg.resvs, r.reg.resvs[|reg.resvs|])
      && Built(req, AccountsOf(req).value, UsersOf(dir, req).value, PlaceNodes(c, reg.resvs, start, end, req).value,
               start, end, r.reg.resvs[|reg.resvs|])
  {
    hide *;
    match AccountsOf(req)
    case Err(code) => Finished(reg, Some(code))
    case Ok(accountList) =>
      match UsersOf(dir, req)
      case Err(code) => Finished(reg, Some(code))
      case Ok(userList) =>
        match PlaceNodes(c, reg.resvs, start, end, req)
        case Err(code) => Finished(reg, Some(code))
        case Ok(pl) => CreatePlaced(c, reg, req, accountList, userList, pl, start, end, now)
  }

  /** The record `create_resv` builds once its lists and nodes are known,
      named and appended by `Commit`. */
  function CreatePlaced(c: Config, reg: Registry, req: Request, accountList: seq<string>, userList: seq<Uid>,
                        pl: Placement, start: int, end: int, now: int): (r: CreateOutcome)
    requires Valid(c)
    requires pl.nodeCnt == |pl.nodes| && pl.nodes <= Universe(c) && (pl.part.Some? ==> pl.part.value in c.parts)
    requires !ResvOverlap(reg.resvs, start, end, Some(pl.nodes), None)
    ensures r.Spins? <==>
      req.name.None? && FindByName(reg.resvs, GenerateName(req.accounts, req.users, NextSuffix(reg.topSuffix))).Some?
    ensures r.Finished? && r.err.Some? <==> req.name.Some? && FindByName(reg.resvs, req.name.value).Some?
    ensures r.Finished? && r.err.Some? ==>
      r == Finished(reg.(topSuffix := NextSuffix(reg.topSuffix)), Some(ReservationInvalid))
    ensures r.Finished? && r.err.None? ==>
      && Appended(reg, r.reg, req, now)
      && Placed(c, reg.resvs, r.reg.resvs[|reg.resvs|])
      && Built(req, accountList, userList, pl, start, end, r.reg.resvs[|reg.resvs|])
  {
    Commit(c, reg, req, Resv([], 0, req.accounts, accountList, req.users, userList, req.features,
                             pl.part, pl.part, Some(pl.nodeList), Some(pl.nodes), pl.nodeCnt,
                             CpuCount(c, pl.nodes), start, start, end,
                             if req.flags == NO_VAL16 then 0 else req.flags, 0), now)
  }

  /** The account list a create request builds: none without an accounts
      string, else `_build_account_list`. */
  function AccountsOf(req: Request): (r: Result<seq<string>>)
    ensures req.accounts.None? ==> r == Ok([])
    ensures r.Err? ==> r.code == InvalidBankAccount
  {
    if req.accounts.Some? then BuildAccountList(req.accounts) else Ok([])
  }

  /** The uid list a create request builds: none without a users string,
      else `_build_uid_list`. */
  function UsersOf(dir: Directory, req: Request): (r: Result<seq<Uid>>)
    ensures req.users.None? ==> r == Ok([])
    ensures r.Err? ==> r.code == UserIdMissing
  {
    if req.users.Some? then BuildUidList(dir, req.users) else Ok([])
  }

  /** The naming and appending steps of `create_resv` for a fully built
      record `nr`: advance the id counter, take the requested name (refused
      if taken) or generate one (spinning if taken), and append. */
  function Commit(c: Config, reg: Registry, req: Request, nr: Resv, now: int): (r: CreateOutcome)
    ensures r.Spins? <==>
      req.name.None? && FindByName(reg.resvs, GenerateName(req.accounts, req.users, NextSuffix(reg.topSuffix))).Some?
    ensures r.Finished? && r.err.Some? ==>
      r == Finished(reg.(topSuffix := NextSuffix(reg.topSuffix)), Some(ReservationInvalid))
      && req.name.Some? && FindByName(reg.resvs, req.name.value).Some?
    ensures r.Finished? && r.err.None? ==>
      var top := NextSuffix(reg.topSuffix);
      var name := if req.name.Some? then req.name.value else GenerateName(req.accounts, req.users, top);
      && FindByName(reg.resvs, name).None?
      && r.reg == Registry(reg.resvs + [nr.(name := name, id := top)], top, now)
    ensures req.name.Some? ==> r.Finished?
  {
    var top := NextSuffix(reg.topSuffix);
    var name := if req.name.Some? then req.name.value else GenerateName(req.accounts, req.users, top);
    if FindByName(reg.resvs, name).Some? then
      if req.name.Some? then Finished(reg.(topSuffix := top), Some(ReservationInvalid)) else Spins
    else
      Finished(Registry(reg.resvs + [nr.(name := name, id := top)], top, now), None)
  }

  /** A successful create keeps names unique, keeps the registry free of
      conflicting reservations and keeps every entry's references live. */
  lemma CreateResvKeepsInvariants(c: Config, dir: Directory, reg: Registry, req: Request, now: int)
    requires Valid(c)
    requires NamesUnique(reg.resvs) && ConflictFree(reg.resvs) && RegistryOk(c, reg.resvs)
    ensures var r := CreateResv(c, dir, reg, req, now);
      r.Finished? ==> NamesUnique(r.reg.resvs) && ConflictFree(r.reg.resvs) && RegistryOk(c, r.reg.resvs)
  {
    var r := CreateResv(c, dir, reg, req, now);
    if r.Finished? && r.err.None? {
      var n := |reg.resvs|;
      var nr := r.reg.resvs[n];
      assert r.reg.resvs == reg.resvs + [nr] by {
        assert r.reg.resvs == r.reg.resvs[..n] + [nr];
      }
      ConflictFreeAppend(reg.resvs, nr);
      forall i, j | 0 <= i < j < |r.reg.resvs|
        ensures r.reg.resvs[i].name != r.reg.resvs[j].name
      {
        if j == n {
          assert reg.resvs[i].name != nr.name;
        }
      }
    }
  }

  // -----------------------------------------------------------------------
  // update_resv

  /** The partition step of `update_resv`: the empty name clears the
      partition; any other name must exist and replaces it. */
  function UpdatePartition(c: Config, r: Resv, req: Request): (res: (Resv, Option<Errno>))
    requires Valid(c)
    ensures req.partition.None? ==> res == (r, None)
    ensures req.partition == Some([]) ==> res == (r.(partition := None, part := None), None)
    ensures req.partition.Some? && req.partition.value != [] && req.partition.value !in c.parts ==>
      res == (r, Some(InvalidPartitionName))
    ensures req.partition.Some? && req.partition.value != [] && req.partition.value in c.parts ==>
      res == (r.(partition := req.partition, part := req.partition), None)
  {
    if req.partition == Some([]) then (r.(partition := None, part := None), None)
    else if req.partition.Some? && FindPart(c, req.partition.value).None? then (r, Some(InvalidPartitionName))
    else if req.partition.Some? then (r.(partition := req.partition, part := req.partition), None)
    else (r, None)
  }

  /** The list steps of `update_resv`: accounts, then features, then users.
      A failing account edit stops before features and users; a failing
      user edit keeps the new features and accounts. */
  function UpdateLists(dir: Directory, r: Resv, req: Request): (res: (Resv, Option<Errno>))
    ensures res.0 == r.(accounts := res.0.accounts, accountList := res.0.accountList,
                        features := res.0.features, users := res.0.users, userList := res.0.userList)
    ensures res.1.Some? ==> res.1.value == InvalidBankAccount || res.1.value == UserIdMissing
    ensures req.accounts.None? ==>
      res.1 != Some(InvalidBankAccount) && res.0.accounts == r.accounts && res.0.accountList == r.accountList
    ensures req.accounts.Some? ==>
      var a := UpdateAccountList(Accts(r.accounts, r.accountList), req.accounts);
      res.0.accounts == a.0.accounts && res.0.accountList == a.0.list && (res.1 == Some(InvalidBankAccount) <==> a.1.Some?)
    ensures res.1 != Some(InvalidBankAccount) ==>
      res.0.features == (if req.features.Some? then req.features else r.features)
    ensures res.1 != Some(InvalidBankAccount) && req.users.Some? ==>
      var u := UpdateUidList(UserSet(r.users, r.userList), dir, req.users);
      res.0.users == u.0.users && res.0.userList == u.0.list && (res.1.Some? <==> u.1.Some?)
    ensures req.users.None? ==> res.1 != Some(UserIdMissing)
    ensures req.users.None? ==> res.0.users == r.users && res.0.userList == r.userList
    ensures res.1 == Some(InvalidBankAccount) ==>
      res.0.features == r.features && res.0.users == r.users && res.0.userList == r.userList
  {
    var acc := if req.accounts.Some? then UpdateAccountList(Accts(r.accounts, r.accountList), req.accounts)
               else (Accts(r.accounts, r.accountList), None);
    var r1 := r.(accounts := acc.0.accounts, accountList := acc.0.list);
    if acc.1.Some? then (r1, acc.1)
    else
      var r2 := if req.features.Some? then r1.(features := req.features) else r1;
      if req.users.Some? then
        var usr := UpdateUidList(UserSet(r2.users, r2.userList), dir, req.users);
        (r2.(users := usr.0.users, userList := usr.0.list), usr.1)
      else (r2, None)
  }

  /** The first steps of `update_resv`: flags, partition, then the lists. A
      failing step ends the update but every earlier step stays applied. */
  function UpdateFields(c: Config, dir: Directory, r: Resv, req: Request): (res: (Resv, Option<Errno>))
    requires Valid(c)
    ensures res.0.flags == UpdateFlags(r.flags, req.flags)
    ensures res.0 == r.(flags := res.0.flags, partition := res.0.partition, part := res.0.part,
                        accounts := res.0.accounts, accountList := res.0.accountList,
                        features := res.0.features, users := res.0.users, userList := res.0.userList)
    ensures EntryOk(c, r) ==> EntryOk(c, res.0)
    ensures res.1.Some? ==> res.1.value in {InvalidPartitionName, InvalidBankAccount, UserIdMissing}
    ensures req.partition.Some? && req.partition.value != [] && req.partition.value in c.parts ==>
      res.0.partition == req.partition && res.0.part == req.partition
    ensures req.partition.Some? && req.partition.value != [] && req.partition.value !in c.parts ==>
      res == (r.(flags := UpdateFlags(r.flags, req.flags)), Some(InvalidPartitionName))
    ensures !(req.partition.Some? && req.partition.value != [] && req.partition.value !in c.parts) ==>
      var l := UpdateLists(dir, r, req);
      && res.1 == l.1
      && res.0.accounts == l.0.accounts && res.0.accountList == l.0.accountList
      && res.0.features == l.0.features && res.0.users == l.0.users && res.0.userList == l.0.userList
  {
    var r1 := r.(flags := UpdateFlags(r.flags, req.flags));
    var (r2, e2) := UpdatePartition(c, r1, req);
    if e2.Some? then (r2, e2)
    else
      UpdateListsOnlyReadsLists(dir, r, r2, req);
      UpdateLists(dir, r2, req)
  }

  /** The list steps read only the list fields of the record they edit. */
  lemma UpdateListsOnlyReadsLists(dir: Directory, r: Resv, r': Resv, req: Request)
    requires r' == r.(flags := r'.flags, partition := r'.partition, part := r'.part)
    ensures var (a, b) := (UpdateLists(dir, r, req), UpdateLists(dir, r', req));
      && a.1 == b.1
      && a.0.accounts == b.0.accounts && a.0.accountList == b.0.accountList
      && a.0.features == b.0.features && a.0.users == b.0.users && a.0.userList == b.0.userList
  {
  }

  /** The time steps of `update_resv`: a new start (not before `now - 60`)
      saves the old one as `start_time_prev`; then a new end (same bound);
      then a duration sets the end from the possibly new start. */
  function UpdateTimes(r: Resv, req: Request, now: int): (res: (Resv, Option<Errno>))
    ensures res.0 == r.(startTime := res.0.startTime, startTimePrev := res.0.startTimePrev, endTime := res.0.endTime)
    ensures res.1.Some? ==> res.1.value == InvalidTimeValue
    ensures req.startTime != NO_VAL && req.startTime < now - SKEW ==> res == (r, Some(InvalidTimeValue))
    ensures res.1.Some? ==> res.0.endTime == r.endTime
    ensures res.1.Some? <==> (req.startTime != NO_VAL && req.startTime < now - SKEW)
                             || (req.endTime != NO_VAL && req.endTime < now - SKEW)
    ensures req.startTime != NO_VAL && req.startTime >= now - SKEW ==>
      res.0.startTime == req.startTime && res.0.startTimePrev == r.startTime
    ensures req.startTime == NO_VAL ==> res.0.startTime == r.startTime && res.0.startTimePrev == r.startTimePrev
    ensures res.1.None? && req.duration != NO_VAL ==> res.0.endTime == res.0.startTime + MinutesToSecs(req.duration)
    ensures res.1.None? && req.duration == NO_VAL ==>
      res.0.endTime == (if req.endTime != NO_VAL then req.endTime else r.endTime)
  {
    if req.startTime != NO_VAL && req.startTime < now - SKEW then (r, Some(InvalidTimeValue))
    else
      var r1 := if req.startTime != NO_VAL then r.(startTimePrev := r.startTime, startTime := req.startTime) else r;
      if req.endTime != NO_VAL && req.endTime < now - SKEW then (r1, Some(InvalidTimeValue))
      else
        var r2 := if req.endTime != NO_VAL then r1.(endTime := req.endTime) else r1;
        var r3 := if req.duration != NO_VAL then r2.(endTime := r2.startTime + MinutesToSecs(req.duration)) else r2;
        (r3, None)
  }

  /** The last step of `update_resv`: if the entry now overlaps another,
      restore the old times and, when a node list was saved, the old node
      list and bitmap (but not `node_cnt`); otherwise, when a node list was
      saved, recount nodes and CPUs. */
  function CheckOverlap(c: Config, resvs: seq<Resv>, k: nat, r: Resv, oldStart: int, oldEnd: int,
                        oldList: Option<string>, oldNodes: Option<NodeSet>): (res: (Resv, Option<Errno>))
    ensures res.0 == r.(startTime := res.0.startTime, endTime := res.0.endTime, nodeList := res.0.nodeList,
                        nodes := res.0.nodes, nodeCnt := res.0.nodeCnt, cpuCnt := res.0.cpuCnt)
    ensures res.1.Some? <==> ResvOverlap(resvs, r.startTime, r.endTime, r.nodes, Some(k))
    ensures res.1.Some? ==> (res.1.value == InvalidTimeValue
      && res.0 == r.(startTime := oldStart, endTime := oldEnd,
                     nodeList := if oldList.Some? then oldList else r.nodeList,
                     nodes := if oldList.Some? then oldNodes else r.nodes))
    ensures res.1.None? && oldList.Some? ==> res.0 == r.(nodeCnt := |NodesOf(r)|, cpuCnt := CpuCount(c, NodesOf(r)))
    ensures res.1.None? && oldList.None? ==> res.0 == r
    ensures SameRequestFields(res.0, r)
    ensures EntryOk(c, r) && (oldList.Some? ==> NodesOf(r.(nodes := oldNodes)) <= Universe(c)) ==> EntryOk(c, res.0)
  {
    if ResvOverlap(resvs, r.startTime, r.endTime, r.nodes, Some(k)) then
      var r1 := r.(startTime := oldStart, endTime := oldEnd);
      (if oldList.Some? then r1.(nodeList := oldList, nodes := oldNodes) else r1, Some(InvalidTimeValue))
    else if oldList.Some? then
      (r.(nodeCnt := |NodesOf(r)|, cpuCnt := CpuCount(c, NodesOf(r))), None)
    else (r, None)
  }

  /** The node steps of `update_resv`: a new node list (an unparsable one
      sets both times to the old start), a new node count through
      `_resize_resv`, then the overlap check. */
  function UpdateNodes(c: Config, resvs: seq<Resv>, k: nat, r: Resv, oldStart: int, oldEnd: int, req: Request)
    : (res: (Resv, Option<Errno>))
    requires Valid(c) && k < |resvs| && EntryOk(c, r)
    ensures res.0 == r.(nodeList := res.0.nodeList, nodes := res.0.nodes, nodeCnt := res.0.nodeCnt,
                        cpuCnt := res.0.cpuCnt, part := res.0.part,
                        startTime := res.0.startTime, endTime := res.0.endTime)
    ensures res.0.part == r.part
            || (r.part.None? && req.nodeCnt != NO_VAL && req.nodeCnt > r.nodeCnt && res.0.part == c.defaultPart)
    ensures EntryOk(c, res.0)
    ensures res.1.None? ==> !ResvOverlap(resvs, res.0.startTime, res.0.endTime, res.0.nodes, Some(k))
    ensures req.nodeList.Some? && ParseNodeList(c, req.nodeList.value).None? ==>
      res == (r.(startTime := oldStart, endTime := oldStart), Some(InvalidNodeName))
    ensures res.1 == Some(InvalidNodeName) ==> res.0.startTime == oldStart && res.0.endTime == oldStart
    ensures res.1.None? ==> res.0.startTime == r.startTime && res.0.endTime == r.endTime
    ensures req.nodeCnt != NO_VAL && req.nodeList.None? ==>
      res == ResizeThenCheck(c, resvs, k, r, oldStart, oldEnd, req.nodeCnt)
    ensures req.nodeCnt != NO_VAL && req.nodeList.Some? && ParseNodeList(c, req.nodeList.value).Some? ==>
      res == ResizeThenCheck(c, resvs, k, r.(nodeList := req.nodeList, nodes := ParseNodeList(c, req.nodeList.value)),
                             oldStart, oldEnd, req.nodeCnt)
    ensures req.nodeCnt == NO_VAL && (req.nodeList.None? || ParseNodeList(c, req.nodeList.value).Some?) ==>
      res == CheckOverlap(c, resvs, k,
                          if req.nodeList.Some? then r.(nodeList := req.nodeList, nodes := ParseNodeList(c, req.nodeList.value))
                          else r,
                          oldStart, oldEnd, if req.nodeList.Some? then r.nodeList else None, r.nodes)
    ensures req.nodeCnt == NO_VAL && (req.nodeList.None? || ParseNodeList(c, req.nodeList.value).Some?) ==>
      var nodes' := if req.nodeList.Some? then ParseNodeList(c, req.nodeList.value) else r.nodes;
      && (res.1.None? <==> !ResvOverlap(resvs, r.startTime, r.endTime, nodes', Some(k)))
      && (res.1.None? && req.nodeList.None? ==> res.0 == r)
      && (res.1.None? && req.nodeList.Some? ==>
            && res.0.nodes == nodes' && res.0.nodeList == req.nodeList
            && (r.nodeList.Some? ==> res.0.nodeCnt == |NodesOf(res.0)| && res.0.cpuCnt == CpuCount(c, NodesOf(res.0))))
      && (res.1.Some? ==>
            && res.1.value == InvalidTimeValue
            && res.0.startTime == oldStart && res.0.endTime == oldEnd
            && (req.nodeList.None? || r.nodeList.Some? ==> res.0.nodes == r.nodes && res.0.nodeList == r.nodeList))
  {
    if req.nodeList.Some? && ParseNodeList(c, req.nodeList.value).None? then
      (r.(startTime := oldStart, endTime := oldStart), Some(InvalidNodeName))
    else
      var listed := req.nodeList.Some?;
      var r1 := if listed then r.(nodeList := req.nodeList, nodes := ParseNodeList(c, req.nodeList.value)) else r;
      if req.nodeCnt != NO_VAL then ResizeThenCheck(c, resvs, k, r1, oldStart, oldEnd, req.nodeCnt)
      else CheckOverlap(c, resvs, k, r1, oldStart, oldEnd, if listed then r.nodeList else None, r.nodes)
  }

  /** A new node count in `update_resv`: `_resize_resv` on the entry as it
      now stands, then the overlap check with the resized list saved. */
  function ResizeThenCheck(c: Config, resvs: seq<Resv>, k: nat, r: Resv, oldStart: int, oldEnd: int, cnt: nat)
    : (res: (Resv, Option<Errno>))
    requires Valid(c) && k < |resvs| && EntryOk(c, r)
    ensures res.0 == r.(nodeList := res.0.nodeList, nodes := res.0.nodes, nodeCnt := res.0.nodeCnt,
                        cpuCnt := res.0.cpuCnt, part := res.0.part,
                        startTime := res.0.startTime, endTime := res.0.endTime)
    ensures res.0.part == (if cnt > r.nodeCnt && r.part.None? then c.defaultPart else r.part)
    ensures EntryOk(c, res.0)
    ensures res.1 != Some(InvalidNodeName)
    ensures res.1.None? ==> !ResvOverlap(resvs, res.0.startTime, res.0.endTime, res.0.nodes, Some(k))
    ensures var rz := ResizeResv(c, resvs[k := r], r, cnt);
      && (rz.1.Some? ==> res == rz)
      && (rz.1.None? ==> res == CheckOverlap(c, resvs, k, rz.0, oldStart, oldEnd, r.nodeList, r.nodes))
      && (rz.1.None? ==> (res.1.None? <==> !ResvOverlap(resvs, r.startTime, r.endTime, rz.0.nodes, Some(k))))
      && (rz.1.None? && res.1.None? ==>
            && res.0.nodes == rz.0.nodes && res.0.nodeList == rz.0.nodeList
            && res.0.startTime == r.startTime && res.0.endTime == r.endTime
            && res.0.nodeCnt == (if r.nodeList.Some? then |NodesOf(rz.0)| else cnt))
      && (rz.1.None? && res.1.Some? ==>
            && res.1.value == InvalidTimeValue
            && res.0.startTime == oldStart && res.0.endTime == oldEnd && res.0.nodeCnt == cnt
            && (r.nodeList.Some? ==> res.0.nodes == r.nodes && res.0.nodeList == r.nodeList))
  {
    var (r2, e2) := ResizeResv(c, resvs[k := r], r, cnt);
    if e2.Some? then (r2, e2)
    else CheckOverlap(c, resvs, k, r2, oldStart, oldEnd, r.nodeList, r.nodes)
  }

  /** A new node count that the update accepts is applied: for an entry
      whose `node_cnt` is its popcount and whose window is non-empty, both
      the count and the bitmap end at `cnt`. */
  lemma ResizeThenCheckCount(c: Config, resvs: seq<Resv>, k: nat, r: Resv, oldStart: int, oldEnd: int, cnt: nat)
    requires Valid(c) && k < |resvs| && EntryOk(c, r)
    requires r.startTime < r.endTime && r.nodeCnt == |NodesOf(r)|
    ensures var res := ResizeThenCheck(c, resvs, k, r, oldStart, oldEnd, cnt);
      res.1.None? ==> res.0.nodeCnt == cnt && |NodesOf(res.0)| == cnt
  {
    ResizeResvCount(c, resvs[k := r], k, cnt);
  }

  /** `update_resv`. A missing name changes nothing; otherwise only the
      named entry changes, keeping its name and id, and the registry is
      stamped even when the update fails part-way. */
  function UpdateResv(c: Config, dir: Directory, reg: Registry, req: Request, now: int): (res: (Registry, Option<Errno>))
    requires Valid(c) && RegistryOk(c, reg.resvs)
    ensures req.name.None? || FindByName(reg.resvs, req.name.value).None? ==> res == (reg, Some(ReservationInvalid))
    ensures req.name.Some? && FindByName(reg.resvs, req.name.value).Some? ==>
      var k := FindByName(reg.resvs, req.name.value).value;
      && |res.0.resvs| == |reg.resvs|
      && (forall i :: 0 <= i < |reg.resvs| && i != k ==> res.0.resvs[i] == reg.resvs[i])
      && res.0.resvs[k].name == reg.resvs[k].name && res.0.resvs[k].id == reg.resvs[k].id
      && res.0.resvs[k].flags == UpdateFlags(reg.resvs[k].flags, req.flags)
      && EntryOk(c, res.0.resvs[k])
      && res.0.topSuffix == reg.topSuffix && res.0.lastUpdate == now
      && (res.1.None? ==> !ResvOverlap(reg.resvs, res.0.resvs[k].startTime, res.0.resvs[k].endTime, res.0.resvs[k].nodes, Some(k)))
      && (res.0.resvs[k], res.1) == UpdateEntry(c, dir, reg.resvs, k, req, now)
  {
    if req.name.None? then (reg, Some(ReservationInvalid))
    else match FindByName(reg.resvs, req.name.value)
      case None => (reg, Some(ReservationInvalid))
      case Some(k) =>
        var (r, e) := UpdateEntry(c, dir, reg.resvs, k, req, now);
        (Registry(reg.resvs[k := r], reg.topSuffix, now), e)
  }

  /** The steps of `update_resv` on entry `k`, in order: fields, times,
      nodes. */
  function UpdateEntry(c: Config, dir: Directory, resvs: seq<Resv>, k: nat, req: Request, now: int)
    : (res: (Resv, Option<Errno>))
    requires Valid(c) && k < |resvs| && EntryOk(c, resvs[k])
    ensures res.0.name == resvs[k].name && res.0.id == resvs[k].id
    ensures res.0.flags == UpdateFlags(resvs[k].flags, req.flags)
    ensures EntryOk(c, res.0)
    ensures res.1.None? ==> !ResvOverlap(resvs, res.0.startTime, res.0.endTime, res.0.nodes, Some(k))
    ensures var f := UpdateFields(c, dir, resvs[k], req);
      var t := UpdateTimes(f.0, req, now);
      && (f.1.Some? ==> res == f)
      && (f.1.None? && t.1.Some? ==> res == t)
      && (f.1.None? && t.1.None? ==> res == UpdateNodes(c, resvs, k, t.0, resvs[k].startTime, resvs[k].endTime, req))
    ensures res.1.None? ==>
      var l := UpdateLists(dir, resvs[k], req);
      && res.0.accounts == l.0.accounts && res.0.accountList == l.0.accountList
      && res.0.features == l.0.features && res.0.users == l.0.users && res.0.userList == l.0.userList
      && res.0.startTime == (if req.startTime != NO_VAL then req.startTime else resvs[k].startTime)
      && res.0.endTime == (if req.duration != NO_VAL then res.0.startTime + MinutesToSecs(req.duration)
                           else if req.endTime != NO_VAL then req.endTime else resvs[k].endTime)
  {
    var (r1, e1) := UpdateFields(c, dir, resvs[k], req);
    if e1.Some? then (r1, e1)
    else
      var (r2, e2) := UpdateTimes(r1, req, now);
      if e2.Some? then (r2, e2)
      else UpdateNodes(c, resvs, k, r2, r1.startTime, r1.endTime, req)
  }

  /** A successful update keeps names unique and the registry free of
      conflicts; any update keeps every entry's references live. */
  lemma UpdateResvKeepsInvariants(c: Config, dir: Directory, reg: Registry, req: Request, now: int)
    requires Valid(c) && RegistryOk(c, reg.resvs)
    requires NamesUnique(reg.resvs) && ConflictFree(reg.resvs)
    ensures var res := UpdateResv(c, dir, reg, req, now);
      && NamesUnique(res.0.resvs) && RegistryOk(c, res.0.resvs)
      && (res.1.None? ==> ConflictFree(res.0.resvs))
  {
    var res := UpdateResv(c, dir, reg, req, now);
    if req.name.Some? && FindByName(reg.resvs, req.name.value).Some? {
      var k := FindByName(reg.resvs, req.name.value).value;
      assert res.0.resvs == reg.resvs[k := res.0.resvs[k]];
      forall i | 0 <= i < |reg.resvs| ensures res.0.resvs[i].name == reg.resvs[i].name { }
      if res.1.None? {
        ConflictFreeReplace(reg.resvs, k, res.0.resvs[k]);
      }
    }
  }

  /** An unparsable node list fails the update with both times of the entry
      set to its old start, so the entry's window becomes empty. */
  lemma UpdateResvBadNodeList(c: Config, dir: Directory, reg: Registry, req: Request, now: int)
    requires Valid(c) && RegistryOk(c, reg.resvs)
    requires req.name.Some? && FindByName(reg.resvs, req.name.value).Some?
    ensures var k := FindByName(reg.resvs, req.name.value).value;
      var res := UpdateResv(c, dir, reg, req, now);
      res.1 == Some(InvalidNodeName) ==>
        res.0.resvs[k].startTime == reg.resvs[k].startTime && res.0.resvs[k].endTime == reg.resvs[k].startTime
  {
    var k := FindByName(reg.resvs, req.name.value).value;
    var (r1, e1) := UpdateFields(c, dir, reg.resvs[k], req);
    if e1.None? {
      var (r2, e2) := UpdateTimes(r1, req, now);
      assert r1.startTime == reg.resvs[k].startTime;
    }
  }

  /** The update is not transactional: a valid partition is committed even
      when a later step fails. */
  lemma UpdateResvKeepsPartition(c: Config, dir: Directory, reg: Registry, req: Request, now: int)
    requires Valid(c) && RegistryOk(c, reg.resvs)
    requires req.name.Some? && FindByName(reg.resvs, req.name.value).Some?
    requires req.partition.Some? && req.partition.value != [] && req.partition.value in c.parts
    ensures var k := FindByName(reg.resvs, req.name.value).value;
      UpdateResv(c, dir, reg, req, now).0.resvs[k].partition == req.partition
  {
    var k := FindByName(reg.resvs, req.name.value).value;
    var (r1, e1) := UpdateFields(c, dir, reg.resvs[k], req);
    if e1.None? {
      var (r2, e2) := UpdateTimes(r1, req, now);
      if e2.None? {
        var (r3, e3) := UpdateNodes(c, reg.resvs, k, r2, r1.startTime, r1.endTime, req);
        assert r3.partition == r2.partition;
      }
    }
  }

  /** A valid new start time is committed when the end time is then
      refused, and no overlap check runs. */
  lemma UpdateResvKeepsStart(c: Config, dir: Directory, reg: Registry, req: Request, now: int)
    requires Valid(c) && RegistryOk(c, reg.resvs)
    requires req.name.Some? && FindByName(reg.resvs, req.name.value).Some?
    requires req.partition.None? && req.accounts.None? && req.users.None?
    requires req.startTime != NO_VAL && req.startTime >= now - SKEW
    requires req.endTime != NO_VAL && req.endTime < now - SKEW
    ensures var k := FindByName(reg.resvs, req.name.value).value;
      var res := UpdateResv(c, dir, reg, req, now);
      res.1 == Some(InvalidTimeValue) && res.0.resvs[k].startTime == req.startTime
  {
    var k := FindByName(reg.resvs, req.name.value).value;
    var (r1, e1) := UpdateFields(c, dir, reg.resvs[k], req);
    assert e1.None?;
  }

  // -----------------------------------------------------------------------
  // delete_resv

  /** Some job that has not finished is bound to reservation id `id`. */
  predicate ResvUsed(jobs: seq<Job>, id: nat) {
    exists j :: 0 <= j < |jobs| && !jobs[j].finished && jobs[j].resvId == id
  }

  /** `_is_resv_used`: scan the job list for an unfinished job bound to the
      reservation's id. */
  method IsResvUsed(jobs: seq<Job>, r: Resv) returns (used: bool)
    ensures used <==> ResvUsed(jobs, r.id)
  {
    var i := 0;
    while i < |jobs|
      invariant 0 <= i <= |jobs|
      invariant forall j :: 0 <= j < i ==> jobs[j].finished || jobs[j].resvId != r.id
    {
      if !jobs[i].finished && jobs[i].resvId == r.id {
        return true;
      }
      i := i + 1;
    }
    return false;
  }

  /** `delete_resv`: an unknown name is an error that leaves everything
      alone; a reservation in use is kept and reported busy; otherwise the
      first entry of that name goes. Both found cases stamp the registry. */
  function DeleteResv(reg: Registry, jobs: seq<Job>, name: string, now: int): (res: (Registry, Option<Errno>))
    ensures FindByName(reg.resvs, name).None? ==> res == (reg, Some(ReservationInvalid))
    ensures FindByName(reg.resvs, name).Some? ==>
      var k := FindByName(reg.resvs, name).value;
      && res.0.lastUpdate == now && res.0.topSuffix == reg.topSuffix
      && res.1 == (if ResvUsed(jobs, reg.resvs[k].id) then Some(ReservationBusy) else None)
      && (res.1.Some? ==> res.0.resvs == reg.resvs)
      && (res.1.None? ==> res.0.resvs == reg.resvs[..k] + reg.resvs[k + 1..])
  {
    match FindByName(reg.resvs, name)
    case None => (reg, Some(ReservationInvalid))
    case Some(k) =>
      if ResvUsed(jobs, reg.resvs[k].id) then (reg.(lastUpdate := now), Some(ReservationBusy))
      else (Registry(reg.resvs[..k] + reg.resvs[k + 1..], reg.topSuffix, now), None)
  }

  /** After a successful delete the name is free and exactly one entry has
      gone; the registry invariants survive. */
  lemma DeleteResvRemoves(c: Config, reg: Registry, jobs: seq<Job>, name: string, now: int)
    requires NamesUnique(reg.resvs) && ConflictFree(reg.resvs) && RegistryOk(c, reg.resvs)
    ensures var res := DeleteResv(reg, jobs, name, now);
      res.1.None? ==>
        && FindByName(res.0.resvs, name).None?
        && multiset(res.0.resvs) + multiset{reg.resvs[FindByName(reg.resvs, name).value]} == multiset(reg.resvs)
        && NamesUnique(res.0.resvs) && ConflictFree(res.0.resvs) && RegistryOk(c, res.0.resvs)
  {
    var res := DeleteResv(reg, jobs, name, now);
    if res.1.None? {
      var k := FindByName(reg.resvs, name).value;
      var s := res.0.resvs;
      assert reg.resvs == reg.resvs[..k] + [reg.resvs[k]] + reg.resvs[k + 1..];
      forall i | 0 <= i < |s|
        ensures s[i] == reg.resvs[if i < k then i else i + 1]
      {
      }
      ConflictFreeRemove(reg.resvs, k);
    }
  }

  // -----------------------------------------------------------------------
  // _validate_all_reservations

  /** `_validate_one_reservation`: a loaded entry needs a name, a known
      partition, a user list whose names all resolve, and a parsable node
      list; the lists, the partition reference and the bitmap are rebuilt. */
  function ValidateOne(c: Config, dir: Directory, r: Resv): (res: Option<Resv>)
    ensures res.None? <==>
      || r.name == []
      || (r.partition.Some? && r.partition.value !in c.parts)
      || (r.users.Some? && BuildUidList(dir, r.users).Err?)
      || (r.nodeList.Some? && ParseNodeList(c, r.nodeList.value).None?)
    ensures res.Some? ==>
      && res.value == r.(part := res.value.part, accountList := res.value.accountList,
                         userList := res.value.userList, nodes := res.value.nodes)
      && (r.partition.Some? ==> res.value.part == r.partition)
      && (r.accounts.Some? ==> res.value.accountList == Tokens(r.accounts.value))
      && (r.users.Some? ==> BuildUidList(dir, r.users) == Ok(res.value.userList))
      && (r.nodeList.Some? ==> res.value.nodes == ParseNodeList(c, r.nodeList.value))
      && (r.partition.None? ==> res.value.part == r.part)
      && (r.accounts.None? ==> res.value.accountList == r.accountList)
      && (r.users.None? ==> res.value.userList == r.userList)
      && (r.nodeList.None? ==> res.value.nodes == r.nodes)
  {
    if r.name == [] then None
    else if r.partition.Some? && FindPart(c, r.partition.value).None? then None
    else
      var r1 := if r.partition.Some? then r.(part := r.partition) else r;
      match (if r.accounts.Some? then BuildAccountList(r.accounts) else Ok(r.accountList))
      case Err(_) => None
      case Ok(al) =>
        var r2 := r1.(accountList := al);
        match (if r.users.Some? then BuildUidList(dir, r.users) else Ok(r.userList))
        case Err(_) => None
        case Ok(ul) =>
          var r3 := r2.(userList := ul);
          if r.nodeList.Some? && ParseNodeList(c, r.nodeList.value).None? then None
          else Some(if r.nodeList.Some? then r3.(nodes := ParseNodeList(c, r.nodeList.value)) else r3)
  }

  /** `top_suffix` raised to a name's numeric suffix, if it has one. */
  function SuffixMax(top: nat, name: string): (r: nat)
    ensures r >= top
    ensures NameSuffix(name).Some? ==> r >= NameSuffix(name).value
    ensures r == top || NameSuffix(name) == Some(r)
  {
    match NameSuffix(name)
    case None => top
    case Some(n) => if n > top then n else top
  }

  /** The validation loop from some point on: purge the failing entries,
      keep the rest in order, and raise `top` past every kept suffix. */
  function ValidateFrom(c: Config, dir: Directory, resvs: seq<Resv>, top: nat): (res: (seq<Resv>, nat))
    ensures res.1 >= top
    ensures forall r :: r in res.0 ==> exists x :: x in resvs && ValidateOne(c, dir, x) == Some(r)
    ensures forall x :: x in resvs && ValidateOne(c, dir, x).Some? ==> ValidateOne(c, dir, x).value in res.0
    ensures forall r :: r in res.0 && NameSuffix(r.name).Some? ==> NameSuffix(r.name).value <= res.1
    decreases |resvs|
  {
    hide *;
    if resvs == [] then ([], top)
    else
      assert forall x :: x in resvs <==> x == resvs[0] || x in resvs[1..];
      match ValidateOne(c, dir, resvs[0])
      case None => ValidateFrom(c, dir, resvs[1..], top)
      case Some(r) =>
        var rest := ValidateFrom(c, dir, resvs[1..], SuffixMax(top, r.name));
        ([r] + rest.0, rest.1)
  }

  /** The counter the loop returns is the starting one or the suffix of a
      kept record: it is the maximum of the two, not merely a bound. */
  lemma {:induction false} ValidateFromReachesMax(c: Config, dir: Directory, resvs: seq<Resv>, top: nat)
    ensures var res := ValidateFrom(c, dir, resvs, top);
      res.1 == top || exists r :: r in res.0 && NameSuffix(r.name) == Some(res.1)
    decreases |resvs|
  {
    if resvs != [] {
      match ValidateOne(c, dir, resvs[0])
      case None =>
        ValidateFromReachesMax(c, dir, resvs[1..], top);
      case Some(r) =>
        var t := SuffixMax(top, r.name);
        ValidateFromReachesMax(c, dir, resvs[1..], t);
        var rest := ValidateFrom(c, dir, resvs[1..], t);
        assert ValidateFrom(c, dir, resvs, top) == ([r] + rest.0, rest.1);
        if rest.1 != t {
          var w :| w in rest.0 && NameSuffix(w.name) == Some(rest.1);
          assert w in [r] + rest.0;
        } else if t != top {
          assert r in [r] + rest.0;
        }
    }
  }

  /** The record survives validation. */
  predicate Kept(c: Config, dir: Directory, r: Resv) {
    ValidateOne(c, dir, r).Some?
  }

  /** The positions from `lo` on whose records pass `ValidateOne`, in
      increasing order and each once: the survivors of the in-place
      deletion. */
  function KeptFrom(c: Config, dir: Directory, resvs: seq<Resv>, lo: nat): (idx: seq<nat>)
    ensures forall i :: 0 <= i < |idx| ==> lo <= idx[i] < |resvs| && Kept(c, dir, resvs[idx[i]])
    ensures forall i, j :: 0 <= i < j < |idx| ==> idx[i] < idx[j]
    decreases |resvs| - lo
  {
    hide *;
    if lo >= |resvs| then []
    else
      var rest := KeptFrom(c, dir, resvs, lo + 1);
      if Kept(c, dir, resvs[lo]) then [lo] + rest else rest
  }

  /** The kept positions of the whole sequence. */
  function KeptIndices(c: Config, dir: Directory, resvs: seq<Resv>): (idx: seq<nat>)
    ensures forall i :: 0 <= i < |idx| ==> idx[i] < |resvs| && Kept(c, dir, resvs[idx[i]])
    ensures forall i, j :: 0 <= i < j < |idx| ==> idx[i] < idx[j]
  {
    KeptFrom(c, dir, resvs, 0)
  }

  /** No record from `lo` on that passes validation is left out. */
  lemma {:induction false} KeptFromComplete(c: Config, dir: Directory, resvs: seq<Resv>, lo: nat, j: nat)
    requires lo <= j < |resvs| && Kept(c, dir, resvs[j])
    ensures j in KeptFrom(c, dir, resvs, lo)
    decreases |resvs| - lo
  {
    hide Kept;
    var rest := KeptFrom(c, dir, resvs, lo + 1);
    if j == lo {
      assert KeptFrom(c, dir, resvs, lo) == [lo] + rest;
    } else {
      KeptFromComplete(c, dir, resvs, lo + 1, j);
    }
  }

  /** Every record that passes validation has its position in
      `KeptIndices`; with the in-range clause of `KeptIndices`, a position
      is listed exactly when its record passes. */
  lemma KeptIndicesComplete(c: Config, dir: Directory, resvs: seq<Resv>, j: nat)
    requires j < |resvs|
    ensures j in KeptIndices(c, dir, resvs) <==> Kept(c, dir, resvs[j])
  {
    if Kept(c, dir, resvs[j]) {
      KeptFromComplete(c, dir, resvs, 0, j);
    }
  }

  /** One step of the validation loop: the first record is kept in its
      validated form exactly when it passes, ahead of the rest. */
  lemma ValidateFromStep(c: Config, dir: Directory, resvs: seq<Resv>, lo: nat, top: nat)
    requires lo < |resvs|
    ensures var v := ValidateOne(c, dir, resvs[lo]);
      var tail := ValidateFrom(c, dir, resvs[lo + 1..], if v.Some? then SuffixMax(top, v.value.name) else top).0;
      ValidateFrom(c, dir, resvs[lo..], top).0 == (if v.Some? then [v.value] + tail else tail)
  {
    hide ValidateOne, SuffixMax;
    assert resvs[lo..][1..] == resvs[lo + 1..];
  }

  /** One step of `KeptFrom`. */
  lemma KeptFromStep(c: Config, dir: Directory, resvs: seq<Resv>, lo: nat)
    requires lo < |resvs|
    ensures KeptFrom(c, dir, resvs, lo) ==
      (if Kept(c, dir, resvs[lo]) then [lo] + KeptFrom(c, dir, resvs, lo + 1) else KeptFrom(c, dir, resvs, lo + 1))
  {
    hide Kept;
  }

  /** The form a record that passes validation is kept in. */
  function Validated(c: Config, dir: Directory, r: Resv): Resv
    requires Kept(c, dir, r)
  {
    ValidateOne(c, dir, r).value
  }

  /** The validated forms of the records at the positions `idx`, in that
      order. */
  function Rebuilt(c: Config, dir: Directory, resvs: seq<Resv>, idx: seq<nat>): (res: seq<Resv>)
    requires forall i :: 0 <= i < |idx| ==> idx[i] < |resvs| && Kept(c, dir, resvs[idx[i]])
    ensures |res| == |idx|
    ensures forall i :: 0 <= i < |idx| ==> res[i] == Validated(c, dir, resvs[idx[i]])
  {
    seq(|idx|, i requires 0 <= i < |idx| => Validated(c, dir, resvs[idx[i]]))
  }

  /** Putting a kept position in front puts its validated record in front. */
  lemma RebuiltCons(c: Config, dir: Directory, resvs: seq<Resv>, idx: seq<nat>, lo: nat)
    requires forall i :: 0 <= i < |idx| ==> idx[i] < |resvs| && Kept(c, dir, resvs[idx[i]])
    requires lo < |resvs| && Kept(c, dir, resvs[lo])
    ensures Rebuilt(c, dir, resvs, [lo] + idx) == [Validated(c, dir, resvs[lo])] + Rebuilt(c, dir, resvs, idx)
  {
    hide Kept, Validated, Rebuilt;
    var idx' := [lo] + idx;
    var l, r := Rebuilt(c, dir, resvs, idx'), [Validated(c, dir, resvs[lo])] + Rebuilt(c, dir, resvs, idx);
    forall i | 0 <= i < |l|
      ensures l[i] == r[i]
    {
      if i > 0 {
        assert idx'[i] == idx[i - 1];
      }
    }
  }

  /** The loop keeps the survivors in their original order, each once: the
      `i`-th record it returns is the validated form of the `i`-th kept
      position. */
  lemma {:induction false} ValidateFromInOrder(c: Config, dir: Directory, resvs: seq<Resv>, lo: nat, top: nat)
    requires lo <= |resvs|
    ensures ValidateFrom(c, dir, resvs[lo..], top).0 == Rebuilt(c, dir, resvs, KeptFrom(c, dir, resvs, lo))
    decreases |resvs| - lo
  {
    if lo < |resvs| {
      hide ValidateOne, SuffixMax, ValidateFrom, KeptFrom, Rebuilt;
      var v := ValidateOne(c, dir, resvs[lo]);
      var top' := if v.Some? then SuffixMax(top, v.value.name) else top;
      ValidateFromInOrder(c, dir, resvs, lo + 1, top');
      ValidateFromStep(c, dir, resvs, lo, top);
      KeptFromStep(c, dir, resvs, lo);
      assert Kept(c, dir, resvs[lo]) == v.Some? by { hide ValidateOne; }
      if v.Some? {
        RebuiltCons(c, dir, resvs, KeptFrom(c, dir, resvs, lo + 1), lo);
      }
    }
  }

  /** `_validate_all_reservations`. */
  function ValidateAll(c: Config, dir: Directory, reg: Registry): (res: Registry)
    ensures res.lastUpdate == reg.lastUpdate && res.topSuffix >= reg.topSuffix
    ensures forall r :: r in res.resvs ==> exists x :: x in reg.resvs && ValidateOne(c, dir, x) == Some(r)
    ensures forall x :: x in reg.resvs && ValidateOne(c, dir, x).Some? ==> ValidateOne(c, dir, x).value in res.resvs
    ensures forall r :: r in res.resvs && NameSuffix(r.name).Some? ==> NameSuffix(r.name).value <= res.topSuffix
    ensures res.topSuffix == reg.topSuffix || exists r :: r in res.resvs && NameSuffix(r.name) == Some(res.topSuffix)
    ensures var idx := KeptIndices(c, dir, reg.resvs);
      && |res.resvs| == |idx|
      && forall i :: 0 <= i < |idx| ==> res.resvs[i] == ValidateOne(c, dir, reg.resvs[idx[i]]).value
  {
    ValidateFromReachesMax(c, dir, reg.resvs, reg.topSuffix);
    ValidateFromInOrder(c, dir, reg.resvs, 0, reg.topSuffix);
    assert reg.resvs[0..] == reg.resvs;
    var (resvs, top) := ValidateFrom(c, dir, reg.resvs, reg.topSuffix);
    Registry(resvs, top, reg.lastUpdate)
  }

  /** After validation the next id is above every id a surviving generated
      name carries (unless the counter is about to wrap), so the next
      generated name cannot repeat one of them. */
  lemma ValidateAllNextIdFresh(c: Config, dir: Directory, reg: Registry)
    ensures var res := ValidateAll(c, dir, reg);
      res.topSuffix <= 0xffff_ff00 ==>
        forall r, a, u, k: nat :: r in res.resvs && k < TWO_32 && r.name == GenerateName(a, u, k) ==>
          k < NextSuffix(res.topSuffix)
  {
    var res := ValidateAll(c, dir, reg);
    forall r, a, u, k: nat | r in res.resvs && k < TWO_32 && r.name == GenerateName(a, u, k)
      ensures k <= res.topSuffix
    {
      GeneratedNameSuffix(a, u, k);
    }
  }
}

=== FILE: base.dfy ===
/**
  Shared vocabulary of the reservation engine: the optional value used for
  C's NULL references, the error codes the engine returns, the sentinel
  constants of the request messages and the fixed-width arithmetic the C
  code relies on.
 */
module Base {

  /** A C reference that may be NULL: `None` stands for NULL. */
  datatype Option<T> = None | Some(value: T)

  /** A value, or the error code the C function returns instead of `SLURM_SUCCESS`. */
  datatype Result<T> = Ok(value: T) | Err(code: Errno)

  /** The SLURM error codes the reservation engine can return. */
  datatype Errno =
    | InvalidTimeValue         // ESLURM_INVALID_TIME_VALUE
    | InvalidPartitionName     // ESLURM_INVALID_PARTITION_NAME
    | InvalidBankAccount       // ESLURM_INVALID_BANK_ACCOUNT
    | UserIdMissing            // ESLURM_USER_ID_MISSING
    | InvalidNodeName          // ESLURM_INVALID_NODE_NAME
    | TooManyRequestedNodes    // ESLURM_TOO_MANY_REQUESTED_NODES
    | DefaultPartitionNotSet   // ESLURM_DEFAULT_PARTITION_NOT_SET
    | ReservationInvalid       // ESLURM_RESERVATION_INVALID
    | ReservationBusy          // ESLURM_RESERVATION_BUSY
    | ReservationAccess        // ESLURM_RESERVATION_ACCESS

  /** `NO_VAL`: a 32-bit request field the caller left unset. */
  const NO_VAL: int := 0xffff_fffe
  /** `(uint16_t) NO_VAL`: the unset value of the 16-bit flags field. */
  const NO_VAL16: bv16 := 0xfffe
  /** `INFINITE`: an end time or time limit with no bound. */
  const INFINITE: int := 0xffff_ffff
  /** `(uint16_t) INFINITE`: the unbounded overrun configuration value. */
  const INFINITE16: nat := 0xffff
  /** 365 days in seconds, the engine's stand-in for "unlimited". */
  const YEAR_SECS: nat := 365 * 24 * 60 * 60
  /** Tolerated clock skew, in seconds, for request times in the past. */
  const SKEW: int := 60

  const TWO_32: nat := 0x1_0000_0000

  /** Unsigned 32-bit arithmetic result: reduction modulo 2^32. */
  function U32(x: int): (r: nat)
    ensures r < TWO_32
    ensures (r - x) % TWO_32 == 0
    ensures 0 <= x < TWO_32 ==> r == x
  {
    x % TWO_32
  }

  /** `minutes * 60` computed in `uint32_t`, as the engine does for durations. */
  function MinutesToSecs(minutes: nat): (r: nat)
    ensures r < TWO_32
    ensures minutes * 60 < TWO_32 ==> r == minutes * 60
  {
    U32(minutes * 60)
  }
}

=== FILE: bitmap.dfy ===
/**
  Node bitmaps. The C code uses fixed-size bit strings over the node table;
  here a bitmap is the set of indices of its set bits. Population count is
  set cardinality, AND/OR/NOT-AND are intersection, union and difference.
  `bit_pick_cnt` is the one primitive with its own algorithm: it keeps the
  lowest-indexed set bits.
 */
module Bitmap {
  import opened Base

  type NodeSet = set<nat>

  /** The bits `[0, size)` of a bitmap of `size` bits, i.e. `bit_nset(b, 0, size - 1)`. */
  function Full(size: nat): (r: NodeSet)
    ensures forall x: nat :: x in r <==> x < size
    ensures |r| == size
  {
    if size == 0 then {} else
      var r := Full(size - 1) + {size - 1};
      assert size - 1 !in Full(size - 1);
      r
  }

  /** The members of `b` in `[lo, hi)`. */
  function Within(b: NodeSet, lo: nat, hi: nat): (r: NodeSet)
    ensures forall x: nat :: x in r <==> x in b && lo <= x < hi
  {
    set x | x in b && lo <= x < hi
  }

  function Min(a: nat, b: nat): nat {
    if a <= b then a else b
  }

  lemma WithinStep(b: NodeSet, lo: nat, hi: nat)
    requires lo < hi
    ensures lo in b ==> Within(b, lo, hi) == {lo} + Within(b, lo + 1, hi) && lo !in Within(b, lo + 1, hi)
    ensures lo !in b ==> Within(b, lo, hi) == Within(b, lo + 1, hi)
    ensures |Within(b, lo, hi)| == (if lo in b then 1 else 0) + |Within(b, lo + 1, hi)|
  {
    if lo in b {
      assert Within(b, lo, hi) == {lo} + Within(b, lo + 1, hi);
    } else {
      assert Within(b, lo, hi) == Within(b, lo + 1, hi);
    }
  }

  lemma WithinAll(b: NodeSet, size: nat)
    requires b <= Full(size)
    ensures Within(b, 0, size) == b
  {
  }

  /** The `n` lowest members of `b` in `[i, size)`, or all of them if fewer. */
  function PickLowest(b: NodeSet, n: nat, i: nat, size: nat): (r: NodeSet)
    ensures r <= Within(b, i, size)
    ensures |r| == Min(n, |Within(b, i, size)|)
    ensures forall x, y :: x in Within(b, i, size) && x !in r && y in r ==> y < x
    decreases size - i
  {
    if n == 0 || i >= size then
      assert i >= size ==> Within(b, i, size) == {};
      {}
    else
      WithinStep(b, i, size);
      if i in b then {i} + PickLowest(b, n - 1, i + 1, size)
      else PickLowest(b, n, i + 1, size)
  }

  /** `bit_pick_cnt(b, n)`: a bitmap holding the `n` lowest set bits of `b`,
      or NULL when `b` has fewer than `n` set bits. */
  function PickCnt(b: NodeSet, n: nat, size: nat): (r: Option<NodeSet>)
    requires b <= Full(size)
    ensures r.Some? <==> n <= |b|
    ensures r.Some? ==> r.value <= b && |r.value| == n
    ensures r.Some? ==> forall x, y :: x in b && x !in r.value && y in r.value ==> y < x
  {
    WithinAll(b, size);
    if |b| < n then None else Some(PickLowest(b, n, 0, size))
  }

  /** Sum of `weight[x]` over the members `x` of `b` at or above index `i`. */
  function SumFrom(weight: seq<nat>, b: NodeSet, i: nat): nat
    decreases |weight| - i
  {
    if i >= |weight| then 0
    else (if i in b then weight[i] else 0) + SumFrom(weight, b, i + 1)
  }

  /** Summing over a disjoint union adds the two sums. */
  lemma {:induction false} SumFromUnion(weight: seq<nat>, a: NodeSet, b: NodeSet, i: nat)
    requires a !! b
    ensures SumFrom(weight, a + b, i) == SumFrom(weight, a, i) + SumFrom(weight, b, i)
    decreases |weight| - i
  {
    if i < |weight| {
      SumFromUnion(weight, a, b, i + 1);
    }
  }

  /** Summing over a subset gives no more. */
  lemma {:induction false} SumFromMono(weight: seq<nat>, a: NodeSet, b: NodeSet, i: nat)
    requires a <= b
    ensures SumFrom(weight, a, i) <= SumFrom(weight, b, i)
    decreases |weight| - i
  {
    if i < |weight| {
      SumFromMono(weight, a, b, i + 1);
    }
  }

  /** The empty bitmap sums to nothing. */
  lemma SumFromNothing(weight: seq<nat>, b: NodeSet)
    ensures b == {} ==> SumFrom(weight, b, 0) == 0
  {
    if b == {} {
      SumFromEmpty(weight, b, 0);
    }
  }

  /** Summing over one member picks out its weight, if it is in range. */
  lemma {:induction false} SumFromSingleton(weight: seq<nat>, x: nat, i: nat)
    requires x < |weight|
    ensures SumFrom(weight, {x}, i) == if i <= x then weight[x] else 0
    decreases |weight| - i
  {
    if i < |weight| {
      SumFromSingleton(weight, x, i + 1);
    }
  }

  /** Sum over a bitmap with no members at or above `i` is zero. */
  lemma {:induction false} SumFromEmpty(weight: seq<nat>, b: NodeSet, i: nat)
    requires forall x :: x in b ==> x < i
    ensures SumFrom(weight, b, i) == 0
    decreases |weight| - i
  {
    if i < |weight| {
      SumFromEmpty(weight, b, i + 1);
    }
  }
}

=== FILE: config.dfy ===
/**
  The controller state the reservation engine reads but does not own: the
  node table (name, CPU count, feature list per node), the partition table,
  the default partition and the global "available" and "idle" bitmaps.
  Also the two external conversions between node-list strings and bitmaps.
 */
module NodeConfig {
  import opened Base
  import opened Strings
  import opened Bitmap

  /** One entry of the node table: its name, the CPU count `_set_cpu_cnt`
      adds (the configured or the reported one, as `fast_schedule` selects)
      and its configured features. */
  datatype Node = Node(name: string, cpus: nat, features: set<string>)

  /** A snapshot of the cluster configuration and live node state. */
  datatype Config = Config(
    nodes: seq<Node>,
    parts: map<string, NodeSet>,   // partition name -> its node bitmap
    defaultPart: Option<string>,   // default_part_loc
    avail: NodeSet,                // avail_node_bitmap: nodes that are up
    idle: NodeSet                  // idle_node_bitmap: nodes with no running job
  )

  /** The bit positions of `node_record_count`-sized bitmaps. */
  function Universe(c: Config): (u: NodeSet)
    ensures |u| == |c.nodes|
  {
    Full(|c.nodes|)
  }

  /** Every bitmap the configuration hands out lies within the node table. */
  predicate Valid(c: Config) {
    && c.avail <= Universe(c)
    && c.idle <= Universe(c)
    && (forall p :: p in c.parts ==> c.parts[p] <= Universe(c))
    && (c.defaultPart.Some? ==> c.defaultPart.value in c.parts)
  }

  /** `find_part_record(name)`. */
  function FindPart(c: Config, name: string): (r: Option<string>)
    ensures r.Some? <==> name in c.parts
    ensures r.Some? ==> r.value == name
  {
    if name in c.parts then Some(name) else None
  }

  /** The index of the first node called `name`. */
  function NodeIndex(nodes: seq<Node>, name: string, i: nat): (r: Option<nat>)
    ensures r.Some? ==> i <= r.value < |nodes| && nodes[r.value].name == name
    ensures r.Some? ==> forall j :: i <= j < r.value ==> nodes[j].name != name
    ensures r.None? ==> forall j :: i <= j < |nodes| ==> nodes[j].name != name
    decreases |nodes| - i
  {
    if i >= |nodes| then None
    else if nodes[i].name == name then Some(i)
    else NodeIndex(nodes, name, i + 1)
  }

  function LookupAll(nodes: seq<Node>, names: seq<string>): (r: Option<NodeSet>)
    ensures r.Some? ==> forall x :: x in r.value ==> x < |nodes|
    ensures r.Some? <==> forall k :: 0 <= k < |names| ==> NodeIndex(nodes, names[k], 0).Some?
  {
    if names == [] then Some({})
    else
      var head := NodeIndex(nodes, names[0], 0);
      var rest := LookupAll(nodes, names[1..]);
      assert forall k :: 1 <= k < |names| ==> names[k] == names[1..][k - 1];
      if head.None? || rest.None? then None
      else Some({head.value} + rest.value)
  }

  /** `node_name2bitmap(list, false, &bitmap)`: every comma-separated name must
      name a node of the table (hostlist range syntax is not modelled). */
  function NameToBitmap(c: Config, list: string): (r: Option<NodeSet>)
    ensures r.Some? ==> r.value <= Universe(c)
  {
    LookupAll(c.nodes, Tokens(list))
  }

  /** Names of the members of `b` at or above index `i`, in index order. */
  function NamesFrom(nodes: seq<Node>, b: NodeSet, i: nat): seq<string>
    decreases |nodes| - i
  {
    if i >= |nodes| then []
    else (if i in b then [nodes[i].name] else []) + NamesFrom(nodes, b, i + 1)
  }

  /** `bitmap2node_name(b)`: the names of the nodes in `b`, in index order,
      joined by commas (hostlist range compression is not modelled). */
  function BitmapToName(c: Config, b: NodeSet): string
  {
    Join(NamesFrom(c.nodes, b, 0))
  }

  /** Node names are distinct tokens, so a node list can be read back. */
  predicate NamesDistinct(c: Config) {
    && (forall i :: 0 <= i < |c.nodes| ==> IsToken(c.nodes[i].name))
    && (forall i, j :: 0 <= i < j < |c.nodes| ==> c.nodes[i].name != c.nodes[j].name)
  }

  lemma {:induction false} NamesFromTokens(c: Config, b: NodeSet, i: nat)
    requires NamesDistinct(c)
    ensures AllTokens(NamesFrom(c.nodes, b, i))
    decreases |c.nodes| - i
  {
    if i < |c.nodes| {
      NamesFromTokens(c, b, i + 1);
    }
  }

  lemma {:induction false} LookupNamesFrom(c: Config, b: NodeSet, i: nat)
    requires NamesDistinct(c)
    ensures LookupAll(c.nodes, NamesFrom(c.nodes, b, i)) == Some(Within(b, i, |c.nodes|))
    decreases |c.nodes| - i
  {
    var n := |c.nodes|;
    if i >= n {
      assert Within(b, i, n) == {};
    } else {
      LookupNamesFrom(c, b, i + 1);
      WithinStep(b, i, n);
      if i in b {
        var names := NamesFrom(c.nodes, b, i);
        assert names == [c.nodes[i].name] + NamesFrom(c.nodes, b, i + 1);
        assert names[1..] == NamesFrom(c.nodes, b, i + 1);
        var idx := NodeIndex(c.nodes, c.nodes[i].name, 0);
        assert idx == Some(i);
      } else {
        assert NamesFrom(c.nodes, b, i) == NamesFrom(c.nodes, b, i + 1);
      }
    }
  }

  /** Reading back the node list written for a bitmap gives the bitmap. */
  lemma NameToBitmapOfBitmapToName(c: Config, b: NodeSet)
    requires NamesDistinct(c)
    requires b <= Universe(c)
    ensures NameToBitmap(c, BitmapToName(c, b)) == Some(b)
  {
    NamesFromTokens(c, b, 0);
    TokensOfJoin(NamesFrom(c.nodes, b, 0));
    LookupNamesFrom(c, b, 0);
    WithinAll(b, |c.nodes|);
  }

  /** CPUs of the nodes in `b`: what `_set_cpu_cnt` stores in `cpu_cnt`. */
  function CpuCount(c: Config, b: NodeSet): (n: nat)
    ensures b == {} ==> n == 0
  {
    SumFromNothing(CpuWeights(c.nodes), b);
    SumFrom(CpuWeights(c.nodes), b, 0)
  }

  /** The CPU count of one node is that node's CPU count. */
  lemma CpuCountSingleton(c: Config, i: nat)
    requires i < |c.nodes|
    ensures CpuCount(c, {i}) == c.nodes[i].cpus
  {
    SumFromSingleton(CpuWeights(c.nodes), i, 0);
  }

  function CpuWeights(nodes: seq<Node>): (w: seq<nat>)
    ensures |w| == |nodes|
    ensures forall i :: 0 <= i < |nodes| ==> w[i] == nodes[i].cpus
  {
    seq(|nodes|, i requires 0 <= i < |nodes| => nodes[i].cpus)
  }

  /** The CPU count of a disjoint union is the sum of the CPU counts. */
  lemma CpuCountUnion(c: Config, a: NodeSet, b: NodeSet)
    requires a !! b
    ensures CpuCount(c, a + b) == CpuCount(c, a) + CpuCount(c, b)
  {
    SumFromUnion(CpuWeights(c.nodes), a, b, 0);
  }

  /** Dropping nodes never raises the CPU count. */
  lemma CpuCountMono(c: Config, a: NodeSet, b: NodeSet)
    requires a <= b
    ensures CpuCount(c, a) <= CpuCount(c, b)
  {
    SumFromMono(CpuWeights(c.nodes), a, b, 0);
  }
}

=== FILE: jobs.dfy ===
/**
  Jobs and reservations: binding a job to a named reservation, finding
  where and when a job may run given the reservations, and the periodic
  sweep that counts the jobs of each reservation and purges expired,
  unused ones.
 */
module Jobs {
  import opened Base
  import opened Bitmap
  import opened NodeConfig
  import opened Resv
  import opened Select

  /** The fields of a job record the reservation engine reads or writes. */
  datatype Job = Job(
    userId: Uid,
    account: Option<string>,
    resvName: Option<string>,
    resvId: nat,
    resvFlags: bv16,
    finished: bool,               // IS_JOB_FINISHED
    timeLimit: nat,               // minutes, or NO_VAL / INFINITE
    partMaxTime: nat,             // the job partition's max_time
    reqNodes: Option<NodeSet>,    // details->req_node_bitmap
    priority: nat
  )

  // -----------------------------------------------------------------------
  // Access

  /** The job's user is listed, or the job has an account that is listed. */
  predicate ValidJobAccess(job: Job, r: Resv) {
    job.userId in r.userList || (job.account.Some? && job.account.value in r.accountList)
  }

  /** `_valid_job_access_resv`: scan the user list, then (only if the job has
      an account) the account list. */
  method ValidJobAccessScan(job: Job, r: Resv) returns (ok: bool)
    ensures ok <==> ValidJobAccess(job, r)
  {
    var i := 0;
    while i < |r.userList|
      invariant 0 <= i <= |r.userList|
      invariant job.userId !in r.userList[..i]
    {
      if job.userId == r.userList[i] {
        return true;
      }
      assert r.userList[..i + 1] == r.userList[..i] + [r.userList[i]];
      i := i + 1;
    }
    assert r.userList[..i] == r.userList;
    if job.account.None? {
      return false;
    }
    i := 0;
    while i < |r.accountList|
      invariant 0 <= i <= |r.accountList|
      invariant job.account.value !in r.accountList[..i]
    {
      if job.account.value == r.accountList[i] {
        return true;
      }
      assert r.accountList[..i + 1] == r.accountList[..i] + [r.accountList[i]];
      i := i + 1;
    }
    assert r.accountList[..i] == r.accountList;
    return false;
  }

  /** `validate_job_resv`: a job naming no reservation (or the empty name)
      is unbound and passes; otherwise the reservation must exist and admit
      the job, which then takes its id and flags. */
  function ValidateJobResv(resvs: seq<Resv>, job: Job): (r: (Job, Option<Errno>))
    ensures job.resvName.None? || job.resvName == Some([]) ==>
      r == (job.(resvName := None, resvId := 0, resvFlags := 0), None)
    ensures job.resvName.Some? && job.resvName.value != [] ==>
      match FindByName(resvs, job.resvName.value)
      case None => r == (job, Some(ReservationInvalid))
      case Some(k) =>
        && (r.1.None? <==> ValidJobAccess(job, resvs[k]))
        && (r.1.None? ==> r.0 == job.(resvId := resvs[k].id, resvFlags := resvs[k].flags))
        && (r.1.Some? ==> r == (job, Some(ReservationAccess)))
  {
    if job.resvName.None? || job.resvName.value == [] then
      (job.(resvName := None, resvId := 0, resvFlags := 0), None)
    else match FindByName(resvs, job.resvName.value)
      case None => (job, Some(ReservationInvalid))
      case Some(k) =>
        var rv := resvs[k];
        if job.userId in rv.userList || (job.account.Some? && job.account.value in rv.accountList)
        then (job.(resvId := rv.id, resvFlags := rv.flags), None)
        else (job, Some(ReservationAccess))
  }

  // -----------------------------------------------------------------------
  // job_test_resv

  /** The answer of `job_test_resv`: the code, the possibly moved `when`,
      the job (whose priority a hold zeroes) and the usable nodes. */
  datatype TestResult = TestResult(rc: Option<Errno>, when: int, job: Job, nodes: Option<NodeSet>)

  /** A job bound to a reservation may run in it only inside its window:
      too early moves `when` to the start, too late moves it to the end and
      holds the job. */
  function JobTestNamed(resvs: seq<Resv>, job: Job, when: int): (t: TestResult)
    requires job.resvName.Some?
    ensures FindByName(resvs, job.resvName.value).None? ==> t == TestResult(Some(ReservationInvalid), when, job, None)
    ensures FindByName(resvs, job.resvName.value).Some? ==>
      var rv := resvs[FindByName(resvs, job.resvName.value).value];
      && (!ValidJobAccess(job, rv) ==> t == TestResult(Some(ReservationAccess), when, job, None))
      && (ValidJobAccess(job, rv) && when < rv.startTime ==>
            t == TestResult(Some(InvalidTimeValue), rv.startTime, job, None))
      && (ValidJobAccess(job, rv) && rv.startTime <= when && when > rv.endTime ==>
            t == TestResult(Some(ReservationInvalid), rv.endTime, job.(priority := 0), None))
      && (ValidJobAccess(job, rv) && rv.startTime <= when <= rv.endTime ==>
            t == TestResult(None, when, job, rv.nodes))
  {
    match FindByName(resvs, job.resvName.value)
    case None => TestResult(Some(ReservationInvalid), when, job, None)
    case Some(k) =>
      var rv := resvs[k];
      if !ValidJobAccess(job, rv) then TestResult(Some(ReservationAccess), when, job, None)
      else if when < rv.startTime then TestResult(Some(InvalidTimeValue), rv.startTime, job, None)
      else if when > rv.endTime then TestResult(Some(ReservationInvalid), rv.endTime, job.(priority := 0), None)
      else TestResult(None, when, job, rv.nodes)
  }

  /** The run time `job_test_resv` assumes: the job's limit, else its
      partition's, with INFINITE read as one year; minutes become seconds in
      `uint32_t`. */
  function JobDuration(job: Job): (d: nat)
    ensures d < TWO_32
    ensures job.timeLimit == INFINITE ==> d == YEAR_SECS
    ensures job.timeLimit != NO_VAL && job.timeLimit != INFINITE ==> d == MinutesToSecs(job.timeLimit)
    ensures job.timeLimit == NO_VAL && job.partMaxTime == INFINITE ==> d == YEAR_SECS
    ensures job.timeLimit == NO_VAL && job.partMaxTime != INFINITE ==> d == MinutesToSecs(job.partMaxTime)
  {
    if job.timeLimit == INFINITE then YEAR_SECS
    else if job.timeLimit != NO_VAL then U32(job.timeLimit * 60)
    else if job.partMaxTime == INFINITE then YEAR_SECS
    else U32(job.partMaxTime * 60)
  }

  /** Reservation `r` holds, within `[s, e)`, a node the job requires. */
  predicate Clashes(r: Resv, req: Option<NodeSet>, s: int, e: int) {
    && req.Some?
    && r.nodes.Some?
    && WindowsIntersect(r.startTime, r.endTime, s, e)
    && r.nodes.value * req.value != {}
  }

  /** The first entry, from index `i` on, that clashes with the job. */
  function FirstClash(resvs: seq<Resv>, req: Option<NodeSet>, s: int, e: int, i: nat): (r: Option<nat>)
    ensures r.Some? ==> i <= r.value < |resvs| && Clashes(resvs[r.value], req, s, e)
    ensures r.Some? ==> forall l :: i <= l < r.value ==> !Clashes(resvs[l], req, s, e)
    ensures r.None? ==> forall l :: i <= l < |resvs| ==> !Clashes(resvs[l], req, s, e)
    decreases |resvs| - i
  {
    if i >= |resvs| then None
    else if Clashes(resvs[i], req, s, e) then Some(i)
    else FirstClash(resvs, req, s, e, i + 1)
  }

  /** The job's window starting at `s` meets no reservation holding a node
      it requires. */
  predicate FreeAt(resvs: seq<Resv>, job: Job, s: int) {
    FirstClash(resvs, job.reqNodes, s, s + JobDuration(job), 0).None?
  }

  /** One round of the search from start `s`: a clashing window moves the
      start to the end of the first reservation it clashed with, which lies
      after `s`; a free window keeps it. */
  function NextStart(resvs: seq<Resv>, job: Job, s: int): (t: int)
    ensures FreeAt(resvs, job, s) ==> t == s
    ensures !FreeAt(resvs, job, s) ==> t > s
  {
    match FirstClash(resvs, job.reqNodes, s, s + JobDuration(job), 0)
    case None => s
    case Some(k) => resvs[k].endTime
  }

  /** The start the search has reached after `j` rounds from `when`. */
  function Retry(resvs: seq<Resv>, job: Job, when: int, j: nat): (s: int)
    ensures s >= when
    ensures j == 0 ==> s == when
    decreases j
  {
    if j == 0 then when else NextStart(resvs, job, Retry(resvs, job, when, j - 1))
  }

  /** `job_test_resv` for a job without a reservation. With no reservations
      every node is usable. Otherwise each round tries `[when, when +
      duration)`: if a reservation in that window holds a required node,
      `when` moves to that reservation's end and the search retries, for at
      most eleven rounds before giving up with no bitmap. A successful round
      yields the nodes no reservation in the window holds. */
  method JobTestFree(c: Config, resvs: seq<Resv>, job: Job, when: int)
    returns (rc: Option<Errno>, when': int, nodes: Option<NodeSet>, rounds: nat)
    ensures resvs == [] ==> rc.None? && when' == when && nodes == Some(Universe(c)) && rounds == 0
    ensures rounds <= 11 && when' >= when
    ensures rc.None? ==>
      && FreeAt(resvs, job, when')
      && nodes == Some(Unreserved(Universe(c), resvs, when', when' + JobDuration(job)))
    ensures rc.None? && resvs != [] ==>
      && 1 <= rounds && when' == Retry(resvs, job, when, rounds - 1)
      && forall j :: 0 <= j < rounds - 1 ==> !FreeAt(resvs, job, Retry(resvs, job, when, j))
    ensures rc.Some? ==>
      && rc == Some(InvalidTimeValue) && nodes.None? && rounds == 11
      && when' == Retry(resvs, job, when, 11)
      && forall j :: 0 <= j < 11 ==> !FreeAt(resvs, job, Retry(resvs, job, when, j))
    ensures resvs != [] && FreeAt(resvs, job, when) ==> rc.None? && when' == when && rounds == 1
  {
    hide *;
    if resvs == [] {
      NoReservations(c, job, when);
      return None, when, Some(Universe(c)), 0;
    }
    var found, start, n := SearchStart(resvs, job, when);
    assert Retry(resvs, job, when, 0) == when;
    if found {
      return None, start, Some(Unreserved(Universe(c), resvs, start, start + JobDuration(job))), n;
    }
    return Some(InvalidTimeValue), start, None, 11;
  }

  /** With no reservations the job's window is free and every node is
      usable. */
  lemma NoReservations(c: Config, job: Job, when: int)
    ensures FreeAt([], job, when)
    ensures Unreserved(Universe(c), [], when, when + JobDuration(job)) == Universe(c)
  {
  }

  /** The retry loop of `job_test_resv`: up to eleven rounds, each trying the
      start reached so far and moving on past the first clashing
      reservation. */
  method SearchStart(resvs: seq<Resv>, job: Job, when: int) returns (found: bool, start: int, rounds: nat)
    ensures 1 <= rounds <= 11
    ensures found ==>
      && start == Retry(resvs, job, when, rounds - 1) && FreeAt(resvs, job, start)
      && forall j :: 0 <= j < rounds - 1 ==> !FreeAt(resvs, job, Retry(resvs, job, when, j))
    ensures !found ==>
      && rounds == 11 && start == Retry(resvs, job, when, 11)
      && forall j :: 0 <= j < 11 ==> !FreeAt(resvs, job, Retry(resvs, job, when, j))
  {
    hide FreeAt, NextStart;
    start := when;
    var i := 0;
    while i < 11
      invariant 0 <= i <= 11
      invariant start == Retry(resvs, job, when, i)
      invariant forall j :: 0 <= j < i ==> !FreeAt(resvs, job, Retry(resvs, job, when, j))
    {
      if FreeAt(resvs, job, start) {
        return true, start, i + 1;
      }
      start := NextStart(resvs, job, start);
      i := i + 1;
    }
    return false, start, 11;
  }

  /** `job_test_resv`. */
  method JobTestResv(c: Config, resvs: seq<Resv>, job: Job, when: int) returns (t: TestResult)
    ensures job.resvName.Some? ==> t == JobTestNamed(resvs, job, when)
    ensures job.resvName.None? && resvs == [] ==> t == TestResult(None, when, job, Some(Universe(c)))
    ensures job.resvName.None? ==> t.job == job && t.when >= when
    ensures job.resvName.None? && t.rc.None? ==>
      && FreeAt(resvs, job, t.when)
      && t.nodes == Some(Unreserved(Universe(c), resvs, t.when, t.when + JobDuration(job)))
    ensures job.resvName.None? && FreeAt(resvs, job, when) ==> t.rc.None? && t.when == when
    ensures job.resvName.None? && t.rc.Some? ==>
      && t.rc == Some(InvalidTimeValue) && t.nodes.None?
      && forall j :: 0 <= j < 11 ==> !FreeAt(resvs, job, Retry(resvs, job, when, j))
  {
    hide *;
    if job.resvName.Some? {
      return JobTestNamed(resvs, job, when);
    }
    var rc, when', nodes, rounds := JobTestFree(c, resvs, job, when);
    return TestResult(rc, when', job, nodes);
  }

  // -----------------------------------------------------------------------
  // The reservation sweep

  /** `begin_job_resv_check`: zero every job count and fix the overrun
      allowance, `resv_over_run` minutes or a year when it is INFINITE. */
  function BeginJobResvCheck(reg: Registry, overRunConf: nat): (r: (Registry, nat))
    requires overRunConf <= INFINITE16
    ensures |r.0.resvs| == |reg.resvs|
    ensures forall i :: 0 <= i < |reg.resvs| ==> r.0.resvs[i] == reg.resvs[i].(jobCnt := 0)
    ensures r.0.topSuffix == reg.topSuffix && r.0.lastUpdate == reg.lastUpdate
    ensures overRunConf == INFINITE16 ==> r.1 == YEAR_SECS
    ensures overRunConf < INFINITE16 ==> r.1 == overRunConf * 60
  {
    var resvs := seq(|reg.resvs|, i requires 0 <= i < |reg.resvs| => reg.resvs[i].(jobCnt := 0));
    (reg.(resvs := resvs), if overRunConf == INFINITE16 then YEAR_SECS else overRunConf * 60)
  }

  /** `job_resv_check`: a job without a reservation passes; a job naming a
      missing one fails; otherwise the reservation's job count goes up and
      the job fails if the reservation ends before `now + overRun`. */
  function JobResvCheck(resvs: seq<Resv>, job: Job, now: int, overRun: nat): (r: (seq<Resv>, Option<Errno>))
    ensures |r.0| == |resvs|
    ensures r.1.Some? ==> r.1.value == InvalidTimeValue
    ensures job.resvName.None? ==> r == (resvs, None)
    ensures job.resvName.Some? && FindByName(resvs, job.resvName.value).None? ==> r == (resvs, Some(InvalidTimeValue))
    ensures job.resvName.Some? && FindByName(resvs, job.resvName.value).Some? ==>
      var k := FindByName(resvs, job.resvName.value).value;
      && r.0 == resvs[k := resvs[k].(jobCnt := resvs[k].jobCnt + 1)]
      && (r.1.Some? <==> resvs[k].endTime < now + overRun)
  {
    if job.resvName.None? then (resvs, None)
    else match FindByName(resvs, job.resvName.value)
      case None => (resvs, Some(InvalidTimeValue))
      case Some(k) =>
        var rv := resvs[k];
        (resvs[k := rv.(jobCnt := rv.jobCnt + 1)], if rv.endTime < now + overRun then Some(InvalidTimeValue) else None)
  }

  /** `job_resv_check` applied to each job in turn. */
  function CheckJobs(resvs: seq<Resv>, jobs: seq<Job>, now: int, overRun: nat): (r: seq<Resv>)
    ensures |r| == |resvs|
    decreases |jobs|
  {
    if jobs == [] then resvs
    else CheckJobs(JobResvCheck(resvs, jobs[0], now, overRun).0, jobs[1..], now, overRun)
  }

  /** The number of jobs that name `name` as their reservation. */
  function RefCount(jobs: seq<Job>, name: string): nat
    decreases |jobs|
  {
    if jobs == [] then 0
    else (if jobs[0].resvName == Some(name) then 1 else 0) + RefCount(jobs[1..], name)
  }

  /** With distinct names, checking the jobs adds to each reservation's count
      the number of jobs that name it, and changes nothing else. */
  lemma {:induction false} CheckJobsCounts(resvs: seq<Resv>, jobs: seq<Job>, now: int, overRun: nat)
    requires NamesUnique(resvs)
    ensures var r := CheckJobs(resvs, jobs, now, overRun);
      forall i :: 0 <= i < |resvs| ==> r[i] == resvs[i].(jobCnt := resvs[i].jobCnt + RefCount(jobs, resvs[i].name))
    decreases |jobs|
  {
    if jobs != [] {
      var step := JobResvCheck(resvs, jobs[0], now, overRun).0;
      assert NamesUnique(step) by {
        forall i | 0 <= i < |resvs| ensures step[i].name == resvs[i].name { }
      }
      CheckJobsCounts(step, jobs[1..], now, overRun);
      forall i | 0 <= i < |resvs|
        ensures step[i] == resvs[i].(jobCnt := resvs[i].jobCnt + (if jobs[0].resvName == Some(resvs[i].name) then 1 else 0))
      {
        if jobs[0].resvName.Some? && FindByName(resvs, jobs[0].resvName.value).Some? {
          var k := FindByName(resvs, jobs[0].resvName.value).value;
          assert i != k ==> resvs[i].name != resvs[k].name;
        }
      }
    }
  }

  /** Expired (`end_time <= now`) reservations no job referred to. */
  predicate Vestigial(r: Resv, now: int) {
    r.jobCnt == 0 && r.endTime <= now
  }

  /** The entries that are not vestigial, in order. */
  function Live(resvs: seq<Resv>, now: int): (r: seq<Resv>)
    ensures |r| <= |resvs|
    ensures forall x :: x in r <==> x in resvs && !Vestigial(x, now)
    decreases |resvs|
  {
    if resvs == [] then []
    else
      var rest := Live(resvs[1..], now);
      assert forall x :: x in resvs <==> x == resvs[0] || x in resvs[1..];
      if Vestigial(resvs[0], now) then rest else [resvs[0]] + rest
  }

  /** `fini_job_resv_check`: purge the vestigial entries, stamping the
      registry if any went. */
  function FiniJobResvCheck(reg: Registry, now: int): (r: Registry)
    ensures r.resvs == Live(reg.resvs, now)
    ensures r.topSuffix == reg.topSuffix
    ensures r.lastUpdate == (if |r.resvs| < |reg.resvs| then now else reg.lastUpdate)
  {
    var live := Live(reg.resvs, now);
    Registry(live, reg.topSuffix, if |live| < |reg.resvs| then now else reg.lastUpdate)
  }

  /** The whole sweep: begin, check every job, finish. */
  function Sweep(reg: Registry, jobs: seq<Job>, overRunConf: nat, now: int): (r: Registry)
    requires overRunConf <= INFINITE16
    ensures r.topSuffix == reg.topSuffix
    ensures |r.resvs| <= |reg.resvs|
    ensures forall x :: x in r.resvs ==> x.jobCnt > 0 || x.endTime > now
    ensures r.lastUpdate == (if |r.resvs| < |reg.resvs| then now else reg.lastUpdate)
  {
    var (begun, overRun) := BeginJobResvCheck(reg, overRunConf);
    FiniJobResvCheck(begun.(resvs := CheckJobs(begun.resvs, jobs, now, overRun)), now)
  }

  /** With distinct names, the sweep keeps exactly the reservations that
      some job names or that have not yet ended, each with its count of
      naming jobs. */
  lemma SweepPurgesExpiredUnused(reg: Registry, jobs: seq<Job>, overRunConf: nat, now: int)
    requires overRunConf <= INFINITE16
    requires NamesUnique(reg.resvs)
    ensures var counted := seq(|reg.resvs|, i requires 0 <= i < |reg.resvs| =>
                              reg.resvs[i].(jobCnt := RefCount(jobs, reg.resvs[i].name)));
      Sweep(reg, jobs, overRunConf, now).resvs == Live(counted, now)
    ensures forall r :: r in Sweep(reg, jobs, overRunConf, now).resvs ==>
      RefCount(jobs, r.name) > 0 || r.endTime > now
  {
    var (begun, overRun) := BeginJobResvCheck(reg, overRunConf);
    var counted := seq(|reg.resvs|, i requires 0 <= i < |reg.resvs| =>
                     reg.resvs[i].(jobCnt := RefCount(jobs, reg.resvs[i].name)));
    assert NamesUnique(begun.resvs) by {
      forall i | 0 <= i < |reg.resvs| ensures begun.resvs[i].name == reg.resvs[i].name { }
    }
    CheckJobsCounts(begun.resvs, jobs, now, overRun);
    var checked := CheckJobs(begun.resvs, jobs, now, overRun);
    assert checked == counted;
    forall r | r in Live(counted, now)
      ensures RefCount(jobs, r.name) > 0 || r.endTime > now
    {
      var i :| 0 <= i < |counted| && counted[i] == r;
    }
  }
}

=== FILE: listexpr.dfy ===
/**
  The account and user update expressions: a comma-separated list whose
  tokens are plain (`name`: set the list), `+name` (add) or `-name`
  (remove), with the list primitives both update paths share.
 */
module ListExpr {
  import opened Base
  import opened Strings

  /** The token kinds, `ac_type`/`u_type` 1, 2 and 3 in the source. */
  datatype Op = Remove | Add | Assign

  datatype Item = Item(op: Op, name: string)

  /** A token that starts with `-` or `+`. */
  predicate IsMod(t: string) {
    |t| > 0 && (t[0] == '-' || t[0] == '+')
  }

  /** How one token is read: the prefix is dropped from `+`/`-` tokens. */
  function ItemOf(t: string): Item {
    if |t| > 0 && t[0] == '-' then Item(Remove, t[1..])
    else if |t| > 0 && t[0] == '+' then Item(Add, t[1..])
    else Item(Assign, t)
  }

  /** The parse loop: read the tokens in order; once a `+`/`-` token has been
      seen (`modSeen`), a plain token is an error. */
  function ClassifyFrom(toks: seq<string>, modSeen: bool): (r: Option<seq<Item>>)
    ensures r.Some? ==> |r.value| == |toks| && forall i :: 0 <= i < |toks| ==> r.value[i] == ItemOf(toks[i])
  {
    if toks == [] then Some([])
    else if !IsMod(toks[0]) && modSeen then None
    else
      match ClassifyFrom(toks[1..], modSeen || IsMod(toks[0]))
      case None => None
      case Some(rest) => Some([ItemOf(toks[0])] + rest)
  }

  /** A plain token comes after a `+`/`-` token. */
  predicate PlainAfterMod(toks: seq<string>) {
    exists i, j :: 0 <= i < j < |toks| && IsMod(toks[i]) && !IsMod(toks[j])
  }

  function Classify(toks: seq<string>): (r: Option<seq<Item>>)
    ensures r.Some? ==> |r.value| == |toks| && forall i :: 0 <= i < |toks| ==> r.value[i] == ItemOf(toks[i])
    ensures r.None? <==> PlainAfterMod(toks)
  {
    ClassifyFromRejects(toks, false);
    ClassifyFrom(toks, false)
  }

  lemma {:induction false} ClassifyFromRejects(toks: seq<string>, modSeen: bool)
    ensures ClassifyFrom(toks, modSeen).None? <==>
      (modSeen && exists j :: 0 <= j < |toks| && !IsMod(toks[j])) || PlainAfterMod(toks)
  {
    if toks != [] {
      var seen' := modSeen || IsMod(toks[0]);
      ClassifyFromRejects(toks[1..], seen');
      var tail := toks[1..];
      if PlainAfterMod(tail) {
        var i, j :| 0 <= i < j < |tail| && IsMod(tail[i]) && !IsMod(tail[j]);
        assert IsMod(toks[i + 1]) && !IsMod(toks[j + 1]);
      }
      if seen' && exists j :: 0 <= j < |tail| && !IsMod(tail[j]) {
        var j :| 0 <= j < |tail| && !IsMod(tail[j]);
        assert !IsMod(toks[j + 1]);
        if !modSeen {
          assert IsMod(toks[0]);
          assert PlainAfterMod(toks);
        }
      }
      if PlainAfterMod(toks) {
        var i, j :| 0 <= i < j < |toks| && IsMod(toks[i]) && !IsMod(toks[j]);
        if i > 0 {
          assert IsMod(tail[i - 1]) && !IsMod(tail[j - 1]);
        } else {
          assert !IsMod(tail[j - 1]);
        }
      }
      if modSeen && exists j :: 0 <= j < |toks| && !IsMod(toks[j]) {
        var j :| 0 <= j < |toks| && !IsMod(toks[j]);
        if j > 0 {
          assert !IsMod(tail[j - 1]);
        }
      }
    }
  }

  /** Whether any item has operation `op` (`plus_account`, `minus_account`). */
  predicate HasOp(items: seq<Item>, op: Op) {
    exists i :: 0 <= i < |items| && items[i].op == op
  }

  /** The names of the items with operation `op`, in expression order. */
  function NamesWith(items: seq<Item>, op: Op): (r: seq<string>)
    ensures |r| <= |items|
    ensures forall n :: n in r <==> exists i :: 0 <= i < |items| && items[i].op == op && items[i].name == n
    ensures r == [] <==> !HasOp(items, op)
  {
    if items == [] then []
    else
      var rest := NamesWith(items[1..], op);
      assert forall i :: 1 <= i < |items| ==> items[i] == items[1..][i - 1];
      if items[0].op == op then [items[0].name] + rest else rest
  }

  /** All item names, for an expression of plain tokens only. */
  function AllNames(items: seq<Item>): (r: seq<string>)
    ensures |r| == |items| && forall i :: 0 <= i < |items| ==> r[i] == items[i].name
  {
    seq(|items|, i requires 0 <= i < |items| => items[i].name)
  }

  // -----------------------------------------------------------------------
  // List primitives

  /** The position of the first entry equal to `x`. */
  function IndexOf<T(==)>(xs: seq<T>, x: T): (j: nat)
    requires x in xs
    ensures j < |xs| && xs[j] == x && x !in xs[..j]
  {
    if xs[0] == x then 0
    else
      var j := IndexOf(xs[1..], x);
      assert xs[..j + 1] == [xs[0]] + xs[1..][..j];
      j + 1
  }

  /** Remove the first entry equal to `x`, shifting later entries left. */
  function RemoveFirst<T(==)>(xs: seq<T>, x: T): (r: Option<seq<T>>)
    ensures r.Some? <==> x in xs
    ensures r.Some? ==> var j := IndexOf(xs, x); r.value == xs[..j] + xs[j + 1..]
    ensures r.Some? ==> multiset(r.value) == multiset(xs) - multiset{x}
  {
    if x !in xs then None
    else
      var j := IndexOf(xs, x);
      assert xs == xs[..j] + [x] + xs[j + 1..];
      Some(xs[..j] + xs[j + 1..])
  }

  /** Remove each of `names` in turn, stopping at the first that is absent.
      Returns the list as it stands when the loop stops and how many names
      were removed: earlier removals stay applied after a failure. */
  function RemoveEach<T(==)>(xs: seq<T>, names: seq<T>): (r: (seq<T>, nat))
    ensures r.1 <= |names|
    decreases |names|
  {
    if names == [] then (xs, 0)
    else match RemoveFirst(xs, names[0])
      case None => (xs, 0)
      case Some(ys) =>
        var (rest, n) := RemoveEach(ys, names[1..]);
        (rest, n + 1)
  }

  /** The sequential removals all succeed exactly when the names, counted
      with multiplicity, are all present; the survivors are what is left. */
  lemma {:induction false} RemoveEachSpec<T>(xs: seq<T>, names: seq<T>)
    ensures RemoveEach(xs, names).1 == |names| <==> multiset(names) <= multiset(xs)
    ensures RemoveEach(xs, names).1 == |names| ==> multiset(RemoveEach(xs, names).0) == multiset(xs) - multiset(names)
    decreases |names|
  {
    hide RemoveFirst, IndexOf;
    if names != [] {
      var x := names[0];
      assert names == [x] + names[1..];
      assert multiset(names) == multiset{x} + multiset(names[1..]);
      match RemoveFirst(xs, x)
      case None =>
        assert x !in multiset(xs);
      case Some(ys) =>
        RemoveEachSpec(ys, names[1..]);
        assert multiset(ys) == multiset(xs) - multiset{x};
    }
  }

  /** A failed removal sequence leaves the list exactly as removing the
      names before the first absent one would: the non-atomic partial edit.
      The name it stopped at is absent from that list. */
  lemma {:induction false} RemoveEachPartial<T>(xs: seq<T>, names: seq<T>)
    ensures var (rest, n) := RemoveEach(xs, names);
      rest == RemoveEach(xs, names[..n]).0 && RemoveEach(xs, names[..n]).1 == n
      && (n < |names| ==> names[n] !in rest)
    decreases |names|
  {
    if names == [] {
    } else {
      match RemoveFirst(xs, names[0])
      case None =>
        assert names[..0] == [];
      case Some(ys) =>
        RemoveEachPartial(ys, names[1..]);
        var n := RemoveEach(ys, names[1..]).1;
        assert names[..n + 1][0] == names[0];
        assert names[..n + 1][1..] == names[1..][..n];
    }
  }

  /** Append each of `names` that is not yet present (`+name` is a no-op on a
      name already listed, including one appended earlier in the loop). */
  function AddEach<T(==)>(xs: seq<T>, names: seq<T>): (r: seq<T>)
    ensures |xs| <= |r| && r[..|xs|] == xs
    ensures forall n :: n in names ==> n in r
    ensures forall k :: |xs| <= k < |r| ==> r[k] in names && r[k] !in r[..k]
    decreases |names|
  {
    if names == [] then xs
    else
      var ys := if names[0] in xs then xs else xs + [names[0]];
      var r := AddEach(ys, names[1..]);
      AddEachStep(xs, names, ys, r);
      r
  }

  /** One round of the append loop: what holds of the rest carries over to
      the whole. */
  lemma AddEachStep<T>(xs: seq<T>, names: seq<T>, ys: seq<T>, r: seq<T>)
    requires names != [] && ys == if names[0] in xs then xs else xs + [names[0]]
    requires |ys| <= |r| && r[..|ys|] == ys
    requires forall n :: n in names[1..] ==> n in r
    requires forall k :: |ys| <= k < |r| ==> r[k] in names[1..] && r[k] !in r[..k]
    ensures |xs| <= |r| && r[..|xs|] == xs
    ensures forall n :: n in names ==> n in r
    ensures forall k :: |xs| <= k < |r| ==> r[k] in names && r[k] !in r[..k]
  {
    assert r[..|xs|] == r[..|ys|][..|xs|];
    assert names[0] in r by {
      assert names[0] in ys;
      assert ys == r[..|ys|];
    }
    assert forall n :: n in names ==> n == names[0] || n in names[1..];
    assert forall k :: |xs| <= k < |ys| ==> k == |xs| && r[k] == names[0] && r[..k] == xs;
  }

  /** Adding names that are all present changes nothing. */
  lemma {:induction false} AddEachPresent<T>(xs: seq<T>, names: seq<T>)
    requires forall n :: n in names ==> n in xs
    ensures AddEach(xs, names) == xs
    decreases |names|
  {
    if names != [] {
      assert forall n :: n in names[1..] ==> n in names;
      AddEachPresent(xs, names[1..]);
    }
  }
}

=== FILE: persist.dfy ===
/**
  The reservation state record as a sequence of typed fields: the order
  `_pack_resv` writes them and the order `load_all_resv_state` reads them
  back. Buffers, files and the version header are not modelled; only the
  field order and the widths of the numeric fields.
 */
module Persist {
  import opened Base
  import opened Resv

  /** One packed value: `packstr`, `pack_time`, `pack32` or `pack16`. */
  datatype Field = Str(s: Option<string>) | Time(t: int) | Word(w: nat) | Half(h: bv16)

  /** `_pack_resv`; the last two words are written only for the internal
      state file. `pack32` keeps the low 32 bits. */
  function PackResv(r: Resv, internal: bool): (fs: seq<Field>)
    ensures |fs| == if internal then 12 else 10
  {
    [Str(r.accounts), Time(r.endTime), Str(r.features), Str(Some(r.name)), Word(U32(r.nodeCnt)),
     Str(r.nodeList), Str(r.partition), Time(r.startTime), Half(r.flags), Str(r.users)]
    + (if internal then [Word(U32(r.cpuCnt)), Word(U32(r.id))] else [])
  }

  /** A record as the loader builds it: the packed fields, everything else
      zero or NULL until validation rebuilds the lists and the bitmap. A
      NULL name is read as the empty name, which validation rejects. */
  function Loaded(accounts: Option<string>, endTime: int, features: Option<string>, name: Option<string>,
                  nodeCnt: nat, nodeList: Option<string>, partition: Option<string>, startTime: int,
                  flags: bv16, users: Option<string>, cpuCnt: nat, id: nat): Resv
  {
    Resv(if name.Some? then name.value else [], id, accounts, [], users, [], features, partition, None,
         nodeList, None, nodeCnt, cpuCnt, startTime, 0, endTime, flags, 0)
  }

  /** The loop body of `load_all_resv_state`: read one internal record,
      in `_pack_resv` order, or fail on a short or mistyped buffer. */
  function UnpackResv(fs: seq<Field>): (r: Option<(Resv, seq<Field>)>)
    ensures r.Some? ==> |r.value.1| == |fs| - 12
  {
    if |fs| < 12 then None
    else if !(fs[0].Str? && fs[1].Time? && fs[2].Str? && fs[3].Str? && fs[4].Word? && fs[5].Str?
              && fs[6].Str? && fs[7].Time? && fs[8].Half? && fs[9].Str? && fs[10].Word? && fs[11].Word?)
    then None
    else Some((Loaded(fs[0].s, fs[1].t, fs[2].s, fs[3].s, fs[4].w, fs[5].s, fs[6].s, fs[7].t,
                      fs[8].h, fs[9].s, fs[10].w, fs[11].w), fs[12..]))
  }

  /** The saved part of a record: what survives a save and a load. */
  function Saved(r: Resv): Resv {
    Loaded(r.accounts, r.endTime, r.features, Some(r.name), U32(r.nodeCnt), r.nodeList, r.partition,
           r.startTime, r.flags, r.users, U32(r.cpuCnt), U32(r.id))
  }

  /** Reading back an internally packed record gives its saved fields, with
      the three 32-bit counts reduced modulo 2^32, and leaves the rest of
      the buffer. */
  lemma UnpackPack(r: Resv, rest: seq<Field>)
    ensures UnpackResv(PackResv(r, true) + rest) == Some((Saved(r), rest))
    ensures r.nodeCnt < TWO_32 && r.cpuCnt < TWO_32 && r.id < TWO_32 ==>
      Saved(r) == r.(accountList := [], userList := [], part := None, nodes := None, startTimePrev := 0, jobCnt := 0)
  {
    var fs := PackResv(r, true) + rest;
    assert fs[12..] == rest;
  }

  /** `dump_all_resv_state`'s record loop: every record, internal form. */
  function PackAll(resvs: seq<Resv>): (fs: seq<Field>)
    ensures |fs| == 12 * |resvs|
  {
    if resvs == [] then [] else PackResv(resvs[0], true) + PackAll(resvs[1..])
  }

  /** `load_all_resv_state`'s record loop: read records while data remains;
      a short or mistyped record ends the loop with what was read so far. */
  function UnpackAll(fs: seq<Field>): (r: (seq<Resv>, bool))
    decreases |fs|
  {
    if fs == [] then ([], true)
    else match UnpackResv(fs)
      case None => ([], false)
      case Some((r, rest)) =>
        var (more, ok) := UnpackAll(rest);
        ([r] + more, ok)
  }

  /** Loading what was dumped recovers every record's saved fields, in order. */
  lemma {:induction false} UnpackAllPackAll(resvs: seq<Resv>)
    ensures UnpackAll(PackAll(resvs)).1
    ensures |UnpackAll(PackAll(resvs)).0| == |resvs|
    ensures forall i :: 0 <= i < |resvs| ==> UnpackAll(PackAll(resvs)).0[i] == Saved(resvs[i])
    decreases |resvs|
  {
    if resvs != [] {
      UnpackPack(resvs[0], PackAll(resvs[1..]));
      UnpackAllPackAll(resvs[1..]);
      var got := UnpackAll(PackAll(resvs)).0;
      assert got == [Saved(resvs[0])] + UnpackAll(PackAll(resvs[1..])).0;
      forall i | 1 <= i < |resvs|
        ensures got[i] == Saved(resvs[i])
      {
        assert resvs[1..][i - 1] == resvs[i];
      }
    }
  }
}

=== FILE: resv.dfy ===
/**
  The reservation record (`slurmctld_resv_t`), the registry that owns the
  records (`resv_list` with the `top_suffix` counter and the
  `last_resv_update` stamp), name lookup and the overlap test.
 */
module Resv {
  import opened Base
  import opened Bitmap

  type Uid = nat

  /** One reservation. Fields that C may leave NULL are `Option`s;
      `part` stands for the resolved `part_ptr`, `nodes` for `node_bitmap`. */
  datatype Resv = Resv(
    name: string,
    id: nat,                      // resv_id
    accounts: Option<string>,     // the accounts string as given or rebuilt
    accountList: seq<string>,     // account_list[0 .. account_cnt)
    users: Option<string>,        // the users string as given or edited
    userList: seq<Uid>,           // user_list[0 .. user_cnt)
    features: Option<string>,
    partition: Option<string>,
    part: Option<string>,         // part_ptr, by partition name
    nodeList: Option<string>,
    nodes: Option<NodeSet>,       // node_bitmap
    nodeCnt: nat,
    cpuCnt: nat,
    startTime: int,
    startTimePrev: int,
    endTime: int,
    flags: bv16,
    jobCnt: nat
  )

  /** Two versions of an entry that agree on everything a node update
      leaves alone: the identity, the flags and the access lists. */
  predicate SameRequestFields(a: Resv, b: Resv) {
    && a.name == b.name && a.id == b.id && a.flags == b.flags
    && a.partition == b.partition && a.accounts == b.accounts
    && a.users == b.users && a.features == b.features
  }

  /** The registry and the two module-level counters that go with it. */
  datatype Registry = Registry(resvs: seq<Resv>, topSuffix: nat, lastUpdate: int)

  // -----------------------------------------------------------------------
  // Flags (values of slurm.h, which is not part of this model)

  const FLAG_MAINT: bv16 := 0x0001
  const FLAG_NO_MAINT: bv16 := 0x0002
  const FLAG_DAILY: bv16 := 0x0004
  const FLAG_NO_DAILY: bv16 := 0x0008
  const FLAG_WEEKLY: bv16 := 0x0010
  const FLAG_NO_WEEKLY: bv16 := 0x0020

  /** One `if (req & bit) flags &= mask;` of the flag edit. */
  function MaskIf(flags: bv16, req: bv16, bit: bv16, mask: bv16): bv16 {
    if req & bit != 0 then flags & mask else flags
  }

  /** The flag edit of `update_resv`. A "set" request masks with the bit
      (`flags &= FLAG`) and a "clear" request masks with its complement. */
  function UpdateFlags(flags: bv16, req: bv16): bv16
  {
    if req == NO_VAL16 then flags
    else
      var f1 := MaskIf(flags, req, FLAG_MAINT, FLAG_MAINT);
      var f2 := MaskIf(f1, req, FLAG_NO_MAINT, !FLAG_MAINT);
      var f3 := MaskIf(f2, req, FLAG_DAILY, FLAG_DAILY);
      var f4 := MaskIf(f3, req, FLAG_NO_DAILY, !FLAG_DAILY);
      var f5 := MaskIf(f4, req, FLAG_WEEKLY, FLAG_WEEKLY);
      MaskIf(f5, req, FLAG_NO_WEEKLY, !FLAG_WEEKLY)
  }

  /** Every bit of `a` is a bit of `b`. */
  predicate BitsWithin(a: bv16, b: bv16) {
    a & !b == 0
  }

  lemma BitsWithinTrans(a: bv16, b: bv16, c: bv16)
    requires BitsWithin(a, b) && BitsWithin(b, c)
    ensures BitsWithin(a, c)
  {
  }

  /** A masking step only clears bits, and when it fires its result lies
      within the mask. */
  lemma MaskIfWithin(flags: bv16, req: bv16, bit: bv16, mask: bv16)
    ensures BitsWithin(MaskIf(flags, req, bit, mask), flags)
    ensures req & bit != 0 ==> BitsWithin(MaskIf(flags, req, bit, mask), mask)
  {
  }

  /** A flag update never turns a bit on; in particular asking to set MAINT,
      DAILY or WEEKLY keeps at most that bit, and only if it was already set. */
  lemma UpdateFlagsOnlyClears(flags: bv16, req: bv16)
    ensures BitsWithin(UpdateFlags(flags, req), flags)
    ensures req != NO_VAL16 && req & FLAG_MAINT != 0 ==> BitsWithin(UpdateFlags(flags, req), FLAG_MAINT)
    ensures req != NO_VAL16 && req & FLAG_DAILY != 0 ==> BitsWithin(UpdateFlags(flags, req), FLAG_DAILY)
    ensures req != NO_VAL16 && req & FLAG_WEEKLY != 0 ==> BitsWithin(UpdateFlags(flags, req), FLAG_WEEKLY)
  {
    if req != NO_VAL16 {
      var f1 := MaskIf(flags, req, FLAG_MAINT, FLAG_MAINT);
      var f2 := MaskIf(f1, req, FLAG_NO_MAINT, !FLAG_MAINT);
      var f3 := MaskIf(f2, req, FLAG_DAILY, FLAG_DAILY);
      var f4 := MaskIf(f3, req, FLAG_NO_DAILY, !FLAG_DAILY);
      var f5 := MaskIf(f4, req, FLAG_WEEKLY, FLAG_WEEKLY);
      var f6 := MaskIf(f5, req, FLAG_NO_WEEKLY, !FLAG_WEEKLY);
      MaskIfWithin(flags, req, FLAG_MAINT, FLAG_MAINT);
      MaskIfWithin(f1, req, FLAG_NO_MAINT, !FLAG_MAINT);
      MaskIfWithin(f2, req, FLAG_DAILY, FLAG_DAILY);
      MaskIfWithin(f3, req, FLAG_NO_DAILY, !FLAG_DAILY);
      MaskIfWithin(f4, req, FLAG_WEEKLY, FLAG_WEEKLY);
      MaskIfWithin(f5, req, FLAG_NO_WEEKLY, !FLAG_WEEKLY);
      BitsWithinTrans(f6, f5, f4);
      BitsWithinTrans(f6, f4, f3);
      BitsWithinTrans(f6, f3, f2);
      BitsWithinTrans(f6, f2, f1);
      BitsWithinTrans(f6, f1, flags);
      if req & FLAG_MAINT != 0 { BitsWithinTrans(f6, f1, FLAG_MAINT); }
      if req & FLAG_DAILY != 0 { BitsWithinTrans(f6, f3, FLAG_DAILY); }
    }
  }

  /** An unset request, or one with none of the six flag bits, leaves the
      flags alone. */
  lemma UpdateFlagsNoFlagBits(flags: bv16, req: bv16)
    requires req == NO_VAL16 || req & 0x003f == 0
    ensures UpdateFlags(flags, req) == flags
  {
    if req != NO_VAL16 {
      assert req & FLAG_MAINT == 0 && req & FLAG_NO_MAINT == 0;
      assert req & FLAG_DAILY == 0 && req & FLAG_NO_DAILY == 0;
      assert req & FLAG_WEEKLY == 0 && req & FLAG_NO_WEEKLY == 0;
      MaskIfOff(flags, req, FLAG_MAINT, FLAG_MAINT);
      MaskIfOff(flags, req, FLAG_NO_MAINT, !FLAG_MAINT);
      MaskIfOff(flags, req, FLAG_DAILY, FLAG_DAILY);
      MaskIfOff(flags, req, FLAG_NO_DAILY, !FLAG_DAILY);
      MaskIfOff(flags, req, FLAG_WEEKLY, FLAG_WEEKLY);
      MaskIfOff(flags, req, FLAG_NO_WEEKLY, !FLAG_WEEKLY);
    }
  }

  /** A step whose request bit is off leaves the flags alone. */
  lemma MaskIfOff(flags: bv16, req: bv16, bit: bv16, mask: bv16)
    requires req & bit == 0
    ensures MaskIf(flags, req, bit, mask) == flags
  {
  }

  /** A step whose request bit is on applies its mask. */
  lemma MaskIfOn(flags: bv16, req: bv16, bit: bv16, mask: bv16)
    requires req & bit != 0
    ensures MaskIf(flags, req, bit, mask) == flags & mask
  {
  }

  /** A clear request on its own clears exactly its bit. */
  lemma UpdateFlagsClearMaint(flags: bv16)
    ensures UpdateFlags(flags, FLAG_NO_MAINT) == flags & !FLAG_MAINT
  {
    assert FLAG_NO_MAINT != NO_VAL16;
    var f1 := MaskIf(flags, FLAG_NO_MAINT, FLAG_MAINT, FLAG_MAINT);
    MaskIfOff(flags, FLAG_NO_MAINT, FLAG_MAINT, FLAG_MAINT);
    var f2 := MaskIf(f1, FLAG_NO_MAINT, FLAG_NO_MAINT, !FLAG_MAINT);
    MaskIfOn(f1, FLAG_NO_MAINT, FLAG_NO_MAINT, !FLAG_MAINT);
    var f3 := MaskIf(f2, FLAG_NO_MAINT, FLAG_DAILY, FLAG_DAILY);
    MaskIfOff(f2, FLAG_NO_MAINT, FLAG_DAILY, FLAG_DAILY);
    var f4 := MaskIf(f3, FLAG_NO_MAINT, FLAG_NO_DAILY, !FLAG_DAILY);
    MaskIfOff(f3, FLAG_NO_MAINT, FLAG_NO_DAILY, !FLAG_DAILY);
    var f5 := MaskIf(f4, FLAG_NO_MAINT, FLAG_WEEKLY, FLAG_WEEKLY);
    MaskIfOff(f4, FLAG_NO_MAINT, FLAG_WEEKLY, FLAG_WEEKLY);
    var f6 := MaskIf(f5, FLAG_NO_MAINT, FLAG_NO_WEEKLY, !FLAG_WEEKLY);
    MaskIfOff(f5, FLAG_NO_MAINT, FLAG_NO_WEEKLY, !FLAG_WEEKLY);
  }

  lemma UpdateFlagsClearDaily(flags: bv16)
    ensures UpdateFlags(flags, FLAG_NO_DAILY) == flags & !FLAG_DAILY
  {
    assert FLAG_NO_DAILY != NO_VAL16;
    var f1 := MaskIf(flags, FLAG_NO_DAILY, FLAG_MAINT, FLAG_MAINT);
    MaskIfOff(flags, FLAG_NO_DAILY, FLAG_MAINT, FLAG_MAINT);
    var f2 := MaskIf(f1, FLAG_NO_DAILY, FLAG_NO_MAINT, !FLAG_MAINT);
    MaskIfOff(f1, FLAG_NO_DAILY, FLAG_NO_MAINT, !FLAG_MAINT);
    var f3 := MaskIf(f2, FLAG_NO_DAILY, FLAG_DAILY, FLAG_DAILY);
    MaskIfOff(f2, FLAG_NO_DAILY, FLAG_DAILY, FLAG_DAILY);
    var f4 := MaskIf(f3, FLAG_NO_DAILY, FLAG_NO_DAILY, !FLAG_DAILY);
    MaskIfOn(f3, FLAG_NO_DAILY, FLAG_NO_DAILY, !FLAG_DAILY);
    var f5 := MaskIf(f4, FLAG_NO_DAILY, FLAG_WEEKLY, FLAG_WEEKLY);
    MaskIfOff(f4, FLAG_NO_DAILY, FLAG_WEEKLY, FLAG_WEEKLY);
    var f6 := MaskIf(f5, FLAG_NO_DAILY, FLAG_NO_WEEKLY, !FLAG_WEEKLY);
    MaskIfOff(f5, FLAG_NO_DAILY, FLAG_NO_WEEKLY, !FLAG_WEEKLY);
  }

  lemma UpdateFlagsClearWeekly(flags: bv16)
    ensures UpdateFlags(flags, FLAG_NO_WEEKLY) == flags & !FLAG_WEEKLY
  {
    assert FLAG_NO_WEEKLY != NO_VAL16;
    var f1 := MaskIf(flags, FLAG_NO_WEEKLY, FLAG_MAINT, FLAG_MAINT);
    MaskIfOff(flags, FLAG_NO_WEEKLY, FLAG_MAINT, FLAG_MAINT);
    var f2 := MaskIf(f1, FLAG_NO_WEEKLY, FLAG_NO_MAINT, !FLAG_MAINT);
    MaskIfOff(f1, FLAG_NO_WEEKLY, FLAG_NO_MAINT, !FLAG_MAINT);
    var f3 := MaskIf(f2, FLAG_NO_WEEKLY, FLAG_DAILY, FLAG_DAILY);
    MaskIfOff(f2, FLAG_NO_WEEKLY, FLAG_DAILY, FLAG_DAILY);
    var f4 := MaskIf(f3, FLAG_NO_WEEKLY, FLAG_NO_DAILY, !FLAG_DAILY);
    MaskIfOff(f3, FLAG_NO_WEEKLY, FLAG_NO_DAILY, !FLAG_DAILY);
    var f5 := MaskIf(f4, FLAG_NO_WEEKLY, FLAG_WEEKLY, FLAG_WEEKLY);
    MaskIfOff(f4, FLAG_NO_WEEKLY, FLAG_WEEKLY, FLAG_WEEKLY);
    var f6 := MaskIf(f5, FLAG_NO_WEEKLY, FLAG_NO_WEEKLY, !FLAG_WEEKLY);
    MaskIfOn(f5, FLAG_NO_WEEKLY, FLAG_NO_WEEKLY, !FLAG_WEEKLY);
  }

  /** A set request on its own keeps only its bit, and only if it was
      already set: asking for MAINT on a reservation without it clears
      every flag. */
  lemma UpdateFlagsSetMaint(flags: bv16)
    ensures UpdateFlags(flags, FLAG_MAINT) == flags & FLAG_MAINT
    ensures flags & FLAG_MAINT == 0 ==> UpdateFlags(flags, FLAG_MAINT) == 0
  {
    assert FLAG_MAINT != NO_VAL16;
    var f1 := MaskIf(flags, FLAG_MAINT, FLAG_MAINT, FLAG_MAINT);
    MaskIfOn(flags, FLAG_MAINT, FLAG_MAINT, FLAG_MAINT);
    var f2 := MaskIf(f1, FLAG_MAINT, FLAG_NO_MAINT, !FLAG_MAINT);
    MaskIfOff(f1, FLAG_MAINT, FLAG_NO_MAINT, !FLAG_MAINT);
    var f3 := MaskIf(f2, FLAG_MAINT, FLAG_DAILY, FLAG_DAILY);
    MaskIfOff(f2, FLAG_MAINT, FLAG_DAILY, FLAG_DAILY);
    var f4 := MaskIf(f3, FLAG_MAINT, FLAG_NO_DAILY, !FLAG_DAILY);
    MaskIfOff(f3, FLAG_MAINT, FLAG_NO_DAILY, !FLAG_DAILY);
    var f5 := MaskIf(f4, FLAG_MAINT, FLAG_WEEKLY, FLAG_WEEKLY);
    MaskIfOff(f4, FLAG_MAINT, FLAG_WEEKLY, FLAG_WEEKLY);
    var f6 := MaskIf(f5, FLAG_MAINT, FLAG_NO_WEEKLY, !FLAG_WEEKLY);
    MaskIfOff(f5, FLAG_MAINT, FLAG_NO_WEEKLY, !FLAG_WEEKLY);
  }

  lemma UpdateFlagsSetDaily(flags: bv16)
    ensures UpdateFlags(flags, FLAG_DAILY) == flags & FLAG_DAILY
    ensures flags & FLAG_DAILY == 0 ==> UpdateFlags(flags, FLAG_DAILY) == 0
  {
    assert FLAG_DAILY != NO_VAL16;
    var f1 := MaskIf(flags, FLAG_DAILY, FLAG_MAINT, FLAG_MAINT);
    MaskIfOff(flags, FLAG_DAILY, FLAG_MAINT, FLAG_MAINT);
    var f2 := MaskIf(f1, FLAG_DAILY, FLAG_NO_MAINT, !FLAG_MAINT);
    MaskIfOff(f1, FLAG_DAILY, FLAG_NO_MAINT, !FLAG_MAINT);
    var f3 := MaskIf(f2, FLAG_DAILY, FLAG_DAILY, FLAG_DAILY);
    MaskIfOn(f2, FLAG_DAILY, FLAG_DAILY, FLAG_DAILY);
    var f4 := MaskIf(f3, FLAG_DAILY, FLAG_NO_DAILY, !FLAG_DAILY);
    MaskIfOff(f3, FLAG_DAILY, FLAG_NO_DAILY, !FLAG_DAILY);
    var f5 := MaskIf(f4, FLAG_DAILY, FLAG_WEEKLY, FLAG_WEEKLY);
    MaskIfOff(f4, FLAG_DAILY, FLAG_WEEKLY, FLAG_WEEKLY);
    var f6 := MaskIf(f5, FLAG_DAILY, FLAG_NO_WEEKLY, !FLAG_WEEKLY);
    MaskIfOff(f5, FLAG_DAILY, FLAG_NO_WEEKLY, !FLAG_WEEKLY);
  }

  lemma UpdateFlagsSetWeekly(flags: bv16)
    ensures UpdateFlags(flags, FLAG_WEEKLY) == flags & FLAG_WEEKLY
    ensures flags & FLAG_WEEKLY == 0 ==> UpdateFlags(flags, FLAG_WEEKLY) == 0
  {
    assert FLAG_WEEKLY != NO_VAL16;
    var f1 := MaskIf(flags, FLAG_WEEKLY, FLAG_MAINT, FLAG_MAINT);
    MaskIfOff(flags, FLAG_WEEKLY, FLAG_MAINT, FLAG_MAINT);
    var f2 := MaskIf(f1, FLAG_WEEKLY, FLAG_NO_MAINT, !FLAG_MAINT);
    MaskIfOff(f1, FLAG_WEEKLY, FLAG_NO_MAINT, !FLAG_MAINT);
    var f3 := MaskIf(f2, FLAG_WEEKLY, FLAG_DAILY, FLAG_DAILY);
    MaskIfOff(f2, FLAG_WEEKLY, FLAG_DAILY, FLAG_DAILY);
    var f4 := MaskIf(f3, FLAG_WEEKLY, FLAG_NO_DAILY, !FLAG_DAILY);
    MaskIfOff(f3, FLAG_WEEKLY, FLAG_NO_DAILY, !FLAG_DAILY);
    var f5 := MaskIf(f4, FLAG_WEEKLY, FLAG_WEEKLY, FLAG_WEEKLY);
    MaskIfOn(f4, FLAG_WEEKLY, FLAG_WEEKLY, FLAG_WEEKLY);
    var f6 := MaskIf(f5, FLAG_WEEKLY, FLAG_NO_WEEKLY, !FLAG_WEEKLY);
    MaskIfOff(f5, FLAG_WEEKLY, FLAG_NO_WEEKLY, !FLAG_WEEKLY);
  }

  // -----------------------------------------------------------------------
  // Lookup

  /** `list_find_first(resv_list, _find_resv_name, name)`, as an index. */
  function FindByName(resvs: seq<Resv>, name: string): (r: Option<nat>)
    ensures r.Some? ==> r.value < |resvs| && resvs[r.value].name == name
    ensures r.Some? ==> forall j :: 0 <= j < r.value ==> resvs[j].name != name
    ensures r.None? <==> forall j :: 0 <= j < |resvs| ==> resvs[j].name != name
  {
    FindFrom(resvs, name, 0)
  }

  function FindFrom(resvs: seq<Resv>, name: string, i: nat): (r: Option<nat>)
    ensures r.Some? ==> i <= r.value < |resvs| && resvs[r.value].name == name
    ensures r.Some? ==> forall j :: i <= j < r.value ==> resvs[j].name != name
    ensures r.None? <==> forall j :: i <= j < |resvs| ==> resvs[j].name != name
    decreases |resvs| - i
  {
    if i >= |resvs| then None
    else if resvs[i].name == name then Some(i)
    else FindFrom(resvs, name, i + 1)
  }

  predicate NamesUnique(resvs: seq<Resv>) {
    forall i, j :: 0 <= i < j < |resvs| ==> resvs[i].name != resvs[j].name
  }

  // -----------------------------------------------------------------------
  // Overlap

  /** The half-open windows `[s1, e1)` and `[s2, e2)` intersect. */
  predicate WindowsIntersect(s1: int, e1: int, s2: int, e2: int) {
    s1 < e2 && s2 < e1
  }

  /** Reservation `r` holds a node of `b` at some time in `[start, end)`. */
  predicate Holds(r: Resv, start: int, end: int, b: NodeSet) {
    && r.nodes.Some?
    && WindowsIntersect(r.startTime, r.endTime, start, end)
    && r.nodes.value * b != {}
  }

  /** Two registry entries conflict: their windows intersect and they share a node. */
  predicate Conflict(a: Resv, b: Resv) {
    b.nodes.Some? && Holds(a, b.startTime, b.endTime, b.nodes.value)
  }

  /** No two distinct entries of the registry conflict. */
  predicate ConflictFree(resvs: seq<Resv>) {
    forall i, j :: 0 <= i < |resvs| && 0 <= j < |resvs| && i != j ==> !Conflict(resvs[i], resvs[j])
  }

  /** `_resv_overlap(start, end, bitmap, self)`: some entry other than
      `self` holds a node of `bitmap` within `[start, end)`. A NULL bitmap
      never overlaps. */
  predicate ResvOverlap(resvs: seq<Resv>, start: int, end: int, nodes: Option<NodeSet>, self: Option<nat>) {
    nodes.Some? &&
    exists j :: 0 <= j < |resvs| && Some(j) != self && Holds(resvs[j], start, end, nodes.value)
  }

  /** The scan of `_resv_overlap`: walk the list, skip self, stop at the first hit. */
  method ResvOverlapScan(resvs: seq<Resv>, start: int, end: int, nodes: Option<NodeSet>, self: Option<nat>)
    returns (rc: bool)
    ensures rc <==> ResvOverlap(resvs, start, end, nodes, self)
  {
    rc := false;
    if nodes.None? {
      return;
    }
    var b := nodes.value;
    var i := 0;
    while i < |resvs|
      invariant 0 <= i <= |resvs|
      invariant forall j :: 0 <= j < i && Some(j) != self ==> !Holds(resvs[j], start, end, b)
    {
      var r := resvs[i];
      if Some(i) == self {
        i := i + 1;
        continue;
      }
      if r.endTime <= start || r.startTime >= end || r.nodes.None? || r.nodes.value * b == {} {
        i := i + 1;
        continue;
      }
      rc := true;
      return;
    }
  }

  lemma ConflictSymmetric(a: Resv, b: Resv)
    ensures Conflict(a, b) <==> Conflict(b, a)
  {
    if a.nodes.Some? && b.nodes.Some? {
      assert a.nodes.value * b.nodes.value == b.nodes.value * a.nodes.value;
    }
  }

  /** Adding an entry that overlaps nothing keeps the registry conflict-free. */
  lemma ConflictFreeAppend(resvs: seq<Resv>, r: Resv)
    requires ConflictFree(resvs)
    requires !ResvOverlap(resvs, r.startTime, r.endTime, r.nodes, None)
    ensures ConflictFree(resvs + [r])
  {
    var s := resvs + [r];
    forall i, j | 0 <= i < |s| && 0 <= j < |s| && i != j
      ensures !Conflict(s[i], s[j])
    {
      ConflictSymmetric(s[i], s[j]);
      if i < |resvs| && j < |resvs| {
        assert s[i] == resvs[i] && s[j] == resvs[j];
      } else if i < |resvs| {
        assert s[i] == resvs[i] && s[j] == r;
      } else {
        assert s[j] == resvs[j] && s[i] == r;
      }
    }
  }

  /** Replacing entry `k` with one that overlaps no other keeps the registry conflict-free. */
  lemma ConflictFreeReplace(resvs: seq<Resv>, k: nat, r: Resv)
    requires k < |resvs|
    requires ConflictFree(resvs)
    requires !ResvOverlap(resvs, r.startTime, r.endTime, r.nodes, Some(k))
    ensures ConflictFree(resvs[k := r])
  {
    var s := resvs[k := r];
    forall i, j | 0 <= i < |s| && 0 <= j < |s| && i != j
      ensures !Conflict(s[i], s[j])
    {
      ConflictSymmetric(s[i], s[j]);
      if i != k && j != k {
        assert s[i] == resvs[i] && s[j] == resvs[j];
      } else if i != k {
        assert s[i] == resvs[i] && s[j] == r;
      } else {
        assert s[j] == resvs[j] && s[i] == r;
      }
    }
  }

  /** Removing one entry keeps the registry conflict-free. */
  lemma ConflictFreeRemove(resvs: seq<Resv>, k: nat)
    requires k < |resvs|
    requires ConflictFree(resvs)
    ensures ConflictFree(resvs[..k] + resvs[k + 1..])
  {
    var s := resvs[..k] + resvs[k + 1..];
    forall i, j | 0 <= i < |s| && 0 <= j < |s| && i != j
      ensures !Conflict(s[i], s[j])
    {
      var i' := if i < k then i else i + 1;
      var j' := if j < k then j else j + 1;
      assert s[i] == resvs[i'] && s[j] == resvs[j'];
    }
  }
}

=== FILE: select.dfy ===
/**
  Node selection for reservations: `_select_nodes` picks nodes for a
  request given as a node count, and `_resize_resv` grows or shrinks an
  existing reservation to a new node count.
 */
module Select {
  import opened Base
  import opened Bitmap
  import opened NodeConfig
  import opened Resv

  /** Node `x` carries the one requested feature; without a feature
      request every node qualifies. */
  predicate HasFeature(c: Config, features: Option<string>, x: nat) {
    features.None? || (x < |c.nodes| && features.value in c.nodes[x].features)
  }

  /** Reservation `r` has a bitmap holding `x` and its window meets `[start, end)`. */
  predicate Blocks(r: Resv, start: int, end: int, x: nat) {
    && r.nodes.Some?
    && WindowsIntersect(r.startTime, r.endTime, start, end)
    && x in r.nodes.value
  }

  /** Some reservation of the registry blocks node `x` for `[start, end)`. */
  predicate Reserved(resvs: seq<Resv>, start: int, end: int, x: nat) {
    exists j :: 0 <= j < |resvs| && Blocks(resvs[j], start, end, x)
  }

  /** The reservation loop of `_select_nodes`: walk the registry and clear
      from `b` the nodes of every reservation whose window meets the request. */
  function Unreserved(b: NodeSet, resvs: seq<Resv>, start: int, end: int): (r: NodeSet)
    ensures forall x :: x in r <==> x in b && !Reserved(resvs, start, end, x)
    decreases |resvs|
  {
    if resvs == [] then b
    else
      var head := resvs[0];
      var b' := if head.nodes.None? || !WindowsIntersect(head.startTime, head.endTime, start, end)
                then b else b - head.nodes.value;
      var r := Unreserved(b', resvs[1..], start, end);
      assert forall x :: Reserved(resvs, start, end, x) <==>
               Blocks(head, start, end, x) || Reserved(resvs[1..], start, end, x) by {
        forall x
          ensures Reserved(resvs, start, end, x) ==> Blocks(head, start, end, x) || Reserved(resvs[1..], start, end, x)
        {
          if Reserved(resvs, start, end, x) {
            var j :| 0 <= j < |resvs| && Blocks(resvs[j], start, end, x);
            if j > 0 {
              assert resvs[1..][j - 1] == resvs[j];
            }
          }
        }
        forall x
          ensures Reserved(resvs[1..], start, end, x) ==> Reserved(resvs, start, end, x)
        {
          if Reserved(resvs[1..], start, end, x) {
            var j :| 0 <= j < |resvs[1..]| && Blocks(resvs[1..][j], start, end, x);
            assert resvs[j + 1] == resvs[1..][j];
          }
        }
      }
      r
  }

  /** The feature loop of `_select_nodes`: keep the nodes of `b` that carry
      the requested feature. */
  function WithFeature(c: Config, b: NodeSet, features: Option<string>): (r: NodeSet)
    ensures forall x :: x in r <==> x in b && HasFeature(c, features, x)
  {
    set x | x in b && HasFeature(c, features, x)
  }

  /** The nodes `_select_nodes` may choose from: the partition's nodes that
      no reservation holds during `[start, end)`, carry the feature and are up. */
  function Eligible(c: Config, resvs: seq<Resv>, start: int, end: int, features: Option<string>, part: string): (e: NodeSet)
    requires Valid(c) && part in c.parts
    ensures e <= Universe(c)
    ensures forall x :: x in e <==>
      && x in c.parts[part]
      && !Reserved(resvs, start, end, x)
      && HasFeature(c, features, x)
      && x in c.avail
  {
    WithFeature(c, Unreserved(c.parts[part], resvs, start, end), features) * c.avail
  }

  /** `|a| == |a * b| + |a - b|`: a bitmap splits into its part inside `b`
      and its part outside. */
  lemma SplitCount(a: NodeSet, b: NodeSet)
    ensures |a| == |a * b| + |a - b|
  {
    assert a == (a * b) + (a - b);
    assert (a * b) * (a - b) == {};
  }

  /** `_select_nodes`. Returns the partition actually used (a request with
      none takes the default partition, which sticks even when selection then
      fails) and the chosen bitmap or the error. */
  function SelectNodes(c: Config, resvs: seq<Resv>, start: int, end: int, features: Option<string>,
                       cnt: nat, part: Option<string>): (r: (Option<string>, Result<NodeSet>))
    requires Valid(c)
    requires part.Some? ==> part.value in c.parts
    ensures r.0 == (if part.Some? then part else c.defaultPart)
    ensures r.0.None? ==> r.1 == Err(DefaultPartitionNotSet)
    ensures r.0.Some? ==>
      var e := Eligible(c, resvs, start, end, features, r.0.value);
      && (r.1.Err? <==> |e| < cnt)
      && (r.1.Err? ==> r.1.code == TooManyRequestedNodes)
      && (r.1.Ok? ==>
            && |r.1.value| == cnt
            && r.1.value <= e
            && (|e * c.idle| >= cnt ==> r.1.value <= c.idle)
            && (|e * c.idle| < cnt ==> e * c.idle <= r.1.value))
  {
    var p := if part.Some? then part else c.defaultPart;
    if p.None? then (p, Err(DefaultPartitionNotSet))
    else
      var e := Eligible(c, resvs, start, end, features, p.value);
      var n := |c.nodes|;
      if |e| < cnt then (p, Err(TooManyRequestedNodes))
      else
        var i := |e * c.idle|;
        if i >= cnt then (p, Ok(PickCnt(e * c.idle, cnt, n).value))
        else
          SplitCount(e, c.idle);
          var busy := PickCnt(e - c.idle, cnt - i, n).value;
          assert (e * c.idle) * busy == {};
          (p, Ok((e * c.idle) + busy))
  }

  /** Nodes chosen by `_select_nodes` never overlap a reservation whose
      window meets the request: creating a reservation from them needs no
      `_resv_overlap` check. */
  lemma SelectNodesAvoidsReservations(c: Config, resvs: seq<Resv>, start: int, end: int,
                                      features: Option<string>, cnt: nat, part: Option<string>)
    requires Valid(c)
    requires part.Some? ==> part.value in c.parts
    ensures var r := SelectNodes(c, resvs, start, end, features, cnt, part);
      r.1.Ok? ==> !ResvOverlap(resvs, start, end, Some(r.1.value), None)
  {
    var r := SelectNodes(c, resvs, start, end, features, cnt, part);
    if r.1.Ok? {
      var b := r.1.value;
      var e := Eligible(c, resvs, start, end, features, r.0.value);
      forall j | 0 <= j < |resvs| && resvs[j].nodes.Some? && WindowsIntersect(resvs[j].startTime, resvs[j].endTime, start, end)
        ensures resvs[j].nodes.value * b == {}
      {
        forall x | x in resvs[j].nodes.value
          ensures x !in b
        {
          assert Blocks(resvs[j], start, end, x);
          assert x !in e;
        }
      }
    }
  }

  // -----------------------------------------------------------------------
  // Resizing

  /** A reservation's bitmap, with NULL read as empty. */
  function NodesOf(r: Resv): NodeSet {
    if r.nodes.Some? then r.nodes.value else {}
  }

  /** The shrinking half of `_resize_resv` for `delta = node_cnt - target > 0`:
      drop idle nodes first; if fewer idle nodes than `delta` are held,
      drop them all and then keep the `target` lowest of the rest. */
  function Shrink(c: Config, b: NodeSet, nodeCnt: nat, target: nat): (r: Option<NodeSet>)
    requires Valid(c) && b <= Universe(c) && target < nodeCnt
    ensures r.Some? ==> r.value <= b
    ensures nodeCnt == |b| ==> r.Some? && |r.value| == target
    ensures nodeCnt == |b| && |b * c.idle| >= nodeCnt - target ==> r.Some? && b - c.idle <= r.value
    ensures nodeCnt == |b| && |b * c.idle| < nodeCnt - target ==> r.Some? && r.value * c.idle == {}
  {
    var n := |c.nodes|;
    var delta := nodeCnt - target;
    var i := |b * c.idle|;
    SplitCount(b, c.idle);
    var (b1, d1) :=
      if i > delta then (b - PickCnt(b * c.idle, delta, n).value, 0)
      else if i > 0 then (b - c.idle, |b - c.idle| - target)
      else (b, delta);
    assert i > delta ==> |b1| == |b| - delta by {
      if i > delta {
        var picked := PickCnt(b * c.idle, delta, n).value;
        assert b == b1 + picked && b1 * picked == {};
      }
    }
    if d1 > 0 then PickCnt(b1, target, n) else Some(b1)
  }

  /** `_resize_resv`: bring the reservation to `target` nodes. An equal count
      changes nothing; shrinking cannot fail; growing asks `_select_nodes`
      for the missing nodes within the reservation's own window, features
      and partition, and adds them. `node_cnt` becomes the target on
      success. A failed grow changes only `part_ptr`, which takes the
      default partition when it was unset. */
  function ResizeResv(c: Config, resvs: seq<Resv>, r: Resv, target: nat): (res: (Resv, Option<Errno>))
    requires Valid(c)
    requires r.part.Some? ==> r.part.value in c.parts
    requires NodesOf(r) <= Universe(c)
    ensures res.0 == r.(nodes := res.0.nodes, nodeList := res.0.nodeList, nodeCnt := res.0.nodeCnt, part := res.0.part)
    ensures r.nodeCnt == target ==> res == (r, None)
    ensures res.1.None? ==> res.0.nodeCnt == target
    ensures res.1.None? && r.nodeCnt != target ==> res.0.nodeList == Some(BitmapToName(c, NodesOf(res.0)))
    ensures res.1.None? && r.nodeCnt != target ==> res.0 == r.(nodes := res.0.nodes, nodeList := res.0.nodeList, nodeCnt := target, part := res.0.part)
    ensures target < r.nodeCnt ==> res.1.None? && res.0.part == r.part && NodesOf(res.0) <= NodesOf(r)
    ensures target < r.nodeCnt && r.nodeCnt == |NodesOf(r)| ==> |NodesOf(res.0)| == target && res.0.nodes.Some?
    ensures res.1.Some? ==> target > r.nodeCnt && res.0 == r.(part := res.0.part)
    ensures target > r.nodeCnt ==> res.0.part == (if r.part.Some? then r.part else c.defaultPart)
    ensures target > r.nodeCnt ==>
      var sel := SelectNodes(c, resvs, r.startTime, r.endTime, r.features, target - r.nodeCnt, r.part).1;
      && (res.1.Some? <==> sel.Err?)
      && (res.1.Some? ==> res.1.value == sel.code)
      && (res.1.None? ==> NodesOf(res.0) == NodesOf(r) + sel.value)
    ensures NodesOf(res.0) <= Universe(c) && (res.0.part.Some? ==> res.0.part.value in c.parts)
    ensures SameRequestFields(res.0, r)
  {
    var b := NodesOf(r);
    if r.nodeCnt == target then (r, None)
    else if target < r.nodeCnt then
      var nodes' := Shrink(c, b, r.nodeCnt, target);
      var b' := if nodes'.Some? then nodes'.value else {};
      (r.(nodes := nodes', nodeList := Some(BitmapToName(c, b')), nodeCnt := target), None)
    else
      var (p', sel) := SelectNodes(c, resvs, r.startTime, r.endTime, r.features, target - r.nodeCnt, r.part);
      match sel
      case Err(code) => (r.(part := p'), Some(code))
      case Ok(add) =>
        var b' := b + add;
        (r.(part := p', nodes := Some(b'), nodeList := Some(BitmapToName(c, b')), nodeCnt := target), None)
  }

  /** `_select_nodes` never hands out a node of a registry entry whose
      window meets the request. */
  lemma SelectNodesAvoidsEntry(c: Config, resvs: seq<Resv>, k: nat, start: int, end: int,
                               features: Option<string>, cnt: nat, part: Option<string>)
    requires Valid(c)
    requires part.Some? ==> part.value in c.parts
    requires k < |resvs| && resvs[k].nodes.Some?
    requires WindowsIntersect(resvs[k].startTime, resvs[k].endTime, start, end)
    ensures var sel := SelectNodes(c, resvs, start, end, features, cnt, part).1;
      sel.Ok? ==> sel.value * resvs[k].nodes.value == {}
  {
    var r := SelectNodes(c, resvs, start, end, features, cnt, part);
    if r.1.Ok? {
      var e := Eligible(c, resvs, start, end, features, r.0.value);
      forall x | x in resvs[k].nodes.value
        ensures x !in r.1.value
      {
        assert Blocks(resvs[k], start, end, x);
        assert x !in e;
      }
    }
  }

  /** Growing adds nodes disjoint from the reservation's own: while its
      window is non-empty its own record blocks them in `_select_nodes`. The
      bitmap then has exactly `target` nodes if the old count was accurate. */
  lemma ResizeGrowDisjoint(c: Config, resvs: seq<Resv>, k: nat, target: nat)
    requires Valid(c)
    requires k < |resvs|
    requires resvs[k].part.Some? ==> resvs[k].part.value in c.parts
    requires resvs[k].nodes.Some? && resvs[k].nodes.value <= Universe(c)
    requires resvs[k].startTime < resvs[k].endTime
    requires resvs[k].nodeCnt == |resvs[k].nodes.value| < target
    ensures var res := ResizeResv(c, resvs, resvs[k], target);
      res.1.None? ==>
        && resvs[k].nodes.value < NodesOf(res.0)
        && |NodesOf(res.0)| == target
  {
    hide ResizeResv, SelectNodes, Eligible;
    var r := resvs[k];
    var sel := SelectNodes(c, resvs, r.startTime, r.endTime, r.features, target - r.nodeCnt, r.part).1;
    SelectNodesAvoidsEntry(c, resvs, k, r.startTime, r.endTime, r.features, target - r.nodeCnt, r.part);
    if sel.Ok? {
      var b := r.nodes.value;
      assert |b + sel.value| == |b| + |sel.value|;
    }
  }

  /** A successful `_resize_resv` of a registry entry whose `node_cnt` is
      its bitmap's popcount and whose window is non-empty leaves exactly
      `target` nodes in the bitmap, whichever branch it takes. */
  lemma {:induction false} ResizeResvCount(c: Config, resvs: seq<Resv>, k: nat, target: nat)
    requires Valid(c)
    requires k < |resvs|
    requires resvs[k].part.Some? ==> resvs[k].part.value in c.parts
    requires NodesOf(resvs[k]) <= Universe(c)
    requires resvs[k].startTime < resvs[k].endTime
    requires resvs[k].nodeCnt == |NodesOf(resvs[k])|
    ensures var res := ResizeResv(c, resvs, resvs[k], target);
      res.1.None? ==> |NodesOf(res.0)| == target
  {
    var r := resvs[k];
    if target > r.nodeCnt {
      if r.nodes.Some? {
        ResizeGrowDisjoint(c, resvs, k, target);
      }
    }
  }
}

=== FILE: strings.dfy ===
/**
  The C string primitives the reservation engine uses, stated over
  `seq<char>`: `strtok_r(.., ",")` tokenising, the comma join the engine
  rebuilds its canonical lists with, `strchr`/`strrchr`/`strstr`, the
  `"%d"` rendering of `xstrfmtcat` and glibc's `atoi`.
 */
module Strings {
  import opened Base

  /** A token `strtok_r` can return for the delimiter ",": non-empty, no comma. */
  predicate IsToken(t: string) {
    t != [] && ',' !in t
  }

  predicate AllTokens(xs: seq<string>) {
    forall i :: 0 <= i < |xs| ==> IsToken(xs[i])
  }

  /** Length of the leading field of `s`: the index of the first comma, or `|s|`.
      This is also `strchr(s, ',') - s` when a comma exists. */
  function FieldLen(s: string): (n: nat)
    ensures n <= |s|
    ensures forall i :: 0 <= i < n ==> s[i] != ','
    ensures n == |s| || s[n] == ','
  {
    if |s| == 0 || s[0] == ',' then 0 else 1 + FieldLen(s[1..])
  }

  /** The tokens `strtok_r(s, ",")` returns in order: the maximal comma-free
      runs, empty runs skipped. */
  function Tokens(s: string): (r: seq<string>)
    ensures AllTokens(r)
    decreases |s|
  {
    if |s| == 0 then []
    else if s[0] == ',' then Tokens(s[1..])
    else
      var n := FieldLen(s);
      [s[..n]] + Tokens(s[n..])
  }

  /** The comma join the engine uses to rebuild `accounts` (`xstrdup` of the
      first entry, then `xstrcat(",")` and the next entry). */
  function Join(xs: seq<string>): string
  {
    if |xs| == 0 then []
    else if |xs| == 1 then xs[0]
    else xs[0] + [','] + Join(xs[1..])
  }

  /** As `Join`, except that the rebuilt string stays NULL for an empty list. */
  function JoinOpt(xs: seq<string>): (r: Option<string>)
    ensures r.None? <==> xs == []
  {
    if xs == [] then None else Some(Join(xs))
  }

  lemma {:induction false} FieldLenOfJoinHead(t: string, rest: string)
    requires IsToken(t)
    ensures FieldLen(t + rest) == |t| || (FieldLen(t + rest) > |t| && |rest| > 0 && rest[0] != ',')
    ensures |rest| > 0 && rest[0] == ',' ==> FieldLen(t + rest) == |t|
    ensures rest == [] ==> FieldLen(t + rest) == |t|
    decreases |t|
  {
    if |t| == 1 {
      assert (t + rest)[1..] == rest;
      if |rest| > 0 && rest[0] != ',' {
        assert FieldLen(t + rest) == 1 + FieldLen(rest);
      }
    } else {
      assert (t + rest)[1..] == t[1..] + rest;
      FieldLenOfJoinHead(t[1..], rest);
    }
  }

  /** Splitting a join of tokens gives the tokens back. */
  lemma {:induction false} TokensOfJoin(xs: seq<string>)
    requires AllTokens(xs)
    ensures Tokens(Join(xs)) == xs
    decreases |xs|
  {
    if |xs| == 0 {
    } else if |xs| == 1 {
      var t := xs[0];
      FieldLenOfJoinHead(t, []);
      assert t + [] == t;
      assert t[..|t|] == t;
      assert t[|t|..] == [];
    } else {
      var t := xs[0];
      var rest := [','] + Join(xs[1..]);
      var s := t + rest;
      assert Join(xs) == s;
      FieldLenOfJoinHead(t, rest);
      assert FieldLen(s) == |t|;
      assert s[..|t|] == t;
      assert s[|t|..] == rest;
      assert Tokens(rest) == Tokens(Join(xs[1..])) by {
        assert rest[1..] == Join(xs[1..]);
      }
      TokensOfJoin(xs[1..]);
      assert xs == [t] + xs[1..];
    }
  }

  /** Appending one entry extends the join by a comma and the entry. */
  lemma {:induction false} JoinSnoc(xs: seq<string>, y: string)
    requires xs != []
    ensures Join(xs + [y]) == Join(xs) + [','] + y
    decreases |xs|
  {
    if |xs| == 1 {
      assert xs + [y] == [xs[0], y];
      assert [xs[0], y][1..] == [y];
    } else {
      assert (xs + [y])[1..] == xs[1..] + [y];
      JoinSnoc(xs[1..], y);
    }
  }

  /** Joining a concatenation of two non-empty lists puts a comma between the joins. */
  lemma {:induction false} JoinConcat(xs: seq<string>, ys: seq<string>)
    requires xs != [] && ys != []
    ensures Join(xs + ys) == Join(xs) + [','] + Join(ys)
    decreases |xs|
  {
    if |xs| == 1 {
      assert (xs + ys)[1..] == ys;
    } else {
      assert (xs + ys)[1..] == xs[1..] + ys;
      JoinConcat(xs[1..], ys);
    }
  }

  // ---------------------------------------------------------------------
  // strstr

  /** `s[p..p+|pat|] == pat`, with the slice in bounds. */
  predicate OccursAt(s: string, pat: string, p: nat) {
    p + |pat| <= |s| && s[p..p + |pat|] == pat
  }

  /** `strstr(s + from, pat)`: the first occurrence of `pat` at or after `from`. */
  function Find(s: string, pat: string, from: nat): (r: Option<nat>)
    ensures r.Some? ==> from <= r.value && OccursAt(s, pat, r.value)
    ensures r.Some? ==> forall q :: from <= q < r.value ==> !OccursAt(s, pat, q)
    ensures r.None? ==> forall q :: from <= q ==> !OccursAt(s, pat, q)
    decreases |s| - from
  {
    if from + |pat| > |s| then None
    else if s[from..from + |pat|] == pat then Some(from)
    else Find(s, pat, from + 1)
  }

  // ---------------------------------------------------------------------
  // strrchr

  /** `strrchr(s, c) - s`: the last index holding `c`. */
  function LastIndex(s: string, c: char): (r: Option<nat>)
    ensures r.Some? ==> r.value < |s| && s[r.value] == c && c !in s[r.value + 1..]
    ensures r.None? <==> c !in s
  {
    if |s| == 0 then None
    else if s[|s| - 1] == c then Some(|s| - 1)
    else
      assert s == s[..|s| - 1] + [s[|s| - 1]];
      var r := LastIndex(s[..|s| - 1], c);
      if r.Some? then
        assert s[r.value + 1..] == s[..|s| - 1][r.value + 1..] + [s[|s| - 1]];
        r
      else r
  }

  /** The last occurrence is the one with no occurrence after it. */
  lemma {:induction false} LastIndexUnique(s: string, c: char, k: nat)
    requires k < |s| && s[k] == c && c !in s[k + 1..]
    ensures LastIndex(s, c) == Some(k)
    decreases |s|
  {
    if k < |s| - 1 {
      assert s[k + 1..][|s| - k - 2] == s[|s| - 1];
      var t := s[..|s| - 1];
      assert t[k + 1..] == s[k + 1..][..|s| - k - 2];
      LastIndexUnique(t, c, k);
    }
  }

  lemma LastIndexAfter(a: string, c: char, b: string)
    requires c !in b
    ensures LastIndex(a + [c] + b, c) == Some(|a|)
  {
    var s := a + [c] + b;
    assert s[|a|] == c && s[|a| + 1..] == b;
    LastIndexUnique(s, c, |a|);
  }

  // ---------------------------------------------------------------------
  // "%d" and atoi

  predicate IsDigit(ch: char) {
    '0' <= ch <= '9'
  }

  function DigitChar(d: nat): (ch: char)
    requires d < 10
    ensures IsDigit(ch)
  {
    ['0', '1', '2', '3', '4', '5', '6', '7', '8', '9'][d]
  }

  function DigitValue(ch: char): (d: nat)
    requires IsDigit(ch)
    ensures d < 10
  {
    (ch as int - '0' as int)
  }

  /** Decimal digits of `n`, most significant first, no leading zeros. */
  function Digits(n: nat): (s: string)
    ensures |s| > 0
    ensures forall i :: 0 <= i < |s| ==> IsDigit(s[i])
    decreases n
  {
    if n < 10 then [DigitChar(n)] else Digits(n / 10) + [DigitChar(n % 10)]
  }

  /** The value of an all-digit string, read left to right. */
  function DigitsValue(s: string): nat
    requires forall i :: 0 <= i < |s| ==> IsDigit(s[i])
  {
    if |s| == 0 then 0 else DigitsValue(s[..|s| - 1]) * 10 + DigitValue(s[|s| - 1])
  }

  lemma {:induction false} DigitsRoundTrip(n: nat)
    ensures DigitsValue(Digits(n)) == n
    decreases n
  {
    var s := Digits(n);
    if n >= 10 {
      assert s[..|s| - 1] == Digits(n / 10);
      DigitsRoundTrip(n / 10);
      var d := n % 10;
      assert DigitValue(DigitChar(d)) == d by {
        assert ['0', '1', '2', '3', '4', '5', '6', '7', '8', '9'][d] as int - '0' as int == d;
      }
    } else {
      assert DigitValue(DigitChar(n)) == n by {
        assert ['0', '1', '2', '3', '4', '5', '6', '7', '8', '9'][n] as int - '0' as int == n;
      }
    }
  }

  /** `printf("%d", x)`. */
  function IntToString(x: int): (s: string)
    ensures '_' !in s && ',' !in s
  {
    if x < 0 then ['-'] + Digits(-x) else Digits(x)
  }

  /** The signed 32-bit reading of a `uint32_t` passed to `"%d"`. */
  function AsInt32(k: nat): (r: int)
    requires k < TWO_32
    ensures -0x8000_0000 <= r < 0x8000_0000
    ensures U32(r) == k
  {
    if k < 0x8000_0000 then k else k - TWO_32
  }

  predicate IsSpace(ch: char) {
    ch == ' ' || ch == '\t' || ch == '\n' || ch == '\r' || ch == '\U{000B}' || ch == '\U{000C}'
  }

  /** Length of the leading run of digits. */
  function DigitRun(s: string): (n: nat)
    ensures n <= |s|
    ensures forall i :: 0 <= i < n ==> IsDigit(s[i])
    ensures n == |s| || !IsDigit(s[n])
  {
    if |s| == 0 || !IsDigit(s[0]) then 0 else 1 + DigitRun(s[1..])
  }

  /** The mathematical value `strtol(s, NULL, 10)` reads, before clamping. */
  function ReadLong(s: string): int
    decreases |s|
  {
    if |s| > 0 && IsSpace(s[0]) then ReadLong(s[1..])
    else if |s| > 0 && s[0] == '-' then
      var t := s[1..]; -(DigitsValue(t[..DigitRun(t)]) as int)
    else if |s| > 0 && s[0] == '+' then
      var t := s[1..]; DigitsValue(t[..DigitRun(t)])
    else DigitsValue(s[..DigitRun(s)])
  }

  const LONG_MIN: int := -0x8000_0000_0000_0000
  const LONG_MAX: int := 0x7fff_ffff_ffff_ffff

  /** `(uint32_t) atoi(s)` with glibc's `atoi(s) == (int) strtol(s, NULL, 10)`:
      `strtol` saturates at the `long` bounds, the casts keep the low 32 bits. */
  function AtoiU32(s: string): (r: nat)
    ensures r < TWO_32
  {
    var v := ReadLong(s);
    U32(if v < LONG_MIN then LONG_MIN else if v > LONG_MAX then LONG_MAX else v)
  }

  /** `atoi` reads back what `"%d"` printed, as a `uint32_t`. */
  lemma AtoiOfIntToString(k: nat)
    requires k < TWO_32
    ensures AtoiU32(IntToString(AsInt32(k))) == k
  {
    ReadLongOfIntToString(AsInt32(k));
  }

  /** The value `strtol` reads from `"%d"` output is the number printed. */
  lemma ReadLongOfIntToString(x: int)
    ensures ReadLong(IntToString(x)) == x
  {
    hide Digits, DigitsValue, DigitRun;
    var s := IntToString(x);
    if x < 0 {
      var t := Digits(-x);
      assert s[0] == '-' && s[1..] == t;
      DigitRunAll(t);
      assert t[..|t|] == t;
      DigitsRoundTrip(-x);
    } else {
      assert IsDigit(s[0]);
      DigitRunAll(s);
      assert s[..|s|] == s;
      DigitsRoundTrip(x);
    }
  }

  lemma DigitRunAll(s: string)
    requires forall i :: 0 <= i < |s| ==> IsDigit(s[i])
    ensures DigitRun(s) == |s|
  {
    if |s| > 0 {
      DigitRunAll(s[1..]);
    }
  }
}

=== FILE: users.dfy ===
/**
  The user list of a reservation: the `users` string and the `user_list`
  array of uids resolved from it. Name resolution (`uid_from_string`) is
  a lookup in a directory given as a parameter.
 */
module Users {
  import opened Base
  import opened Strings
  import opened ListExpr
  import opened UserString
  import opened Resv

  /** The user database `uid_from_string` consults. */
  type Directory = map<string, Uid>

  /** `uid_from_string(name)`, with `None` for `(uid_t) -1`. An empty name
      names nobody. */
  function Lookup(dir: Directory, name: string): Option<Uid>
  {
    if name != [] && name in dir then Some(dir[name]) else None
  }

  /** Every name resolves. */
  predicate AllKnown(dir: Directory, names: seq<string>) {
    forall i :: 0 <= i < |names| ==> Lookup(dir, names[i]).Some?
  }

  /** Resolve every name, failing on the first that does not resolve. */
  function ResolveAll(dir: Directory, names: seq<string>): (r: Option<seq<Uid>>)
    ensures r.Some? <==> AllKnown(dir, names)
    ensures r.Some? ==> |r.value| == |names| && forall i :: 0 <= i < |names| ==> Some(r.value[i]) == Lookup(dir, names[i])
  {
    if names == [] then Some([])
    else
      var head := Lookup(dir, names[0]);
      var rest := ResolveAll(dir, names[1..]);
      assert forall i :: 1 <= i < |names| ==> names[i] == names[1..][i - 1];
      if head.None? || rest.None? then None
      else Some([head.value] + rest.value)
  }

  /** `_build_uid_list`: a NULL string, or any name that does not resolve,
      is a missing user id; otherwise one uid per `strtok_r` token. */
  function BuildUidList(dir: Directory, users: Option<string>): (r: Result<seq<Uid>>)
    ensures r.Err? ==> r.code == UserIdMissing
    ensures r.Ok? <==> users.Some? && AllKnown(dir, Tokens(users.value))
    ensures r.Ok? ==> |r.value| == |Tokens(users.value)|
    ensures r.Ok? ==> forall i :: 0 <= i < |r.value| ==> Some(r.value[i]) == Lookup(dir, Tokens(users.value)[i])
  {
    if users.None? then Err(UserIdMissing)
    else
      var toks := Tokens(users.value);
      var uids := ResolveAll(dir, toks);
      if uids.None? then
        Err(UserIdMissing)
      else Ok(uids.value)
  }

  /** `users` (NULL is `None`) and `user_list`. */
  datatype UserSet = UserSet(users: Option<string>, list: seq<Uid>)

  /** The string names exactly the uids of the list, in the same order. */
  predicate Synced(u: UserSet, dir: Directory, names: seq<string>) {
    && AllTokens(names)
    && u.users == Some(Join(names))
    && |names| == |u.list|
    && forall i :: 0 <= i < |names| ==> Lookup(dir, names[i]) == Some(u.list[i])
  }

  /** Building the list from a synchronised string gives the list back. */
  lemma BuildUidListOfSynced(u: UserSet, dir: Directory, names: seq<string>)
    requires Synced(u, dir, names)
    ensures BuildUidList(dir, u.users) == Ok(u.list)
  {
    TokensOfJoin(names);
    var r := ResolveAll(dir, names).value;
    assert forall i :: 0 <= i < |names| ==> r[i] == u.list[i];
    assert r == u.list;
  }

  /** One parsed token with its resolved uid. */
  datatype Entry = Entry(op: Op, name: string, uid: Uid)

  function Entries(items: seq<Item>, uids: seq<Uid>): (r: seq<Entry>)
    requires |items| == |uids|
    ensures |r| == |items|
    ensures forall i :: 0 <= i < |r| ==> r[i] == Entry(items[i].op, items[i].name, uids[i])
  {
    seq(|items|, i requires 0 <= i < |items| => Entry(items[i].op, items[i].name, uids[i]))
  }

  function OfOp(es: seq<Entry>, op: Op): (r: seq<Entry>)
    ensures forall e :: e in r ==> e in es && e.op == op
  {
    if es == [] then []
    else if es[0].op == op then [es[0]] + OfOp(es[1..], op)
    else OfOp(es[1..], op)
  }

  function UidsOf(es: seq<Entry>): (r: seq<Uid>)
    ensures |r| == |es| && forall i :: 0 <= i < |es| ==> r[i] == es[i].uid
  {
    seq(|es|, i requires 0 <= i < |es| => es[i].uid)
  }

  /** Cut every whole-field occurrence of `name` from the users string. */
  function CutName(users: Option<string>, name: string): Option<string>
    requires name != []
  {
    if users.None? then None else Some(RemoveName(users.value, name, 0))
  }

  /** The `-name` loop: remove the first entry with the uid from the list,
      then cut the name from the string; stop at the first uid not listed.
      Returns the state reached and whether every removal succeeded. The
      list goes through the same steps as `RemoveEach` on the uids. */
  function MinusUsers(u: UserSet, es: seq<Entry>): (r: (UserSet, bool))
    requires forall e :: e in es ==> e.name != []
    ensures var (l, n) := RemoveEach(u.list, UidsOf(es)); r.0.list == l && (r.1 <==> n == |es|)
    decreases |es|
  {
    if es == [] then (u, true)
    else
      var e := es[0];
      assert UidsOf(es)[0] == e.uid && UidsOf(es)[1..] == UidsOf(es[1..]);
      match RemoveFirst(u.list, e.uid)
      case None =>
        (u, false)
      case Some(l) =>
        assert forall x :: x in es[1..] ==> x in es;
        MinusUsers(UserSet(CutName(u.users, e.name), l), es[1..])
  }

  /** The removals all succeed exactly when the uids, counted with
      multiplicity, are all listed; each then leaves the list once. */
  lemma MinusUsersSpec(u: UserSet, es: seq<Entry>)
    requires forall e :: e in es ==> e.name != []
    ensures MinusUsers(u, es).1 <==> multiset(UidsOf(es)) <= multiset(u.list)
    ensures MinusUsers(u, es).1 ==> multiset(MinusUsers(u, es).0.list) == multiset(u.list) - multiset(UidsOf(es))
  {
    RemoveEachSpec(u.list, UidsOf(es));
  }

  /** Append `name` to the users string (`xstrcat`, with a comma unless the
      string is NULL or empty). */
  function AppendName(users: Option<string>, name: string): (r: Option<string>)
    ensures r.Some?
  {
    if users.Some? && users.value != [] then Some(users.value + [','] + name) else Some(name)
  }

  /** The `+name` loop: add each uid not yet listed, and its name. */
  function PlusUsers(u: UserSet, es: seq<Entry>): (r: UserSet)
    ensures |u.list| <= |r.list| && r.list[..|u.list|] == u.list
    ensures forall e :: e in es ==> e.uid in r.list
    ensures forall k :: |u.list| <= k < |r.list| ==> r.list[k] in UidsOf(es) && r.list[k] !in r.list[..k]
    decreases |es|
  {
    if es == [] then u
    else
      var e := es[0];
      var v := if e.uid in u.list then u else UserSet(AppendName(u.users, e.name), u.list + [e.uid]);
      var r := PlusUsers(v, es[1..]);
      PlusUsersStep(u, es, v, r);
      r
  }

  /** One round of the `+name` loop: what holds of the rest carries over to
      the whole. */
  lemma PlusUsersStep(u: UserSet, es: seq<Entry>, v: UserSet, r: UserSet)
    requires es != []
    requires v == if es[0].uid in u.list then u else UserSet(AppendName(u.users, es[0].name), u.list + [es[0].uid])
    requires |v.list| <= |r.list| && r.list[..|v.list|] == v.list
    requires forall e :: e in es[1..] ==> e.uid in r.list
    requires forall k :: |v.list| <= k < |r.list| ==> r.list[k] in UidsOf(es[1..]) && r.list[k] !in r.list[..k]
    ensures |u.list| <= |r.list| && r.list[..|u.list|] == u.list
    ensures forall e :: e in es ==> e.uid in r.list
    ensures forall k :: |u.list| <= k < |r.list| ==> r.list[k] in UidsOf(es) && r.list[k] !in r.list[..k]
  {
    var e := es[0];
    assert r.list[..|u.list|] == r.list[..|v.list|][..|u.list|];
    assert e.uid in r.list by {
      assert e.uid in v.list;
      assert v.list == r.list[..|v.list|];
    }
    assert forall x :: x in es ==> x == e || x in es[1..];
    assert forall x :: x in UidsOf(es[1..]) ==> x in UidsOf(es) by {
      assert UidsOf(es) == [e.uid] + UidsOf(es[1..]);
    }
    assert forall k :: |u.list| <= k < |v.list| ==> k == |u.list| && r.list[k] == e.uid && r.list[..k] == u.list;
  }

  /** `_update_uid_list`: apply a set, `+name` or `-name` expression. Every
      error is a missing user id. A failing `-name` leaves the earlier
      removals applied to the list; the string keeps its earlier cuts
      too, where the source's error path frees it instead. */
  function UpdateUidList(u: UserSet, dir: Directory, expr: Option<string>): (r: (UserSet, Option<Errno>))
    ensures r.1.Some? ==> r.1.value == UserIdMissing
    ensures expr.None? ==> r == (u, Some(UserIdMissing))
    ensures expr.Some? && PlainAfterMod(Tokens(expr.value)) ==> r == (u, Some(UserIdMissing))
  {
    if expr.None? then (u, Some(UserIdMissing))
    else
      var toks := Tokens(expr.value);
      match Classify(toks)
      case None => (u, Some(UserIdMissing))
      case Some(items) =>
        match ResolveAll(dir, AllNames(items))
        case None => (u, Some(UserIdMissing))
        case Some(uids) =>
          if !HasOp(items, Remove) && !HasOp(items, Add) then (UserSet(expr, uids), None)
          else
            var es := Entries(items, uids);
            assert forall e :: e in es ==> e.name != [] by {
              forall e | e in es ensures e.name != [] {
                var i :| 0 <= i < |es| && es[i] == e;
                assert Lookup(dir, AllNames(items)[i]).Some?;
              }
            }
            var minus := MinusUsers(u, OfOp(es, Remove));
            if !minus.1 then (minus.0, Some(UserIdMissing))
            else (PlusUsers(minus.0, OfOp(es, Add)), None)
  }

  /** The uids the entries of kind `op` resolve to, in expression order. */
  function UidsWith(dir: Directory, items: seq<Item>, op: Op): seq<Uid>
    requires AllKnown(dir, AllNames(items))
  {
    UidsOf(OfOp(Entries(items, ResolveAll(dir, AllNames(items)).value), op))
  }

  /** A `+name`/`-name` expression: an unknown name fails with nothing
      changed; otherwise it succeeds exactly when the removed uids, counted
      with multiplicity, are all listed. On success the list is the
      survivors followed by new uids of added users, and every added uid is
      listed; on failure the removals before the missing uid stay applied. */
  lemma {:induction false} UpdateUidListModify(u: UserSet, dir: Directory, expr: string)
    requires !PlainAfterMod(Tokens(expr))
    requires var items := Classify(Tokens(expr)).value; HasOp(items, Remove) || HasOp(items, Add)
    ensures var items := Classify(Tokens(expr)).value;
      var r := UpdateUidList(u, dir, Some(expr));
      && (!AllKnown(dir, AllNames(items)) ==> r == (u, Some(UserIdMissing)))
      && (AllKnown(dir, AllNames(items)) ==>
            var (rm, ad) := (UidsWith(dir, items, Remove), UidsWith(dir, items, Add));
            && (r.1.None? <==> multiset(rm) <= multiset(u.list))
            && (r.1.Some? ==> r.0.list == RemoveEach(u.list, rm).0)
            && (r.1.None? ==>
                  && (forall x :: x in ad ==> x in r.0.list)
                  && exists k :: 0 <= k <= |r.0.list| && multiset(r.0.list[..k]) == multiset(u.list) - multiset(rm)
                       && forall j :: k <= j < |r.0.list| ==> r.0.list[j] in ad))
  {
    var items := Classify(Tokens(expr)).value;
    if AllKnown(dir, AllNames(items)) {
      var uids := ResolveAll(dir, AllNames(items)).value;
      var es := Entries(items, uids);
      assert forall e :: e in es ==> e.name != [] by {
        forall e | e in es ensures e.name != [] {
          var i :| 0 <= i < |es| && es[i] == e;
          assert Lookup(dir, AllNames(items)[i]).Some?;
        }
      }
      var (rms, ads) := (OfOp(es, Remove), OfOp(es, Add));
      MinusUsersSpec(u, rms);
      var minus := MinusUsers(u, rms);
      var r := UpdateUidList(u, dir, Some(expr));
      assert r == if !minus.1 then (minus.0, Some(UserIdMissing)) else (PlusUsers(minus.0, ads), None);
      if minus.1 {
        var l := PlusUsers(minus.0, ads).list;
        forall x | x in UidsOf(ads) ensures x in l {
          var i :| 0 <= i < |UidsOf(ads)| && UidsOf(ads)[i] == x;
          assert ads[i] in ads;
        }
        assert l[..|minus.0.list|] == minus.0.list;
      }
    }
  }

  /** An expression of plain names replaces the string and the list, and
      the list is what building it from scratch gives; it fails exactly
      when some name does not resolve. */
  lemma UpdateUidListAssign(u: UserSet, dir: Directory, expr: string)
    requires forall i :: 0 <= i < |Tokens(expr)| ==> !IsMod(Tokens(expr)[i])
    ensures var r := UpdateUidList(u, dir, Some(expr));
      && (r.1.None? <==> AllKnown(dir, Tokens(expr)))
      && (r.1.None? ==> r.0.users == Some(expr) && BuildUidList(dir, Some(expr)) == Ok(r.0.list))
      && (r.1.Some? ==> r.0 == u)
  {
    var toks := Tokens(expr);
    var items := Classify(toks).value;
    assert AllNames(items) == toks by {
      forall i | 0 <= i < |toks| ensures AllNames(items)[i] == toks[i] {
        assert items[i] == ItemOf(toks[i]);
      }
    }
    assert !HasOp(items, Remove) && !HasOp(items, Add) by {
      forall i | 0 <= i < |items| ensures items[i].op == Assign {
        assert items[i] == ItemOf(toks[i]);
      }
    }
  }

  // -----------------------------------------------------------------------
  // The string stays the join of the names of the list

  predicate Distinct<T(==)>(xs: seq<T>) {
    forall i, j :: 0 <= i < j < |xs| ==> xs[i] != xs[j]
  }

  lemma {:induction false} WithoutAt(xs: seq<string>, k: nat)
    requires Distinct(xs) && k < |xs|
    ensures Without(xs, xs[k]) == xs[..k] + xs[k + 1..]
    decreases |xs|
  {
    var name := xs[k];
    var tail := xs[1..];
    assert Distinct(tail) by {
      forall i, j | 0 <= i < j < |tail| ensures tail[i] != tail[j] {
        assert tail[i] == xs[i + 1] && tail[j] == xs[j + 1];
      }
    }
    if k == 0 {
      assert name !in tail by {
        forall j | 0 <= j < |tail| ensures tail[j] != name {
          assert tail[j] == xs[j + 1];
        }
      }
      WithoutAbsent(tail, name);
      assert xs[..0] + xs[1..] == tail;
    } else {
      assert xs[0] != name;
      WithoutAt(tail, k - 1);
      assert tail[k - 1] == name;
      assert Without(xs, name) == [xs[0]] + Without(tail, name);
      assert xs[..k] == [xs[0]] + tail[..k - 1];
      assert xs[k + 1..] == tail[k..];
    }
  }

  lemma {:induction false} WithoutAbsent(xs: seq<string>, name: string)
    requires name !in xs
    ensures Without(xs, name) == xs
    decreases |xs|
  {
    if xs != [] {
      WithoutAbsent(xs[1..], name);
    }
  }

  /** What a one-token `-name` or `+name` expression does, once parsed. */
  lemma UpdateOne(u: UserSet, dir: Directory, op: Op, name: string) returns (e: Entry)
    requires IsToken(name) && op != Assign && Lookup(dir, name).Some?
    ensures e == Entry(op, name, Lookup(dir, name).value)
    ensures var expr := [if op == Remove then '-' else '+'] + name;
      UpdateUidList(u, dir, Some(expr)) ==
        if op == Add then (PlusUsers(u, [e]), None)
        else if MinusUsers(u, [e]).1 then (PlusUsers(MinusUsers(u, [e]).0, []), None)
        else (MinusUsers(u, [e]).0, Some(UserIdMissing))
  {
    var uid := Lookup(dir, name).value;
    var expr := [if op == Remove then '-' else '+'] + name;
    var items := ParseOne(expr, op, name);
    assert AllNames(items) == [name];
    var rr := ResolveAll(dir, [name]);
    assert rr.Some? && rr.value[0] == uid;
    assert rr.value == [uid];
    var es := Entries(items, [uid]);
    e := Entry(op, name, uid);
    assert es == [e];
    assert es[1..] == [];
    assert OfOp(es[1..], Remove) == [] && OfOp(es[1..], Add) == [];
    if op == Remove {
      assert OfOp(es, Remove) == [e] + OfOp(es[1..], Remove);
      assert OfOp(es, Add) == OfOp(es[1..], Add);
    } else {
      assert OfOp(es, Remove) == OfOp(es[1..], Remove);
      assert OfOp(es, Add) == [e] + OfOp(es[1..], Add);
    }
  }

  /** Removing a listed user from a synchronised list whose names and uids
      are distinct keeps it synchronised, minus that user. */
  lemma UpdateUidListRemoveSynced(u: UserSet, dir: Directory, names: seq<string>, k: nat)
    requires Synced(u, dir, names) && Distinct(names) && Distinct(u.list) && k < |names|
    ensures var name := names[k];
      UpdateUidList(u, dir, Some(['-'] + name)).1 == None
      && Synced(UpdateUidList(u, dir, Some(['-'] + name)).0, dir, Without(names, name))
  {
    hide UpdateUidList;
    var name := names[k];
    var e := UpdateOne(u, dir, Remove, name);
    var ns := names[..k] + names[k + 1..];
    var v := UserSet(Some(Join(ns)), u.list[..k] + u.list[k + 1..]);
    MinusOneSynced(u, dir, names, k, e);
    assert PlusUsers(v, []) == v;
    WithoutAt(names, k);
    SyncedDrop(u, dir, names, k);
  }

  /** The `-name` loop on one listed user of a synchronised list with
      distinct names and uids drops that user from both fields. */
  lemma MinusOneSynced(u: UserSet, dir: Directory, names: seq<string>, k: nat, e: Entry)
    requires Synced(u, dir, names) && Distinct(names) && Distinct(u.list) && k < |names|
    requires e == Entry(Remove, names[k], u.list[k])
    ensures var ns := names[..k] + names[k + 1..];
      MinusUsers(u, [e]) == (UserSet(Some(Join(ns)), u.list[..k] + u.list[k + 1..]), true)
  {
    var ns := names[..k] + names[k + 1..];
    RemoveFirstDistinct(u.list, k);
    assert [e][1..] == [];
    assert CutName(u.users, names[k]) == Some(Join(ns)) by {
      RemoveNameJoin(names, names[k]);
      WithoutAt(names, k);
    }
  }

  /** In a list of distinct entries, the first entry equal to `xs[k]` is at `k`. */
  lemma RemoveFirstDistinct<T>(xs: seq<T>, k: nat)
    requires Distinct(xs) && k < |xs|
    ensures RemoveFirst(xs, xs[k]) == Some(xs[..k] + xs[k + 1..])
  {
    assert forall i :: 0 <= i < |xs| && i != k ==> xs[i] != xs[k];
    assert IndexOf(xs, xs[k]) == k;
  }

  /** Dropping position `k` from both the names and the list keeps them paired. */
  lemma SyncedDrop(u: UserSet, dir: Directory, names: seq<string>, k: nat)
    requires Synced(u, dir, names) && k < |names|
    ensures var ns := names[..k] + names[k + 1..];
      Synced(UserSet(Some(Join(ns)), u.list[..k] + u.list[k + 1..]), dir, ns)
  {
    var ns := names[..k] + names[k + 1..];
    var l := u.list[..k] + u.list[k + 1..];
    forall i | 0 <= i < |ns|
      ensures IsToken(ns[i]) && Lookup(dir, ns[i]) == Some(l[i])
    {
      if i < k { assert ns[i] == names[i] && l[i] == u.list[i]; }
      else { assert ns[i] == names[i + 1] && l[i] == u.list[i + 1]; }
    }
  }

  /** Adding a user whose uid is not listed to a synchronised list keeps it
      synchronised, with the user last. */
  lemma UpdateUidListAddSynced(u: UserSet, dir: Directory, names: seq<string>, name: string)
    requires Synced(u, dir, names) && IsToken(name) && Lookup(dir, name).Some?
    requires Lookup(dir, name).value !in u.list
    ensures UpdateUidList(u, dir, Some(['+'] + name)).1 == None
      && Synced(UpdateUidList(u, dir, Some(['+'] + name)).0, dir, names + [name])
  {
    var uid := Lookup(dir, name).value;
    var e := UpdateOne(u, dir, Add, name);
    assert PlusUsers(u, [e]) == UserSet(AppendName(u.users, name), u.list + [uid]) by {
      assert [e][1..] == [];
    }
    AppendNameJoin(names, name);
    SyncedSnoc(u, dir, names, name);
  }

  /** Appending to the join of a list gives the join of the longer list. */
  lemma AppendNameJoin(names: seq<string>, name: string)
    requires AllTokens(names)
    ensures AppendName(Some(Join(names)), name) == Some(Join(names + [name]))
  {
    if names == [] {
      assert names + [name] == [name];
    } else {
      JoinWellFormed(names);
      JoinSnoc(names, name);
    }
  }

  lemma SyncedSnoc(u: UserSet, dir: Directory, names: seq<string>, name: string)
    requires Synced(u, dir, names) && IsToken(name) && Lookup(dir, name).Some?
    ensures Synced(UserSet(Some(Join(names + [name])), u.list + [Lookup(dir, name).value]), dir, names + [name])
  {
    var ns := names + [name];
    var l := u.list + [Lookup(dir, name).value];
    forall i | 0 <= i < |ns|
      ensures IsToken(ns[i]) && Lookup(dir, ns[i]) == Some(l[i])
    {
      if i < |names| { assert ns[i] == names[i] && l[i] == u.list[i]; }
    }
  }

  /** The one-token expression `op name` parses to one item. */
  lemma ParseOne(expr: string, op: Op, name: string) returns (items: seq<Item>)
    requires IsToken(name) && op != Assign
    requires expr == [if op == Remove then '-' else '+'] + name
    ensures Classify(Tokens(expr)) == Some(items)
    ensures items == [Item(op, name)]
    ensures HasOp(items, op) && !HasOp(items, if op == Remove then Add else Remove)
  {
    assert expr == Join([expr]);
    TokensOfJoin([expr]);
    assert expr[1..] == name;
    items := Classify([expr]).value;
    assert items[0] == Item(op, name);
    assert items == [Item(op, name)];
  }
}

=== FILE: userstring.dfy ===
/**
  The in-place edit `_update_uid_list` makes to the `users` string when a
  `-name` is applied: every comma-delimited occurrence of the name is cut
  out together with one adjacent comma. The main result is that on a
  comma-join of names this is exactly the join of the names that differ.
 */
module UserString {
  import opened Base
  import opened Strings

  /** `name` occurs at `p` as a whole field: preceded by the start or a
      comma, followed by the end or a comma. */
  predicate WholeAt(s: string, name: string, p: nat) {
    && OccursAt(s, name, p)
    && (p == 0 || s[p - 1] == ',')
    && (p + |name| == |s| || s[p + |name|] == ',')
  }

  /** Cut a whole field of length `k` at `p`: with the comma before it when
      there is one, else with the comma after it, else the field alone. */
  function DeleteToken(s: string, p: nat, k: nat): (r: string)
    requires 0 < k && p + k <= |s|
    ensures |r| < |s|
  {
    if p > 0 then s[..p - 1] + s[p + k..]
    else if k < |s| then s[k + 1..]
    else []
  }

  /** The `strstr` loop: find the next occurrence at or after `from`; skip
      one that is not a whole field (search on from the next character);
      cut one that is, and search again from the same place. */
  function RemoveName(s: string, name: string, from: nat): (r: string)
    requires name != []
    decreases |s|, |s| + 1 - from
  {
    if from > |s| then s
    else match Find(s, name, from)
      case None => s
      case Some(p) =>
        if !WholeAt(s, name, p) then RemoveName(s, name, p + 1)
        else RemoveName(DeleteToken(s, p, |name|), name, from)
  }

  /** The cut never lengthens the string. */
  lemma {:induction false} RemoveNameShorter(s: string, name: string, from: nat)
    requires name != []
    ensures |RemoveName(s, name, from)| <= |s|
    decreases |s|, |s| + 1 - from
  {
    hide Find, WholeAt, DeleteToken;
    if from <= |s| {
      match Find(s, name, from)
      case None =>
      case Some(p) =>
        if !WholeAt(s, name, p) {
          RemoveNameShorter(s, name, p + 1);
        } else {
          RemoveNameShorter(DeleteToken(s, p, |name|), name, from);
        }
    }
  }

  /** A string in which the name no longer occurs is left as it is. */
  lemma RemoveNameAbsent(s: string, name: string, from: nat)
    requires name != [] && forall q :: from <= q ==> !OccursAt(s, name, q)
    ensures RemoveName(s, name, from) == s
  {
  }

  /** The entries different from `name`, in order. */
  function Without(xs: seq<string>, name: string): (r: seq<string>)
    ensures forall x :: x in r <==> x in xs && x != name
    ensures AllTokens(xs) ==> AllTokens(r)
  {
    if xs == [] then []
    else
      var rest := Without(xs[1..], name);
      assert forall i :: 1 <= i < |xs| ==> xs[i] == xs[1..][i - 1];
      if xs[0] == name then rest else [xs[0]] + rest
  }

  /** Cutting a name from the comma-join of names leaves the join of the
      other names, in their order. */
  lemma {:induction false} RemoveNameJoin(xs: seq<string>, name: string)
    requires AllTokens(xs) && IsToken(name)
    ensures RemoveName(Join(xs), name, 0) == Join(Without(xs, name))
    decreases |xs|
  {
    var s := Join(xs);
    if xs == [] {
      assert Find(s, name, 0).None?;
    } else {
      var x := xs[0];
      var t := Join(xs[1..]);
      assert s == Cons(x, t);
      RemoveNameJoin(xs[1..], name);
      if x == name {
        var k := |name|;
        assert s[..k] == name;
        assert OccursAt(s, name, 0);
        assert Find(s, name, 0) == Some(0);
        assert WholeAt(s, name, 0);
        assert DeleteToken(s, 0, k) == t by {
          if t != [] {
            assert s == x + [','] + t;
            assert s[k + 1..] == t;
          }
        }
      } else {
        JoinWellFormed(xs[1..]);
        RemoveNameShift(x, t, name, 0);
      }
    }
  }

  // -----------------------------------------------------------------------
  // Proof

  /** `x` in front of the comma-join `t`. */
  function Cons(x: string, t: string): string {
    if t == [] then x else x + [','] + t
  }

  /** A string with no empty comma-separated field: no leading or trailing
      comma and no two commas in a row. Comma-joins of tokens have it. */
  predicate WellFormed(t: string) {
    t == [] || (t[0] != ',' && t[|t| - 1] != ',' && NoDoubleComma(t))
  }

  predicate NoDoubleComma(t: string) {
    forall i, j :: 0 <= i < |t| && 0 <= j < |t| && j == i + 1 ==> t[i] != ',' || t[j] != ','
  }

  lemma NoDoubleCommaConcat(a: string, b: string)
    requires NoDoubleComma(a) && NoDoubleComma(b)
    requires a == [] || a[|a| - 1] != ','
    ensures NoDoubleComma(a + b)
  {
    var c := a + b;
    forall i, j | 0 <= i < j < |c| && j == i + 1
      ensures c[i] != ',' || c[j] != ','
    {
      if j < |a| {
        assert c[i] == a[i] && c[j] == a[j];
      } else if j > |a| {
        assert c[i] == b[i - |a|] && c[j] == b[j - |a|];
      }
    }
  }

  lemma NoDoubleCommaSlice(t: string, lo: nat, hi: nat)
    requires NoDoubleComma(t) && lo <= hi <= |t|
    ensures NoDoubleComma(t[lo..hi])
  {
    var u := t[lo..hi];
    forall i, j | 0 <= i < j < |u| && j == i + 1
      ensures u[i] != ',' || u[j] != ','
    {
      assert u[i] == t[lo + i] && u[j] == t[lo + j];
    }
  }

  lemma {:induction false} JoinWellFormed(xs: seq<string>)
    requires AllTokens(xs)
    ensures WellFormed(Join(xs))
    ensures xs != [] ==> Join(xs) != []
    decreases |xs|
  {
    if |xs| == 1 {
      assert Join(xs) == xs[0];
    } else if |xs| > 1 {
      var x := xs[0];
      var t := Join(xs[1..]);
      JoinWellFormed(xs[1..]);
      assert NoDoubleComma(x);
      var ct := [','] + t;
      forall i, j | 0 <= i < j < |ct| && j == i + 1
        ensures ct[i] != ',' || ct[j] != ','
      {
        if i > 0 { assert ct[i] == t[i - 1] && ct[j] == t[j - 1]; }
      }
      NoDoubleCommaConcat(x, ct);
      assert Join(xs) == x + ct;
    }
  }

  /** No whole occurrence of `name` starts inside the leading token `x`
      or just after it. */
  lemma NoWholeInHead(x: string, rest: string, name: string, p: nat)
    requires IsToken(x) && IsToken(name) && x != name
    requires rest == [] || rest[0] == ','
    requires p <= |x|
    ensures !WholeAt(x + rest, name, p)
  {
    var s := x + rest;
    var k := |name|;
    if p > 0 {
      assert s[p - 1] == x[p - 1];
    } else if k > |x| {
      if k <= |s| {
        assert s[..k][|x|] == ',';
      }
    } else if k < |x| {
      assert s[k] == x[k];
    } else {
      assert s[..k] == x;
    }
  }

  lemma OccursShift(x: string, t: string, name: string, j: nat)
    ensures OccursAt(x + [','] + t, name, |x| + 1 + j) <==> OccursAt(t, name, j)
  {
    var s := x + [','] + t;
    if j + |name| <= |t| {
      assert s[|x| + 1 + j..|x| + 1 + j + |name|] == t[j..j + |name|];
    }
  }

  /** A whole field other than the first starts two or more characters in. */
  lemma WholeAtInner(t: string, name: string, q: nat)
    requires WellFormed(t) && WholeAt(t, name, q) && q > 0
    ensures q >= 2
  {
    assert t[q - 1] == ',';
    assert t[0] != ',';
  }

  /** A whole field that is followed by a comma is not the last field. */
  lemma WholeAtNotLast(t: string, name: string, q: nat)
    requires WellFormed(t) && WholeAt(t, name, q) && q + |name| < |t|
    ensures q + |name| + 1 < |t|
  {
    assert t[q + |name|] == ',';
    assert t[|t| - 1] != ',';
  }

  lemma DeleteShiftInner(x: string, t: string, name: string, q: nat)
    requires IsToken(name) && WellFormed(t) && WholeAt(t, name, q) && q > 0
    ensures DeleteToken(x + [','] + t, |x| + 1 + q, |name|) == x + [','] + DeleteToken(t, q, |name|)
  {
    var s := x + [','] + t;
    var k := |name|;
    var p := |x| + 1 + q;
    assert s[..p - 1] == x + [','] + t[..q - 1];
    assert s[p + k..] == t[q + k..];
  }

  lemma DeleteShiftFirst(x: string, t: string, name: string)
    requires IsToken(name) && WellFormed(t) && WholeAt(t, name, 0)
    ensures DeleteToken(x + [','] + t, |x| + 1, |name|) == Cons(x, DeleteToken(t, 0, |name|))
  {
    var s := x + [','] + t;
    var k := |name|;
    var p := |x| + 1;
    assert s[..p - 1] == x;
    assert s[p + k..] == t[k..];
    if k < |t| {
      WholeAtNotLast(t, name, 0);
      assert t[k..] == [','] + t[k + 1..];
    }
  }

  lemma DeleteShift(x: string, t: string, name: string, q: nat)
    requires IsToken(name) && t != [] && WellFormed(t) && WholeAt(t, name, q)
    ensures DeleteToken(x + [','] + t, |x| + 1 + q, |name|) == Cons(x, DeleteToken(t, q, |name|))
  {
    if q > 0 {
      WholeAtInner(t, name, q);
      DeleteShiftInner(x, t, name, q);
      assert |DeleteToken(t, q, |name|)| > 0;
    } else {
      DeleteShiftFirst(x, t, name);
    }
  }

  lemma DeleteWellFormed(t: string, name: string, p: nat)
    requires IsToken(name) && WellFormed(t) && WholeAt(t, name, p)
    ensures WellFormed(DeleteToken(t, p, |name|))
  {
    var k := |name|;
    var d := DeleteToken(t, p, k);
    if p > 0 {
      WholeAtInner(t, name, p);
      var a := t[..p - 1];
      var b := t[p + k..];
      assert a[|a| - 1] == t[p - 2] != ',';
      NoDoubleCommaSlice(t, 0, p - 1);
      NoDoubleCommaSlice(t, p + k, |t|);
      NoDoubleCommaConcat(a, b);
      assert d == a + b;
      if b != [] {
        assert d[|d| - 1] == t[|t| - 1];
      }
    } else if k < |t| {
      WholeAtNotLast(t, name, 0);
      NoDoubleCommaSlice(t, k + 1, |t|);
      assert d[0] == t[k + 1];
      assert d[|d| - 1] == t[|t| - 1];
    }
  }

  /** A search past the head of `x,t` finds nothing exactly when the same
      search in `t` does. */
  lemma FindShiftNone(x: string, t: string, name: string, f: nat, q: nat)
    requires Find(x + [','] + t, name, f).None? && f <= |x| + 1 + q
    ensures Find(t, name, q).None?
  {
    forall j: nat | q <= j
      ensures !OccursAt(t, name, j)
    {
      OccursShift(x, t, name, j);
    }
  }

  /** A hit past the head of `x,t` is the shifted hit of the same search
      in `t`. */
  lemma FindShiftSome(x: string, t: string, name: string, f: nat, q: nat, p: nat)
    requires Find(x + [','] + t, name, f) == Some(p) && p > |x|
    requires q == (if f <= |x| + 1 then 0 else f - |x| - 1)
    ensures Find(t, name, q) == Some(p - |x| - 1)
  {
    var j := p - |x| - 1;
    OccursShift(x, t, name, j);
    forall i: nat | q <= i < j
      ensures !OccursAt(t, name, i)
    {
      OccursShift(x, t, name, i);
    }
  }

  /** A field past the head of `x,t` is whole there exactly when it is
      whole in `t`. */
  lemma WholeShift(x: string, t: string, name: string, p: nat)
    requires p > |x|
    ensures WholeAt(x + [','] + t, name, p) <==> WholeAt(t, name, p - |x| - 1)
  {
    var s := x + [','] + t;
    var j := p - |x| - 1;
    var k := |name|;
    OccursShift(x, t, name, j);
    if OccursAt(t, name, j) {
      assert s[p - 1] == if j == 0 then ',' else t[j - 1];
      assert p + k == |s| <==> j + k == |t|;
      if j + k < |t| { assert s[p + k] == t[j + k]; }
    }
  }

  /** Searching `Cons(x, t)` from the head, or from `f` past the head,
      edits the tail `t` as searching `t` alone would. */
  lemma {:induction false} RemoveNameShift(x: string, t: string, name: string, f: nat)
    requires IsToken(x) && IsToken(name) && x != name && WellFormed(t)
    ensures RemoveName(Cons(x, t), name, f) == Cons(x, RemoveName(t, name, TailFrom(x, f)))
    decreases |t|, |x| + |t| + 2 - f, 1
  {
    hide RemoveName, WholeAt, WellFormed;
    if f > |Cons(x, t)| {
      ShiftPast(x, t, name, f);
    } else {
      match Find(Cons(x, t), name, f)
      case None =>
        ShiftMiss(x, t, name, f);
      case Some(p) =>
        if p <= |x| {
          RemoveNameShiftHead(x, t, name, f, p);
        } else if WholeAt(Cons(x, t), name, p) {
          RemoveNameShiftCut(x, t, name, f, p);
        } else {
          RemoveNameShiftSkip(x, t, name, f, p);
        }
    }
  }

  /** Where a search from `f` in `x,t` starts in `t`. */
  function TailFrom(x: string, f: nat): nat {
    if f <= |x| + 1 then 0 else f - |x| - 1
  }

  /** The shift when the search starts past the end. */
  lemma ShiftPast(x: string, t: string, name: string, f: nat)
    requires IsToken(name) && f > |Cons(x, t)|
    ensures RemoveName(Cons(x, t), name, f) == Cons(x, RemoveName(t, name, TailFrom(x, f)))
  {
    if t == [] {
      assert Find(t, name, TailFrom(x, f)).None?;
    }
  }

  /** The shift when the search finds nothing. */
  lemma ShiftMiss(x: string, t: string, name: string, f: nat)
    requires IsToken(name) && Find(Cons(x, t), name, f).None?
    ensures RemoveName(Cons(x, t), name, f) == Cons(x, RemoveName(t, name, TailFrom(x, f)))
  {
    var q := TailFrom(x, f);
    if t == [] {
      assert Find(t, name, q).None?;
    } else if q <= |t| {
      assert Cons(x, t) == x + [','] + t;
      FindShiftNone(x, t, name, f, q);
    }
  }

  /** The shift when the search hits inside the head, where no whole
      field can start: the hit is skipped. */
  lemma {:induction false} RemoveNameShiftHead(x: string, t: string, name: string, f: nat, p: nat)
    requires IsToken(x) && IsToken(name) && x != name && WellFormed(t)
    requires Find(Cons(x, t), name, f) == Some(p) && p <= |x|
    ensures RemoveName(Cons(x, t), name, f) == Cons(x, RemoveName(t, name, TailFrom(x, f)))
    decreases |t|, |x| + |t| + 2 - f, 0
  {
    hide RemoveName, WholeAt, WellFormed;
    HeadHit(x, t, name, p);
    RemoveNameSkip(Cons(x, t), name, f, p);
    assert TailFrom(x, f) == 0 == TailFrom(x, p + 1);
    RemoveNameShift(x, t, name, p + 1);
  }

  /** The shift when the search hits a whole field in the tail: both sides
      cut it and search again from the same place. */
  lemma {:induction false} RemoveNameShiftCut(x: string, t: string, name: string, f: nat, p: nat)
    requires IsToken(x) && IsToken(name) && x != name && WellFormed(t)
    requires Find(Cons(x, t), name, f) == Some(p) && p > |x| && WholeAt(Cons(x, t), name, p)
    ensures RemoveName(Cons(x, t), name, f) == Cons(x, RemoveName(t, name, TailFrom(x, f)))
    decreases |t|, |x| + |t| + 2 - f, 0
  {
    hide RemoveName, WholeAt, WellFormed, Find, Cons, DeleteToken;
    var q := TailFrom(x, f);
    var j := p - |x| - 1;
    TailHit(x, t, name, f, p);
    TailCut(x, t, name, p);
    DeleteWellFormed(t, name, j);
    var dt := DeleteToken(t, j, |name|);
    RemoveNameShift(x, dt, name, f);
    ShiftCutStep(x, Cons(x, t), t, name, f, p, q, j, Cons(x, dt), dt);
  }

  /** The shift when the search hits a field in the tail that is not
      whole: both sides skip it. */
  lemma {:induction false} RemoveNameShiftSkip(x: string, t: string, name: string, f: nat, p: nat)
    requires IsToken(x) && IsToken(name) && x != name && WellFormed(t)
    requires Find(Cons(x, t), name, f) == Some(p) && p > |x| && !WholeAt(Cons(x, t), name, p)
    ensures RemoveName(Cons(x, t), name, f) == Cons(x, RemoveName(t, name, TailFrom(x, f)))
    decreases |t|, |x| + |t| + 2 - f, 0
  {
    hide RemoveName, WholeAt, WellFormed, Find, Cons;
    var q := TailFrom(x, f);
    var j := p - |x| - 1;
    TailHit(x, t, name, f, p);
    RemoveNameShift(x, t, name, p + 1);
    ShiftSkipStep(x, Cons(x, t), t, name, f, p, q, j, TailFrom(x, p + 1));
  }

  /** No whole field other than `x` itself starts inside the head `x`. */
  lemma HeadHit(x: string, t: string, name: string, p: nat)
    requires IsToken(x) && IsToken(name) && x != name && p <= |x|
    ensures !WholeAt(Cons(x, t), name, p)
  {
    var rest := if t == [] then [] else [','] + t;
    assert Cons(x, t) == x + rest;
    NoWholeInHead(x, rest, name, p);
  }

  /** A hit past the head of `x,t` is the hit of the search in `t` alone,
      and whole in one exactly when whole in the other. */
  lemma TailHit(x: string, t: string, name: string, f: nat, p: nat)
    requires Find(Cons(x, t), name, f) == Some(p) && p > |x|
    ensures t != []
    ensures Find(t, name, TailFrom(x, f)) == Some(p - |x| - 1)
    ensures WholeAt(Cons(x, t), name, p) <==> WholeAt(t, name, p - |x| - 1)
  {
    if t == [] {
      assert false;
    }
    assert Cons(x, t) == x + [','] + t;
    FindShiftSome(x, t, name, f, TailFrom(x, f), p);
    WholeShift(x, t, name, p);
  }

  /** Cutting a whole field of the tail of `x,t` cuts it from `t`. */
  lemma TailCut(x: string, t: string, name: string, p: nat)
    requires IsToken(name) && t != [] && WellFormed(t) && p > |x| && WholeAt(t, name, p - |x| - 1)
    ensures p + |name| <= |Cons(x, t)|
    ensures DeleteToken(Cons(x, t), p, |name|) == Cons(x, DeleteToken(t, p - |x| - 1, |name|))
  {
    assert Cons(x, t) == x + [','] + t;
    assert p + |name| <= |Cons(x, t)|;
    hide WellFormed, WholeAt;
    DeleteShift(x, t, name, p - |x| - 1);
  }

  /** One step of the search: a hit that is not a whole field is skipped. */
  lemma RemoveNameSkip(s: string, name: string, f: nat, p: nat)
    requires name != [] && f <= |s| && Find(s, name, f) == Some(p) && !WholeAt(s, name, p)
    ensures RemoveName(s, name, f) == RemoveName(s, name, p + 1)
  {
    hide DeleteToken;
  }

  /** One step of the search: a whole field is cut, and the search resumes
      from the same place. */
  lemma RemoveNameCut(s: string, name: string, f: nat, p: nat)
    requires name != [] && f <= |s| && Find(s, name, f) == Some(p) && WholeAt(s, name, p)
    ensures RemoveName(s, name, f) == RemoveName(DeleteToken(s, p, |name|), name, f)
  {
  }

  /** The skip step of the shift: when both searches hit a field that is
      not whole, the shift from just past the hits gives the shift from the
      start of the search. */
  lemma ShiftSkipStep(x: string, s: string, t: string, name: string, f: nat, p: nat, q: nat, j: nat, r: nat)
    requires name != [] && f <= |s| && q <= |t| && r == j + 1
    requires Find(s, name, f) == Some(p) && !WholeAt(s, name, p)
    requires Find(t, name, q) == Some(j) && !WholeAt(t, name, j)
    requires RemoveName(s, name, p + 1) == Cons(x, RemoveName(t, name, r))
    ensures RemoveName(s, name, f) == Cons(x, RemoveName(t, name, q))
  {
    RemoveNameSkip(s, name, f, p);
    RemoveNameSkip(t, name, q, j);
  }

  /** The cut step of the shift: when both searches hit a whole field, the
      shift of the strings with the field cut gives the shift of the
      originals. */
  lemma ShiftCutStep(x: string, s: string, t: string, name: string, f: nat, p: nat, q: nat, j: nat,
                     sd: string, td: string)
    requires name != [] && f <= |s| && q <= |t|
    requires Find(s, name, f) == Some(p) && WholeAt(s, name, p)
    requires Find(t, name, q) == Some(j) && WholeAt(t, name, j)
    requires sd == DeleteToken(s, p, |name|) && td == DeleteToken(t, j, |name|)
    requires RemoveName(sd, name, f) == Cons(x, RemoveName(td, name, q))
    ensures RemoveName(s, name, f) == Cons(x, RemoveName(t, name, q))
  {
    RemoveNameCut(s, name, f, p);
    RemoveNameCut(t, name, q, j);
  }
}
